=== FILE: README.md ===
# YouTube-Summarizer in Dafny

A model of the logic of YouTube-Summarizer, a small JavaScript application that
summarizes YouTube videos from their captions. It covers three parts:

- the serverless function `api/summarize.js`. It resolves and validates the video id,
  fetches the captions through a transcript library, cleans them and clips them to
  500 words. It then builds a local extractive summary (sentence splitting, a
  term-frequency table, sentence scoring, a stable ranking, key points and topics) and
  turns every failure into an HTTP status;
- the Express server `server.js`. It validates a request and fetches and truncates the
  transcript (12 000 words, refusing more than 24 000). It hands the text to a
  language model, strips code fences from the reply, reads the reply's JSON fields with
  defaults, and maps errors to statuses;
- the browser helpers of `script.js`: HTML escaping (`sanitize`), the URL check and the
  client's copy of the id extractor, the bounded history list and the input gate of
  `summarize()`.

Everything is pure functions over immutable data:

- strings are `seq<char>`, and a `char` stands for one UTF-16 code unit;
- the transcript library is a function parameter `fetch: Option<string> -> Result<seq<Segment>, Fault>`;
- `JSON.parse` is a parameter `parse: string -> Option<Json>`;
- the language-model call is a parameter `complete`.

Modules (one file each):

| module | file | what it holds |
|---|---|---|
| `Wrappers` | wrappers.dfy | `Option`, `Result` |
| `Values` | values.dfy | the JavaScript values a request body field can hold (`undefined`, `null`, a string, anything else), with truthiness, `String(v)` and `??` |
| `Text` | text.dfy | JavaScript `\s`, `split(/\s+/).filter(Boolean)`, `join(' ')`, `trim()`, `replace(/\s+/g, ' ')`, `includes` |
| `VideoId` | video_id.dfy | the unanchored `lead([\w-]{11})` patterns as leftmost-match scanners, `extractVideoId`, `isValidVideoId` |
| `Ranking` | ranking.dfy | a stable sort by score for any score function, and the summary/key-point selection |
| `Transcript` | transcript.dfy | `cleanSegment`, the language search of `getTranscript`, `getTranscript`, `clipToWords` |
| `Summarizer` | summarizer.dfy | `splitSentences`, `computeWordFrequency`, `scoreSentence`, `formatKeyPoint`, `capitalize`, `extractTopics`, `buildSummary` |
| `ApiHandler` | api_handler.dfy | `handler` of api/summarize.js: request classification, response payload, `handleError` |
| `Server` | server.dfy | the POST route of server.js, `fetchTranscript`, `parseClaudeResponse`, `handleServerError` |
| `Client` | client.dfy | `sanitize`, `isValidYouTubeUrl`, the client `extractVideoId`, `saveToHistory`, the gate of `summarize()` |

## Model

| member | source | states |
|---|---|---|
| Text.Words | api/summarize.js:451-453 | The pieces of `split(/\s+/).filter(Boolean)` are non-empty and hold no whitespace. |
| Text.WordsOfJoin | api/summarize.js:184-191 | Splitting words joined by single spaces gives back exactly those words, so the word count of a joined window is its number of words. |
| Text.WordsOfJoinAll | api/summarize.js:155-158 | Joining any strings with single spaces neither merges nor splits their words. |
| Text.Trim | api/summarize.js:416 | `trim()` returns the window from the first to the last non-whitespace character: nothing else is dropped, no whitespace is left at either end, and trimmed text is unchanged. |
| Text.WordsOfTrim | server.js:135 | Trimming keeps the words. |
| Text.TrimEmpty | server.js:135-136 | A trimmed text is empty (and dropped by `filter(Boolean)`) exactly when the text has no word. |
| Text.Squish | api/summarize.js:159-160 | `replace(/\s+/g, ' ').trim()` gives the words of its input joined by single spaces. |
| Text.SquishIsJoinOfWords | api/summarize.js:159-160 | The literal scan of the two replacements equals the join of the words. |
| Text.SquishProperties | api/summarize.js:159-160 | The result has no leading, trailing or doubled whitespace, keeps exactly the words of its input, is empty exactly when there is no word, and a second pass changes nothing. |
| VideoId.ValidIdExamples | summarize.test.js:83-94 | An eleven-character id is valid; ids of three or fourteen characters, one with a '!', or a non-string value are not. |
| VideoId.FindFrom | api/summarize.js:416 | The search returns the leftmost position at or after the start where the pattern matches, and there is no match before it. |
| VideoId.Capture | api/summarize.js:416-417 | There is no capture exactly when the pattern matches nowhere; a capture is always a valid id. |
| VideoId.CaptureAt | api/summarize.js:416-417 | The capture is the eleven characters after the leftmost match, wherever that is. |
| VideoId.FirstCapture | api/summarize.js:415-419 | The first pattern that matches decides, and there is no result only when no pattern matches. |
| VideoId.FirstCaptureIsFirst | api/summarize.js:415-418 | The result comes from a matching pattern and every earlier pattern fails. |
| VideoId.FirstMatchDecides | api/summarize.js:415-418 | Conversely, when a pattern is the first to match, its capture is the result. |
| VideoId.FirstCapturePrefix | api/summarize.js:415-418 | Once one of the first patterns matches, the later ones are never consulted. |
| VideoId.ExtractVideoId | api/summarize.js:405-420 | The result is null for a missing, empty or non-string input. Otherwise it is null exactly when none of the five patterns matches the trimmed input and the trimmed input is not a bare id. A result is the capture of the first pattern that matches, with every earlier pattern failing; only when none matches is it the bare trimmed input. It is a valid id that occurs in the trimmed input. |
| VideoId.BareIdExtracts | api/summarize.js:413 | A bare id is its own id. |
| VideoId.WatchUrlExtracts | summarize.test.js:48-65 | A watch URL whose first '?' or '&' starts `?v=<id>` yields that id, whatever follows. |
| VideoId.FencedCapture | api/summarize.js:408-412 | After a prefix whose non-id characters are never eleven apart, a pattern captures the id that follows exactly when its lead ends right before that id, and otherwise does not match at all. |
| VideoId.ShortsUrlExtracts | summarize.test.js:54-56 | `https://www.youtube.com/shorts/<id>` yields the id: the watch and short-link patterns do not match, and `shorts/` does, right before the id. |
| VideoId.EmbedUrlExtracts | summarize.test.js:57-59 | `https://www.youtube.com/embed/<id>` yields the id: the watch, short-link and shorts patterns do not match, and `embed/` does, right before the id. |
| Ranking.SortBy | api/summarize.js:255 | Sorting under a strict total order gives a permutation of its input in that order. |
| Ranking.SortedUnique | api/summarize.js:255 | Two sorted permutations of the same elements are equal, so any stable sort by descending score yields this one ranking. |
| Ranking.RanksBeforeIsStrictTotal | api/summarize.js:255 | Higher score first, ties in original order, is a strict total order: this is what a stable sort by `b.score - a.score` leaves. |
| Ranking.Rank | api/summarize.js:255 | The ranking is a permutation of the positions, each one ranking before every later one. |
| Ranking.Ascending | api/summarize.js:261 | Re-sorting by index gives the same positions in increasing order. |
| Ranking.TopRanksFirst | api/summarize.js:259-260 | The first k ranked positions rank before every position left out. |
| Ranking.Select | api/summarize.js:258-268 | The summary takes the `min(3, max(1, floor(n/4)))` best positions and the key points the next `min(5, n - count)`. Both groups are in index order and disjoint, and each chosen position ranks before every position left out. |
| Transcript.StripGroups | api/summarize.js:438-439 | The lazy `\[.*?\]` / `\(.*?\)` replacement never lengthens the text. |
| Transcript.StripLeavesNoGroup | api/summarize.js:438-439 | No bracketed group is left after the global replacement. |
| Transcript.StripWithoutGroups | api/summarize.js:438-439 | Text without groups is left unchanged. |
| Transcript.StripIdempotent | api/summarize.js:438-439 | Removing groups twice is removing them once. |
| Transcript.ReplaceEntities | api/summarize.js:440-441 | Replacing entities by a space never lengthens the text. |
| Transcript.ReplaceLeavesNoEntity | api/summarize.js:440-441 | No entity of the replaced kind is left afterwards (so no `&#` entity survives, as the tests ask). |
| Transcript.ReplaceWithoutEntities | api/summarize.js:440-441 | Text without entities is left unchanged. |
| Transcript.ReplaceIdempotent | api/summarize.js:440-441 | Replacing entities twice is replacing them once. |
| Transcript.CleanSegment | api/summarize.js:436-444 | The cleaned text has no leading, trailing or doubled whitespace, and it is empty exactly when no word survives the group and entity passes. |
| Transcript.CleanMissing | summarize.test.js:148-149 | A missing text cleans to the empty string. |
| Transcript.CleanPlainText | api/summarize.js:436-444 | Text without '[', '(' or '&' is only whitespace-normalised. |
| Transcript.CleanSegmentDropsBrackets | summarize.test.js:142-143 | `"[موسيقى] مرحباً"` cleans to `"مرحباً"`. |
| Transcript.CleanSegmentCollapses | summarize.test.js:151-152 | `"كلمة   أخرى"` cleans to `"كلمة أخرى"`. |
| Transcript.CleanSegmentNotIdempotent | api/summarize.js:438-443 | Cleaning is not idempotent: `"[a\nb]"` cleans to `"[a b]"`, which cleans to `""`. |
| Transcript.LanguagesAreCodes | api/summarize.js:122 | Every priority language is a two-letter code, never `'auto'`. |
| Transcript.FirstSuccess | api/summarize.js:127-135 | The loop stops at the first language whose request succeeds; all earlier ones failed; no success means all failed. |
| Transcript.RequestsStopAtFirstSuccess | api/summarize.js:127-140 | Exactly the languages up to the first success are requested, in order; the automatic request is made only after all of them failed. |
| Transcript.FetchSegments | api/summarize.js:120-149 | A language result comes from the first succeeding language; `'auto'` is used exactly when all languages fail and the automatic request succeeds. A failing automatic request becomes `NO_TRANSCRIPT` when its message says 'disabled' or 'Could not get', and is rethrown unchanged otherwise. |
| Transcript.CleanAll | api/summarize.js:155-157 | The kept cleaned segments are non-empty and single-spaced. |
| Transcript.FullText | api/summarize.js:155-160 | The full text is single-spaced, holds the words of the cleaned segments in order, and is empty exactly when every segment cleans to nothing. |
| Transcript.GetTranscript | api/summarize.js:120-170 | Fetch failures propagate; zero segments give `NO_TRANSCRIPT`; an empty text gives `EMPTY_TRANSCRIPT`. Success happens exactly when some segment keeps a word, and then the text is non-empty and single-spaced, has the language of the fetch, and `totalWords` is its word count. |
| Transcript.EmptyCuesAreEmpty | api/summarize.js:151-163 | A caption track in the first language whose only cue has no text ends in `EMPTY_TRANSCRIPT` rather than in a transcript or `NO_TRANSCRIPT`. |
| Transcript.LastIndexOf | api/summarize.js:195 | `lastIndexOf` gives the last position holding the character, or -1. |
| Transcript.LastMark | api/summarize.js:194-199 | The maximum of the four `lastIndexOf` calls is the last sentence mark, or -1. |
| Transcript.CutAtMark | api/summarize.js:194-204 | The cut is a prefix of the window that drops no mark. A cut ends at a mark past 60% of the window, and a mark past 60% forces a cut at the last mark. |
| Transcript.ClipToWords | api/summarize.js:183-210 | `wordCount` is the result's own word count and at most the budget. A text within the budget is returned unchanged; a longer one becomes its first `maxWords` words, single-spaced, cut at a sentence mark. |
| Transcript.ClipIdempotent | api/summarize.js:183-210 | Clipping twice is clipping once. |
| Summarizer.MatchEnd | api/summarize.js:293 | The separator matches after a sentence mark followed by whitespace (taking the whole run) or, empty, right after a line feed, and nowhere else. |
| Summarizer.SplitSentences | api/summarize.js:291-296 | Every sentence is non-empty and trimmed. |
| Summarizer.SplitUnbroken | api/summarize.js:291-296 | A text without a sentence break is one sentence, its trimmed self, or none when it holds no word: the text is cut only at breaks. |
| Summarizer.SplitAfterMark | api/summarize.js:291-296 | A sentence ending in `.`, `!`, `?` or `؟`, followed by whitespace, is cut off, and the rest is split on its own. |
| Summarizer.SplitAfterLineFeed | api/summarize.js:291-296 | A sentence followed by a line feed is cut off after it, and the rest is split on its own. |
| Summarizer.SplitExample | api/summarize.js:291-296 | `"Hi there. Bye"` splits into `"Hi there."` and `"Bye"`. |
| Summarizer.SplitSentencesKeepsWords | api/summarize.js:291-296 | The sentences hold exactly the words of the text, in order. |
| Summarizer.SentencesHaveNoBreak | api/summarize.js:291-296 | No sentence holds a line feed or a mark followed by whitespace: the split is maximal. |
| Summarizer.Normalize | api/summarize.js:324-325 | Lower-casing and replacing every other character by a space keeps the length, leaves only term characters and whitespace, and keeps every term character. |
| Summarizer.LongWordsFilter | api/summarize.js:327 | The length filter keeps every occurrence of a word longer than three characters and nothing else. |
| Summarizer.NonStopWordsFilter | api/summarize.js:305-327 | The stop-word filter keeps every occurrence of a non-stop word and nothing else. |
| Summarizer.TermsFilter | api/summarize.js:323-327 | The counted terms are the normalized words longer than three characters that are not stop words, each as often as it occurs. |
| Summarizer.TermsAreLowerCase | api/summarize.js:323-327 | Every term is longer than three characters, is not a stop word, and is made of Arabic letters, lower-case ASCII letters and digits. |
| Summarizer.Tally | api/summarize.js:329-331 | The loop's table counts every word as often as it occurs, with distinct keys and positive counts that add up to the number of words; its keys are exactly the words, in the order of their first occurrence (the `Map` insertion order). |
| Summarizer.Bump | api/summarize.js:330 | `freq.set` increments a present key in place, leaving the key order unchanged, and appends a new key with count 1. |
| Summarizer.WordFrequency | api/summarize.js:303-334 | Each term is counted as often as it occurs; every count is positive; keys are distinct; the counts add up to the number of terms; the keys are exactly the terms, in the order of their first occurrence. |
| Summarizer.CountOfEntry | api/summarize.js:330 | An entry of the table holds the count looked up for its key. |
| Summarizer.CountSum | api/summarize.js:354 | The sum of table counts is zero exactly when no word is in the table. |
| Summarizer.MeanCount | api/summarize.js:351-354 | The mean count is non-negative and zero exactly when no word is in the table (or there is none). |
| Summarizer.PositionBonus | api/summarize.js:357-359 | The position bonus lies between 1.0 and 1.3. |
| Summarizer.LengthPenalty | api/summarize.js:362-364 | The length penalty lies between 0.7 and 1.0. |
| Summarizer.ScoreSentence | api/summarize.js:344-367 | A score is within 0.7 and 1.3 times the mean count of the sentence's terms, so it is never negative, and it is zero exactly when none of its terms is in the table. |
| Summarizer.ScaleMonotone | api/summarize.js:357-366 | A larger position bonus never lowers a score. |
| Summarizer.EndsScoreHighest | api/summarize.js:357-359 | A sentence scores highest in the first or last place of its text. |
| Summarizer.FormatKeyPoint | api/summarize.js:386-394 | A key point ends in a sentence mark and has at most 151 characters. A sentence over 150 characters becomes its first 147 and "..."; a shorter one is kept, and gains a '.' exactly when it does not already end in a mark. |
| Summarizer.FormatKeyPointStable | api/summarize.js:386-394 | Shaping twice is shaping once, except for a 150-character sentence without a final mark. |
| Summarizer.FormatKeyPointNotIdempotent | api/summarize.js:386-394 | Some sentence is shaped differently the second time. |
| Summarizer.Capitalize | api/summarize.js:460-462 | Capitalizing keeps the length and every character after the first. |
| Summarizer.CapitalizeInjective | api/summarize.js:460-462 | Different terms stay different once capitalized. |
| Summarizer.TopEntries | api/summarize.js:375-377 | The topics come from the `min(5, entries)` most frequent entries. They are ordered by count with ties in insertion order, and each one ranks before every entry left out. |
| Summarizer.ExtractTopics | api/summarize.js:374-379 | Topics are the capitalized words of the top entries, in that order, and there are at most five. |
| Summarizer.TopicsAreDistinct | api/summarize.js:374-379 | No topic is repeated. |
| Summarizer.TopicsAreMostFrequent | api/summarize.js:375-377 | No word left out is more frequent than a topic, and topics go from the most frequent down. |
| Summarizer.LongSentences | api/summarize.js:233 | Only sentences of at least 40 characters are kept. |
| Summarizer.LongSentencesFilter | api/summarize.js:233 | The filter keeps every occurrence of a sentence of at least 40 characters, in order, and drops every shorter one. |
| Summarizer.Qualifying | api/summarize.js:233 | The ranked sentences are trimmed and at least 40 characters long. |
| Summarizer.Choose | api/summarize.js:248-269 | There are `min(5, n - count)` key points and a non-empty summary, all valid positions. |
| Summarizer.ChooseSelects | api/summarize.js:248-269 | The choice is the selection of the ranking by the sentences' scores. |
| Summarizer.Assemble | api/summarize.js:258-279 | For any valid choice of positions, the summary joins the chosen sentences and the key points shape the next ones. The record is well shaped and carries the sentence count and the given topics. |
| Summarizer.SummaryShape | api/summarize.js:263 | Joining the chosen sentences needs no trimming and gives at least 40 characters. |
| Summarizer.KeyPointsShape | api/summarize.js:266-269 | Every key point is short and ends in a sentence mark. |
| Summarizer.BuildSummary | api/summarize.js:229-280 | Without a qualifying sentence the result is the first 300 characters and empty lists with a count of 0. Otherwise it has the qualifying-sentence count, the expected shape, and the top terms as topics. |
| Summarizer.SummaryFollowsRanking | api/summarize.js:255-269 | The summary joins the sentences of a selection by score, and the key points shape the sentences that follow it in the ranking. |
| Summarizer.SummaryWords | api/summarize.js:259-263 | The summary holds exactly the words of the chosen sentences. |
| Client.ReplaceChar | script.js:627-631 | After replacing a character by a text without it, the character is gone. |
| Client.Sanitize | script.js:624-632 | The output has no `<`, `>`, `"` or `'`; every '&' starts one of the five entities; text without special characters is unchanged. |
| Client.ChainSpecial | script.js:627-631 | The k-th replacement turns the k-th special character into its entity, and no other replacement touches it. |
| Client.SanitizeIsEscape | script.js:626-631 | The five global replacements in sequence escape each character independently. |
| Client.EscapeNoMarkup | script.js:624-632 | Escaping leaves no markup character. |
| Client.EscapeEntities | script.js:627-631 | Every '&' of an escaped text starts an entity. |
| Client.UnescapeSanitize | script.js:624-632 | Decoding the five entities recovers the input: nothing is lost. |
| Client.IsValidYouTubeUrl | script.js:69-81 | A non-empty input whose trimmed text starts with `http://` or `https://`, a host of one of the five forms and its path, followed by an id, or for the two watch forms by any text without a line terminator, then `v=` and an id. Trailing text is allowed. |
| Client.DirectFormAccepted | script.js:74-76 | Over either scheme and any of their hosts, the short-link, shorts and embed forms followed by an id and any trailing text are accepted. |
| Client.WatchFormAccepted | script.js:73-77 | Over either scheme, `youtube.com/`, `www.youtube.com/` or `m.youtube.com/` followed by `watch?`, any text without a line terminator, `v=`, an id and any trailing text is accepted. |
| Client.BareIdRejected | script.js:72-80 | A bare id is not accepted: every form starts with a scheme. |
| Client.ClientExtract | script.js:88-104 | Empty input gives null. Otherwise the result is null exactly when none of the four patterns matches the untrimmed input; a result is the capture of the first pattern that matches, every earlier one failing, and always a valid id. |
| Client.CaptureTrim | script.js:98-101 | Searching the trimmed or the untrimmed text finds the same capture. |
| Client.ClientAgreesWithApi | script.js:88-104 | Whenever the client copy finds an id, the server extractor finds the same one. |
| Client.SaveToHistory | script.js:585-589 | The entry goes in front of the previous entries in order, and the last one is dropped only when the list grew past ten. |
| Client.SaveAllKeepsNewest | script.js:585-589 | Starting from at most ten entries, the history holds the ten most recent entries, newest first. |
| Client.SummarizeGate | script.js:277-299 | Nothing happens while loading; an input without a word gives 'empty'. Otherwise a request is made exactly when the URL check accepts the input and the client extractor finds an id in the trimmed input. The request carries that id, which is also the id the API would extract. |
| Client.ShortLinkRequested | script.js:69-81 | A link `https://youtu.be/<id>` is an accepted URL, and `summarize()` requests exactly that id. |
| Client.ShortLinkCaptured | script.js:88-104 | The client copy finds the id of a short link: the watch pattern cannot match, and the short-link pattern matches first. |
| Client.StrayLetterBeforeV | script.js:69-104 | `https://www.youtube.com/watch?xv=<id>` passes the URL check, yet the client extractor finds no id in it, so `summarize()` reports an invalid URL. |
| Client.NoClientCapture | script.js:88-104 | None of the four client patterns matches `https://www.youtube.com/watch?xv=<id>`. |
| Client.TrimTwice | script.js:281 | The gate's trim before the URL check's own trim is harmless, and the API's extractor sees through it. |
| ApiHandler.Decide | api/summarize.js:39-60 | OPTIONS is a preflight; other non-POST methods get 405. For POST, `INVALID_INPUT` means no usable id after `??`, `INVALID_VIDEO_ID` a present but invalid `videoId`, and otherwise the request proceeds with the body's id or the URL's. |
| ApiHandler.VideoIdTakesPrecedence | api/summarize.js:47-60 | A `videoId` in the body wins over the URL, valid or not. |
| ApiHandler.UrlIsExtracted | api/summarize.js:47-48 | Without a `videoId`, the id extracted from the URL is summarized. |
| ApiHandler.HandlerExamples | summarize.test.js:203-235 | OPTIONS → preflight; GET → 405; empty POST → `INVALID_INPUT`; `{ videoId: 'INVALID' }` → `INVALID_VIDEO_ID`. |
| ApiHandler.WatchUrlRoundTrip | api/summarize.js:78 | The response's watch URL leads back to its id. |
| ApiHandler.Sample | api/summarize.js:90 | The sample is the text when at most 200 characters long, else its first 200 characters followed by "...". |
| ApiHandler.ReadSeconds | api/summarize.js:99 | `readSeconds` is `ceil(words / 3)`. |
| ApiHandler.BuildPayload | api/summarize.js:66-101 | The payload carries the id, its thumbnails and the transcript's language and count. At most 500 words are used and reported, with the matching reading time; `wasTrimmed` says whether the transcript had more than 500 words. The sample is taken from the clipped text, and the summary, key points, topics and sentence count are those `buildSummary` gives for it. |
| ApiHandler.PayloadCounts | api/summarize.js:85-89 | The words used never exceed the total, and `wasTrimmed` holds exactly when fewer words were used than the transcript holds. |
| ApiHandler.HandleError | api/summarize.js:485-525 | Known codes keep their status (404, 422, 404) and video id. Without a known code the reply has no video id: it is 404 `NO_TRANSCRIPT` exactly when the message reports 'disabled' or 'Could not get transcript', 404 `VIDEO_UNAVAILABLE` exactly when it does not but reports 'not found' or 'unavailable', and 500 `INTERNAL_ERROR` otherwise. 422 happens exactly for `EMPTY_TRANSCRIPT`. |
| ApiHandler.Handle | api/summarize.js:31-108 | 204 exactly for OPTIONS; 200 exactly when the request proceeds and the transcript is obtained; every status is one of 200, 204, 400, 404, 405, 422, 500. A rejected request gets the rejection's status and code. A request that proceeds gets `handleError` of the transcript failure, or 200 with the payload built from its id and transcript. |
| ApiHandler.ValidIdOutcomes | summarize.test.js:237-248 | A valid id gets 200, 404, 422 or 500, whatever the transcript library does. |
| ApiHandler.EmptyCaptionsGive422 | summarize.test.js:237-248 | A valid id whose captions have only an empty cue is answered with 422 `EMPTY_TRANSCRIPT` and its id. |
| ApiHandler.SuccessfulResponse | api/summarize.js:75-99 | A 200 response's URL leads back to its id; it uses at most 500 words, no more than the total; and `wasTrimmed` says whether some were left out. |
| ApiHandler.RethrownMessagesAreNotCaptionErrors | api/summarize.js:142-147 | An error that `getTranscript` rethrows without a code contains neither 'disabled' nor 'Could not get transcript'. |
| Server.HandleServerError | server.js:299-329 | Own codes first (404, 422, 400). Then 401 for status 401 or an authentication error type, 429 for 429, and 503 for 529 or 503. 500 otherwise, each exactly under its condition. |
| Server.KnownCodesComeFirst | server.js:309-317 | A known code decides even when the error also carries a model API status. |
| Server.ParseMode | server.js:57-64 | Detailed exactly for a missing mode or the string `detailed`, brief and bullets exactly for their strings, nothing for any other value (null, non-strings, other strings). |
| Server.Validate | server.js:57-66 | `INVALID_ID` for a falsy id or one whose text is not eleven id characters, checked before the mode. Then `INVALID_MODE`; otherwise the request carries the id and the mode. |
| Server.ValidIdDefaults | server.js:57-66 | A valid id without a mode asks for detailed; a valid id is accepted exactly when the mode is missing or one of the strings `detailed`, `brief`, `bullets`, and any other mode gets 400 `INVALID_MODE`. |
| Server.ServerLanguagesAreCodes | server.js:106 | Every priority language is a two-letter code. |
| Server.FetchSegments | server.js:105-131 | The language is the first one that succeeds, or `'auto'` exactly when all fail and the automatic request succeeds; any automatic failure becomes `NO_TRANSCRIPT`. |
| Server.Texts | server.js:135 | The texts are read exactly when every segment has one. |
| Server.TrimmedTexts | server.js:135-136 | The trimmed texts kept are non-empty. |
| Server.TrimmedTextsWords | server.js:134-136 | Trimming and dropping empty texts loses no word. |
| Server.FullText | server.js:134-139 | The full text holds the words of all texts, joined by single spaces. |
| Server.Truncate | server.js:141-156 | No words give `NO_TRANSCRIPT`; over 24 000 give `VIDEO_TOO_LONG`; over 12 000 give the first 12 000 words and "..."; otherwise the full text. `wordCount` is always the untruncated count, and the text holds `min(count, 12000)` words. |
| Server.EllipsisKeepsCount | server.js:146-147 | The appended "..." sticks to the last word and adds none. |
| Server.FetchTranscript | server.js:105-157 | A fetch failure is `NO_TRANSCRIPT`; a segment without text throws a `TypeError`; otherwise the truncation rule applies. A result has the fetch's language and between 1 and 24 000 words. |
| Server.ReadMinutes | server.js:85 | `readMinutes` is `ceil(wordCount / 200)`. |
| Server.LookupFindsLast | server.js:258 | A field is found exactly when one has the key, and then it is the last one with that key. |
| Server.OrElse | server.js:263-267 | `parsed[key] \|\| otherwise` is the field when it is present and truthy, and the default otherwise. |
| Server.ArrayOr | server.js:268-269 | An array field is kept; anything else becomes the empty list. |
| Server.StripFences | server.js:251-255 | The text handed to `JSON.parse` is trimmed. |
| Server.FencedReply | server.js:250-255 | A reply wrapped in a fence opened by three backticks and `json` in any letter case, with any whitespace around it, loses the fence and nothing else. |
| Server.UpperCaseFence | server.js:252 | The `json` tag is matched without regard to case: a ```` ```JSON ```` fence is removed like a lower-case one. |
| Server.BareFencedReply | server.js:250-255 | A reply wrapped in a bare three-backtick fence, with any whitespace around it, loses the fence and nothing else. |
| Server.PlainReply | server.js:251-255 | A trimmed reply without fences reaches `JSON.parse` unchanged. |
| Server.ParseClaudeResponse | server.js:249-288 | The title is always truthy and there are at most five topics. An unparsable (or null) reply gives the raw text as summary, empty lists and the fallback title. A parsed reply keeps its array fields (at most five topics) and its truthy title, or else gets the default title; channel, duration, language, summary and verdict are the field when truthy and null otherwise. |
| Server.Parsed | server.js:261-271 | The summary of a parsed reply carries the video id, and every field is read from the reply with the defaults above. |
| Server.FenceIsTransparent | server.js:250-282 | A reply fenced with ```` ```json ```` (any letter case) and whitespace, and the bare reply, give the same summary object when the bare reply is trimmed, does not start or end with a backtick, and parses to a non-null value. An unparsable or null reply keeps its raw text as summary, fence included (server.js:282), so there the two differ. |
| Server.FenceShowsWhenUnparsed | server.js:251-282 | When the bare reply does not parse or parses to `null`, each reply's summary is its own raw text, so the fenced and the bare reply give different summaries. |
| Server.Summarize | server.js:56-92 | Validation failures are returned as is. A valid request whose transcript fetch fails gets `handleServerError` of that failure, and so does one whose language-model call fails. Otherwise the payload holds the id, its thumbnail, the parsed reply and the fetched word and character counts with a reading time of `ceil(words / 200)`. |
| Server.FetchFailuresAreReported | server.js:299-312 | A failed transcript fetch is answered with 404 `NO_TRANSCRIPT`, 422 `VIDEO_TOO_LONG` or 500, never with a model API status. |

## Left out

- I/O is not modelled: the transcript library, the language-model call (`summarizeWithClaude`'s request) and `JSON.parse` are parameters. Their behaviour is whatever the parameter does; the library is assumed to answer the same request the same way.
- Express setup, middleware, static files, the health route and `app.listen`; the Vercel response object and CORS headers; the DOM, rendering, animations, clipboard, theme, timers, the mock API and `localStorage` of script.js. These are plumbing or browser state.
- Timestamps (`generatedAt`, `timestamp`), console logging and the Arabic human-readable error messages. Errors are modelled by status and code only.
- The prompt templates `buildSystemPrompt` and `buildUserPrompt`: they are fixed texts.
- `Array.prototype.sort` is taken to be stable, as the language has required since ES2019; the ranking relies on it for ties.
- Floating point: sentence scores are `real`. The 0.6 and 0.2 thresholds of `clipToWords` and `scoreSentence` are compared exactly. A tie that double rounding would break differently is not captured.
- Unicode: a `char` is one UTF-16 code unit; lower- and upper-casing cover ASCII only (Arabic has no case).
- JavaScript objects: a parsed reply is a `Json` value whose object fields are a list, and `parsed[key]` reads the last field with that key. Prototype properties (`__proto__`, `toString`) are not modelled.
- Summarizer.ScoreSentence: the contract bounds the score between 0.7 and 1.3 times the mean count and says when it is zero. The exact product of mean count, position bonus and length penalty is only in the body; the bonus and the penalty have their own bounds.
- Client.Sanitize: only string inputs are modelled. For them the `String(str)` coercion is the identity, and a falsy input is the empty string, which maps to itself.
- Client.SummarizeGate: `summarize()` continues past the gate into the mock API and rendering, which are left out.
- Server.BareFencedReply: stated for replies that do not begin with `j` or `J` right after a bare fence. A reply that begins with `json` there loses those letters to the first replacement, as server.js does, and a reply beginning with another `j` word is not covered by the lemma.
- Server.Validate: a non-string `videoId` is checked through `String(v)`, as `RegExp.test` does; the route then proceeds with that text.
- Server.Truncate: `fullText.split(/\s+/)` is modelled as the word list. The two agree because `fullText` is non-empty and trimmed at that point.
- ApiHandler.Handle: `transcript.totalWords > MAX_WORDS` is modelled as is. Its agreement with "fewer words were used" is a lemma.
- `errorResponse`: it only wraps the code and message with a timestamp.

## Observations

- `cleanSegment` is not idempotent (`Transcript.CleanSegmentNotIdempotent`): `.` in `\[.*?\]` stops at a line feed, which the later whitespace pass turns into a space.
- `formatKeyPoint` is not idempotent (`Summarizer.FormatKeyPointNotIdempotent`): a 150-character sentence without a final mark gains a '.', and the resulting 151 characters are cut to 147 plus "..." on a second pass.
- The message test of `handleError` at api/summarize.js:509 never fires for an error rethrown by `getTranscript` (`ApiHandler.RethrownMessagesAreNotCaptionErrors`). `getTranscript` has already turned every message with 'disabled' or 'Could not get' into the `NO_TRANSCRIPT` code, so only errors from elsewhere could reach that test.
- A valid id can also receive 422 `EMPTY_TRANSCRIPT` (`ApiHandler.EmptyCaptionsGive422`), but the test at summarize.test.js:237-248 accepts only 200, 404 and 500.
- `isValidYouTubeUrl` accepts `https://www.youtube.com/watch?xv=<id>`, because its `.*v=` lets any text come before `v=`. None of the client's extraction patterns matches that input, since `[?&]v=` needs the `v` right after the `?`. So `summarize()` reports such a URL as invalid (`Client.StrayLetterBeforeV`), even though the URL check accepted it.

=== FILE: api_handler.dfy ===
/** The serverless entry point of api/summarize.js: request checks, the response
    payload built from the transcript and its summary, and the mapping of errors to
    HTTP statuses. The transcript library is the `fetch` parameter. */
module ApiHandler {
  import opened Wrappers
  import opened Text
  import opened Values
  import opened VideoId
  import opened Ranking
  import opened Summarizer
  import Transcript

  /** `MAX_WORDS`: the words of the transcript handed to the summarizer. */
  const MaxWords: nat := 500
  /** Characters of the clipped text shown as a sample. */
  const SampleLen: nat := 200

  // ---------------------------------------------------------------------------
  // Request checks
  // ---------------------------------------------------------------------------

  /** The two fields `handler` reads from the request body. */
  datatype Body = Body(url: Value, videoId: Value)

  /** `req.body ?? {}`: a missing body reads as two missing fields. */
  function Fields(body: Option<Body>): Body {
    body.GetOr(Body(Undefined, Undefined))
  }

  /** `rawVideoId ?? extractVideoId(url)` */
  function ResolveId(b: Body): Value {
    if b.videoId.Nullish() then
      match ExtractVideoId(b.url)
      case Some(id) => Str(id)
      case None => Null
    else b.videoId
  }

  /** What the checks before the `try` block decide. */
  datatype Decision = Preflight | Reject(status: nat, code: string) | Proceed(videoId: string)

  /** The method and input checks of `handler`, in the order the source makes them. */
  function Decide(verb: string, body: Option<Body>): (d: Decision)
    ensures d.Preflight? <==> verb == "OPTIONS"
    ensures d == Reject(405, "METHOD_NOT_ALLOWED") <==> verb != "OPTIONS" && verb != "POST"
    ensures d.Proceed? ==> verb == "POST" && IsVideoId(d.videoId)
    ensures verb == "POST" ==> var b := Fields(body);
      && (d == Reject(400, "INVALID_INPUT") <==>
            if b.videoId.Nullish() then ExtractVideoId(b.url).None? else !b.videoId.Truthy())
      && (d == Reject(400, "INVALID_VIDEO_ID") <==>
            !b.videoId.Nullish() && b.videoId.Truthy() && !IsValidVideoId(b.videoId))
      && (d.Proceed? <==>
            (IsValidVideoId(b.videoId) || (b.videoId.Nullish() && ExtractVideoId(b.url).Some?)))
    ensures d.Proceed? ==> var b := Fields(body);
      b.videoId == Str(d.videoId) || (b.videoId.Nullish() && ExtractVideoId(b.url) == Some(d.videoId))
  {
    if verb == "OPTIONS" then Preflight
    else if verb != "POST" then Reject(405, "METHOD_NOT_ALLOWED")
    else
      var v := ResolveId(Fields(body));
      if !v.Truthy() then Reject(400, "INVALID_INPUT")
      else if !IsValidVideoId(v) then Reject(400, "INVALID_VIDEO_ID")
      else Proceed(v.s)
  }

  /** A `videoId` in the body wins over the `url`, valid or not: `??` only replaces
      a missing or null id, so a present but bad id is reported even when the URL
      names a good one. */
  lemma VideoIdTakesPrecedence(url: Value, id: string)
    requires id != ""
    ensures IsVideoId(id) ==> Decide("POST", Some(Body(url, Str(id)))) == Proceed(id)
    ensures !IsVideoId(id) ==> Decide("POST", Some(Body(url, Str(id)))) == Reject(400, "INVALID_VIDEO_ID")
  {
  }

  /** Without a `videoId`, a URL the extractor understands is what gets summarized. */
  lemma UrlIsExtracted(url: Value, missing: Value)
    requires missing.Nullish() && ExtractVideoId(url).Some?
    ensures Decide("POST", Some(Body(url, missing))) == Proceed(ExtractVideoId(url).value)
  {
  }

  /** The requests of summarize.test.js: OPTIONS gets 204, GET gets 405, an empty
      POST is `INVALID_INPUT` and `{ videoId: 'INVALID' }` is `INVALID_VIDEO_ID`. */
  lemma HandlerExamples(bad: string)
    requires bad == "INVALID"
    ensures Decide("OPTIONS", Some(Body(Undefined, Undefined))) == Preflight
    ensures Decide("GET", Some(Body(Undefined, Undefined))) == Reject(405, "METHOD_NOT_ALLOWED")
    ensures Decide("POST", Some(Body(Undefined, Undefined))) == Reject(400, "INVALID_INPUT")
    ensures Decide("POST", Some(Body(Undefined, Str(bad)))) == Reject(400, "INVALID_VIDEO_ID")
  {
    assert |bad| != IdLen;
  }

  // ---------------------------------------------------------------------------
  // The response
  // ---------------------------------------------------------------------------

  /** The `transcript` part of the payload. */
  datatype TranscriptInfo = TranscriptInfo(language: string, totalWords: nat, usedWords: nat,
                                           wasTrimmed: bool, sample: string)

  /** The `summary.stats` part of the payload. */
  datatype Stats = Stats(sentences: nat, words: nat, readSeconds: nat)

  /** The body of a successful response, without its `generatedAt` clock reading. */
  datatype Payload = Payload(videoId: string, url: string, thumbnails: seq<string>,
                             transcript: TranscriptInfo, shortSummary: string,
                             keyPoints: seq<string>, topics: seq<string>, stats: Stats)

  /** A response body: none (preflight), an error object, or the payload. */
  datatype Reply = NoContent | Error(code: string, videoId: Option<string>) | Ok(payload: Payload)

  datatype Response = Response(status: nat, reply: Reply)

  /** `https://www.youtube.com/watch`, in three parts. */
  const WatchScheme: string := ['h', 't', 't', 'p', 's', ':', '/', '/']
  const WatchHost: string := ['w', 'w', 'w', '.', 'y', 'o', 'u', 't', 'u', 'b', 'e', '.', 'c', 'o', 'm']
  const WatchPath: string := ['/', 'w', 'a', 't', 'c', 'h']
  const WatchBase: string := WatchScheme + WatchHost + WatchPath

  /** The base of the watch URL has no query separator and starts with a letter. */
  lemma WatchBasePlain()
    ensures '?' !in WatchBase && '&' !in WatchBase && |WatchBase| > 0 && WatchBase[0] == 'h'
  {
    assert '?' !in WatchScheme && '&' !in WatchScheme;
    assert '?' !in WatchHost && '&' !in WatchHost;
    assert '?' !in WatchPath && '&' !in WatchPath;
  }

  /** `https://www.youtube.com/watch?v=${videoId}` */
  function WatchUrl(id: string): string {
    WatchBase + "?v=" + id
  }

  /** `https://img.youtube.com/vi/` */
  const ThumbnailBase: string := "https://img.youtube.com/vi/"
  /** The four thumbnail sizes, smallest first. */
  const ThumbnailSizes: seq<string> := ["default", "mqdefault", "hqdefault", "maxresdefault"]

  function Thumbnails(id: string): (r: seq<string>)
    ensures |r| == |ThumbnailSizes|
  {
    seq(|ThumbnailSizes|, k requires 0 <= k < |ThumbnailSizes| => ThumbnailBase + id + "/" + ThumbnailSizes[k] + ".jpg")
  }

  /** The watch URL of the response leads back to its id. */
  lemma WatchUrlRoundTrip(id: string)
    requires IsVideoId(id)
    ensures ExtractVideoId(Str(WatchUrl(id))) == Some(id)
  {
    VideoIdIsWord(id);
    var s := WatchBase + "?v=" + id + "";
    assert s == WatchUrl(id);
    WatchBasePlain();
    assert !IsSpace(s[0]) by {
      PrintableIsNotSpace(s[0]);
    }
    assert !IsSpace(s[|s| - 1]) by {
      assert s[|s| - 1] == id[IdLen - 1];
    }
    WatchUrlExtracts(WatchBase, id, "");
  }

  /** `clipped.text.slice(0, 200) + (clipped.text.length > 200 ? '...' : '')` */
  function Sample(text: string): (r: string)
    ensures |r| <= SampleLen + 3
    ensures |text| <= SampleLen ==> r == text
    ensures |text| > SampleLen ==> |r| == SampleLen + 3 && StartsWith(text, r[..SampleLen])
                                   && r[SampleLen..] == "..."
  {
    if |text| > SampleLen then text[..SampleLen] + "..." else text
  }

  /** `Math.ceil(words / 3)`: the reading time at three words a second. */
  function ReadSeconds(words: nat): (r: nat)
    ensures words <= 3 * r < words + 3
  {
    (words + 2) / 3
  }

  /** The payload for a video whose transcript was fetched: the first 500 words are
      summarized and reported next to the transcript's own word count. */
  function BuildPayload(id: string, t: Transcript.Transcript): (r: Payload)
    ensures r.videoId == id && r.url == WatchUrl(id) && r.transcript.language == t.language
    ensures r.transcript.totalWords == t.totalWords
    ensures r.transcript.usedWords == r.stats.words <= MaxWords
    ensures r.stats.words <= 3 * r.stats.readSeconds < r.stats.words + 3
    ensures var clipped := Transcript.ClipToWords(t.fullText, MaxWords);
      var summary := BuildSummary(clipped.text);
      && r.thumbnails == Thumbnails(id)
      && r.transcript.usedWords == clipped.wordCount
      && r.transcript.wasTrimmed == (t.totalWords > MaxWords)
      && r.transcript.sample == Sample(clipped.text)
      && r.shortSummary == summary.shortSummary && r.keyPoints == summary.keyPoints
      && r.topics == summary.topics && r.stats.sentences == summary.sentenceCount
  {
    var clipped := Transcript.ClipToWords(t.fullText, MaxWords);
    var summary := BuildSummary(clipped.text);
    Payload(id, WatchUrl(id), Thumbnails(id),
            TranscriptInfo(t.language, t.totalWords, clipped.wordCount, t.totalWords > MaxWords,
                           Sample(clipped.text)),
            summary.shortSummary, summary.keyPoints, summary.topics,
            Stats(summary.sentenceCount, clipped.wordCount, ReadSeconds(clipped.wordCount)))
  }

  /** When the transcript count is its text's own count, the flag `wasTrimmed` says
      exactly whether fewer words were used than the transcript holds. */
  lemma PayloadCounts(id: string, t: Transcript.Transcript)
    requires t.totalWords == CountWords(t.fullText)
    ensures var r := BuildPayload(id, t);
      && r.transcript.usedWords <= r.transcript.totalWords
      && (r.transcript.wasTrimmed <==> r.transcript.usedWords < r.transcript.totalWords)
      && (!r.transcript.wasTrimmed ==> r.transcript.usedWords == r.transcript.totalWords)
  {
  }

  // ---------------------------------------------------------------------------
  // handleError
  // ---------------------------------------------------------------------------

  /** `errorMap[code]?.status` */
  function KnownStatus(code: string): Option<nat> {
    if code == "NO_TRANSCRIPT" then Some(404)
    else if code == "EMPTY_TRANSCRIPT" then Some(422)
    else if code == "VIDEO_UNAVAILABLE" then Some(404)
    else None
  }

  /** A library message that says the video has no captions. */
  predicate ReportsNoTranscript(message: string) {
    Contains(message, "disabled") || Contains(message, Transcript.CouldNotGet + " transcript")
  }

  /** A library message that says the video itself is missing. */
  predicate ReportsUnavailable(message: string) {
    Contains(message, "not found") || Contains(message, "unavailable")
  }

  /** `handleError(err, res)`: a known code keeps its code and video id; otherwise the
      message is classified; anything else is an internal error. */
  function HandleError(f: Transcript.Fault): (r: Response)
    ensures r.reply.Error? && r.status in {404, 422, 500}
    ensures f.code.Some? && KnownStatus(f.code.value).Some? ==>
      r == Response(KnownStatus(f.code.value).value, Error(f.code.value, f.videoId))
    ensures r.status == 422 <==> f.code == Some("EMPTY_TRANSCRIPT")
    ensures r.status == 500 <==>
      (f.code.None? || KnownStatus(f.code.value).None?)
      && !ReportsNoTranscript(f.message) && !ReportsUnavailable(f.message)
    ensures r.reply.videoId.Some? ==> r.reply.videoId == f.videoId && f.code.Some?
    ensures (f.code.None? || KnownStatus(f.code.value).None?) ==>
      && r.reply.videoId.None?
      && (r.reply.code == "NO_TRANSCRIPT" <==> ReportsNoTranscript(f.message))
      && (r.reply.code == "VIDEO_UNAVAILABLE" <==>
            !ReportsNoTranscript(f.message) && ReportsUnavailable(f.message))
      && (r.status == 404 <==> r.reply.code != "INTERNAL_ERROR")
      && (r.status == 500 <==> r.reply.code == "INTERNAL_ERROR")
  {
    if f.code.Some? && KnownStatus(f.code.value).Some? then
      Response(KnownStatus(f.code.value).value, Error(f.code.value, f.videoId))
    else if ReportsNoTranscript(f.message) then Response(404, Error("NO_TRANSCRIPT", None))
    else if ReportsUnavailable(f.message) then Response(404, Error("VIDEO_UNAVAILABLE", None))
    else Response(500, Error("INTERNAL_ERROR", None))
  }

  // ---------------------------------------------------------------------------
  // handler
  // ---------------------------------------------------------------------------

  /** `handler(req, res)` with the transcript library as `fetch`. */
  function Handle(verb: string, body: Option<Body>, fetch: Transcript.Fetcher): (r: Response)
    ensures r.status == 204 <==> verb == "OPTIONS"
    ensures r.status == 200 <==> Decide(verb, body).Proceed?
                                   && Transcript.GetTranscript(Decide(verb, body).videoId, fetch).Success?
    ensures r.status == 200 ==> r.reply.Ok? && r.reply.payload.videoId == Decide(verb, body).videoId
    ensures r.status in {200, 204, 400, 404, 405, 422, 500}
    ensures Decide(verb, body).Reject? ==>
      r == Response(Decide(verb, body).status, Error(Decide(verb, body).code, None))
    ensures Decide(verb, body).Proceed? ==>
      var id := Decide(verb, body).videoId;
      match Transcript.GetTranscript(id, fetch)
      case Failure(e) => r == HandleError(e)
      case Success(t) => r == Response(200, Ok(BuildPayload(id, t)))
  {
    match Decide(verb, body)
    case Preflight => Response(204, NoContent)
    case Reject(status, code) => Response(status, Error(code, None))
    case Proceed(id) =>
      match Transcript.GetTranscript(id, fetch)
      case Failure(e) => HandleError(e)
      case Success(t) => Response(200, Ok(BuildPayload(id, t)))
  }

  /** Whatever the transcript library does, a valid id gets a summary (200), a
      missing or empty transcript (404, 422) or an internal error (500), as the last
      request of summarize.test.js allows. */
  lemma ValidIdOutcomes(id: string, fetch: Transcript.Fetcher)
    requires IsVideoId(id)
    ensures Handle("POST", Some(Body(Undefined, Str(id))), fetch).status in {200, 404, 422, 500}
  {
  }

  /** The outcome 422 is reachable for a valid id: a caption track in the first
      language whose only cue has no text cleans to nothing, and the request ends with
      `EMPTY_TRANSCRIPT`. */
  lemma EmptyCaptionsGive422(id: string, fetch: Transcript.Fetcher)
    requires IsVideoId(id)
    requires fetch(Some(Transcript.ApiLanguages[0])) == Success([Transcript.Segment(None)])
    ensures Handle("POST", Some(Body(Undefined, Str(id))), fetch)
         == Response(422, Error("EMPTY_TRANSCRIPT", Some(id)))
  {
    VideoIdTakesPrecedence(Undefined, id);
    Transcript.EmptyCuesAreEmpty(id, fetch);
    var e := Transcript.Fault(Some("EMPTY_TRANSCRIPT"), "", Some(id));
    assert HandleError(e) == Response(422, Error("EMPTY_TRANSCRIPT", Some(id)));
  }

  /** A successful response describes its own id and keeps its word counts
      consistent: its URL leads back to the id, no more than 500 words were used, and
      `wasTrimmed` says whether some were left out. */
  lemma SuccessfulResponse(verb: string, body: Option<Body>, fetch: Transcript.Fetcher)
    requires Handle(verb, body, fetch).status == 200
    ensures var p := Handle(verb, body, fetch).reply.payload;
      && ExtractVideoId(Str(p.url)) == Some(p.videoId)
      && p.transcript.usedWords <= MaxWords
      && p.transcript.usedWords <= p.transcript.totalWords
      && (p.transcript.wasTrimmed <==> p.transcript.usedWords < p.transcript.totalWords)
  {
    var id := Decide(verb, body).videoId;
    var t := Transcript.GetTranscript(id, fetch).value;
    WatchUrlRoundTrip(id);
    PayloadCounts(id, t);
  }

  /** The message test for 'Could not get transcript' never fires on a library error
      that `getTranscript` rethrows: that function already turned every message
      containing 'Could not get' into a `NO_TRANSCRIPT` code. */
  lemma RethrownMessagesAreNotCaptionErrors(id: string, fetch: Transcript.Fetcher)
    requires Transcript.GetTranscript(id, fetch).Failure?
    requires var e := Transcript.GetTranscript(id, fetch).error;
      e.code.None? || KnownStatus(e.code.value).None?
    ensures !ReportsNoTranscript(Transcript.GetTranscript(id, fetch).error.message)
  {
    var e := Transcript.GetTranscript(id, fetch).error;
    ContainsPrefix(e.message, Transcript.CouldNotGet, " transcript");
  }

  /** A string holding `p + x` holds `p`. */
  lemma {:induction false} ContainsPrefix(s: string, p: string, x: string)
    ensures Contains(s, p + x) ==> Contains(s, p)
    decreases |s|
  {
    if StartsWith(s, p + x) {
      assert s[..|p|] == (p + x)[..|p|];
    } else if |s| > 0 {
      ContainsPrefix(s[1..], p, x);
    }
  }
}

=== FILE: client.dfy ===
/** The browser helpers of script.js: `sanitize`, `isValidYouTubeUrl`, the client copy of
    `extractVideoId`, the history list of `saveToHistory` and the input checks at the
    start of `summarize`. */
module Client {
  import opened Wrappers
  import opened Text
  import opened Ranking
  import opened VideoId
  import Values

  // ---------------------------------------------------------------------------
  // sanitize
  // ---------------------------------------------------------------------------

  /** `s.replace(/c/g, w)`: every occurrence of the character `c` becomes `w`. */
  function ReplaceChar(s: string, c: char, w: string): (r: string)
    ensures c !in w ==> c !in r
    decreases |s|
  {
    if |s| == 0 then ""
    else (if s[0] == c then w else [s[0]]) + ReplaceChar(s[1..], c, w)
  }

  /** `sanitize(str)` for a string argument: the five replacements in the order the
      source applies them, '&' first. */
  function Sanitize(s: string): (r: string)
    ensures '<' !in r && '>' !in r && '"' !in r && '\'' !in r
    ensures forall i :: 0 <= i < |r| && r[i] == '&' ==> EntityAt(r, i)
    ensures (forall i :: 0 <= i < |s| ==> !IsSpecial(s[i])) ==> r == s
  {
    if s == "" then ""
    else
      SanitizeIsEscape(s);
      EscapeNoMarkup(s);
      EscapeEntities(s);
      EscapePlain(s);
      assert AmpsStartEntities(EscapeAll(s));
      Chain(s)
  }

  /** The characters `sanitize` rewrites. */
  predicate IsSpecial(c: char) {
    c == '&' || c == '<' || c == '>' || c == '"' || c == '\''
  }

  /** The entity a single character stands for in HTML, or the character itself. */
  function Escape(c: char): string {
    if c == '&' then "&amp;"
    else if c == '<' then "&lt;"
    else if c == '>' then "&gt;"
    else if c == '"' then "&quot;"
    else if c == '\'' then "&#x27;"
    else [c]
  }

  /** Every character of `s` replaced by its entity. */
  function EscapeAll(s: string): string
    decreases |s|
  {
    if |s| == 0 then "" else Escape(s[0]) + EscapeAll(s[1..])
  }

  /** One of the five entities starts at position `i` of `s`. */
  predicate EntityAt(s: string, i: nat) {
    LitAt(s, i, "&amp;") || LitAt(s, i, "&lt;") || LitAt(s, i, "&gt;")
    || LitAt(s, i, "&quot;") || LitAt(s, i, "&#x27;")
  }

  /** The five entities decoded, as an HTML parser reads them; every other character
      is kept. */
  function Unescape(s: string): string
    decreases |s|
  {
    if |s| == 0 then ""
    else if StartsWith(s, "&amp;") then "&" + Unescape(s[5..])
    else if StartsWith(s, "&lt;") then "<" + Unescape(s[4..])
    else if StartsWith(s, "&gt;") then ">" + Unescape(s[4..])
    else if StartsWith(s, "&quot;") then "\"" + Unescape(s[6..])
    else if StartsWith(s, "&#x27;") then "'" + Unescape(s[6..])
    else [s[0]] + Unescape(s[1..])
  }

  /** Replacing distributes over concatenation. */
  lemma {:induction false} ReplaceConcat(a: string, b: string, c: char, w: string)
    ensures ReplaceChar(a + b, c, w) == ReplaceChar(a, c, w) + ReplaceChar(b, c, w)
    decreases |a|
  {
    if |a| > 0 {
      assert (a + b)[1..] == a[1..] + b && (a + b)[0] == a[0];
      ReplaceConcat(a[1..], b, c, w);
    } else {
      assert a + b == b;
    }
  }

  /** Replacing a character that does not occur changes nothing. */
  lemma {:induction false} ReplaceAbsent(a: string, c: char, w: string)
    requires c !in a
    ensures ReplaceChar(a, c, w) == a
    decreases |a|
  {
    if |a| > 0 {
      assert a == [a[0]] + a[1..];
      ReplaceAbsent(a[1..], c, w);
    }
  }

  /** Replacing in a one-character string. */
  lemma ReplaceOne(x: char, c: char, w: string)
    ensures ReplaceChar([x], c, w) == if x == c then w else [x]
  {
    assert [x][1..] == "";
  }

  /** The characters `sanitize` replaces, in the order it replaces them. */
  const Specials: seq<char> := ['&', '<', '>', '"', '\'']
  /** Their replacements. */
  const Entities: seq<string> := ["&amp;", "&lt;", "&gt;", "&quot;", "&#x27;"]

  /** The first `n` replacements of `sanitize`. */
  function Steps(s: string, n: nat): string
    requires n <= |Specials|
  {
    if n == 0 then s else ReplaceChar(Steps(s, n - 1), Specials[n - 1], Entities[n - 1])
  }

  /** The five replacements in order. */
  function Chain(s: string): string {
    Steps(s, |Specials|)
  }

  /** Each step, and so the chain, distributes over concatenation. */
  lemma {:induction false} StepsConcat(a: string, b: string, n: nat)
    requires n <= |Specials|
    ensures Steps(a + b, n) == Steps(a, n) + Steps(b, n)
  {
    if n > 0 {
      StepsConcat(a, b, n - 1);
      ReplaceConcat(Steps(a, n - 1), Steps(b, n - 1), Specials[n - 1], Entities[n - 1]);
    }
  }

  /** On one character the chain produces that character's entity: no replacement
      text contains a character a later replacement rewrites. */
  lemma ChainOne(c: char)
    ensures Chain([c]) == Escape(c)
  {
    if c == '&' {
      ChainSpecial(c, 0);
    } else if c == '<' {
      ChainSpecial(c, 1);
    } else if c == '>' {
      ChainSpecial(c, 2);
    } else if c == '"' {
      ChainSpecial(c, 3);
    } else if c == '\'' {
      ChainSpecial(c, 4);
    } else {
      var i := 0;
      while i < |Specials|
        invariant 0 <= i <= |Specials| && Steps([c], i) == [c]
      {
        ReplaceOne(c, Specials[i], Entities[i]);
        i := i + 1;
      }
    }
  }

  /** The `k`-th replacement turns the `k`-th special character into its entity:
      earlier steps leave the character alone, and no later step finds anything to
      replace in the entity. */
  lemma ChainSpecial(c: char, k: nat)
    requires k < |Specials| && c == Specials[k]
    ensures Chain([c]) == Entities[k]
  {
    StepsSpecial(c, k, |Specials|);
  }

  /** What the first `n` replacements make of the `k`-th special character. */
  lemma {:induction false} StepsSpecial(c: char, k: nat, n: nat)
    requires k < |Specials| && c == Specials[k] && n <= |Specials|
    ensures Steps([c], n) == if n <= k then [c] else Entities[k]
    decreases n
  {
    if n > 0 {
      StepsSpecial(c, k, n - 1);
      if n - 1 <= k {
        ReplaceOne(c, Specials[n - 1], Entities[n - 1]);
      } else {
        LaterSpecialAbsent(k, n - 1);
        ReplaceAbsent(Entities[k], Specials[n - 1], Entities[n - 1]);
      }
    }
  }

  /** An entity holds none of the characters replaced after it. */
  lemma LaterSpecialAbsent(k: nat, i: nat)
    requires k < i < |Specials|
    ensures Specials[i] !in Entities[k]
  {
    if k == 0 {
      assert Entities[k] == ['&', 'a', 'm', 'p', ';'];
    } else if k == 1 {
      assert Entities[k] == ['&', 'l', 't', ';'];
    } else if k == 2 {
      assert Entities[k] == ['&', 'g', 't', ';'];
    } else {
      assert Entities[k] == ['&', 'q', 'u', 'o', 't', ';'];
    }
  }

  /** `sanitize` replaces every character by its entity independently. */
  lemma {:induction false} SanitizeIsEscape(s: string)
    ensures Chain(s) == EscapeAll(s)
    decreases |s|
  {
    if |s| > 0 {
      assert s == [s[0]] + s[1..];
      StepsConcat([s[0]], s[1..], |Specials|);
      ChainOne(s[0]);
      SanitizeIsEscape(s[1..]);
    } else {
      StepsEmpty(|Specials|);
    }
  }

  /** Nothing to replace in the empty text. */
  lemma {:induction false} StepsEmpty(n: nat)
    requires n <= |Specials|
    ensures Steps("", n) == ""
  {
    if n > 0 {
      StepsEmpty(n - 1);
    }
  }

  /** Escaping leaves no markup character. */
  lemma {:induction false} EscapeNoMarkup(s: string)
    ensures var r := EscapeAll(s); '<' !in r && '>' !in r && '"' !in r && '\'' !in r
    decreases |s|
  {
    if |s| > 0 {
      EscapeNoMarkup(s[1..]);
    }
  }

  /** Every '&' of `r` starts an entity. */
  predicate AmpsStartEntities(r: string) {
    forall i :: 0 <= i < |r| && r[i] == '&' ==> EntityAt(r, i)
  }

  /** Every '&' of an escaped text starts an entity. */
  lemma {:induction false} EscapeEntities(s: string)
    ensures AmpsStartEntities(EscapeAll(s))
    decreases |s|
  {
    if |s| > 0 {
      EscapeEntities(s[1..]);
      var c, rest := s[0], EscapeAll(s[1..]);
      if IsSpecial(c) {
        var k := if c == '&' then 0 else if c == '<' then 1 else if c == '>' then 2
                 else if c == '"' then 3 else 4;
        assert Escape(c) == Entities[k];
        EntityPrefix(k, rest);
      } else {
        PlainPrefix(c, rest);
      }
    }
  }

  /** A character other than '&' in front keeps every '&' at an entity. */
  lemma PlainPrefix(c: char, rest: string)
    requires c != '&' && AmpsStartEntities(rest)
    ensures AmpsStartEntities([c] + rest)
  {
    forall i | 0 < i < |rest| + 1 && ([c] + rest)[i] == '&'
      ensures EntityAt([c] + rest, i)
    {
      EntityShift([c], rest, i - 1);
    }
  }

  /** An entity in front keeps every '&' at an entity: its own '&' starts it, and it
      has no other. */
  lemma EntityPrefix(k: nat, rest: string)
    requires k < |Entities| && AmpsStartEntities(rest)
    ensures AmpsStartEntities(Entities[k] + rest)
  {
    var e := Entities[k];
    var r := e + rest;
    assert '&' !in e[1..] && e[0] == '&';
    assert LitAt(r, 0, e) by {
      assert r[0..|e|] == e;
    }
    forall i | 0 < i < |e|
      ensures r[i] != '&'
    {
      assert r[i] == e[1..][i - 1];
    }
    forall i | |e| <= i < |r| && r[i] == '&'
      ensures EntityAt(r, i)
    {
      EntityShift(e, rest, i - |e|);
    }
  }

  /** An entity stays one after text is put in front. */
  lemma EntityShift(e: string, rest: string, j: nat)
    requires j < |rest| && EntityAt(rest, j)
    ensures EntityAt(e + rest, |e| + j)
  {
    var r := e + rest;
    forall w: string | LitAt(rest, j, w)
      ensures LitAt(r, |e| + j, w)
    {
      assert r[|e| + j..|e| + j + |w|] == rest[j..j + |w|];
    }
  }

  /** A text without special characters escapes to itself. */
  lemma {:induction false} EscapePlain(s: string)
    ensures (forall i :: 0 <= i < |s| ==> !IsSpecial(s[i])) ==> EscapeAll(s) == s
    decreases |s|
  {
    if |s| > 0 {
      EscapePlain(s[1..]);
      assert s == [s[0]] + s[1..];
    }
  }

  /** Decoding the entities recovers the text: `sanitize` loses nothing. */
  lemma {:induction false} UnescapeSanitize(s: string)
    ensures Unescape(Sanitize(s)) == s
  {
    if s != "" {
      SanitizeIsEscape(s);
      UnescapeEscapeAll(s);
    }
  }

  lemma {:induction false} UnescapeEscapeAll(s: string)
    ensures Unescape(EscapeAll(s)) == s
    decreases |s|
  {
    if |s| > 0 {
      UnescapeEscapeAll(s[1..]);
      UnescapeStep(s[0], EscapeAll(s[1..]));
      assert s == [s[0]] + s[1..];
    }
  }

  /** Decoding reads one entity back as its character. */
  lemma UnescapeStep(c: char, rest: string)
    ensures Unescape(Escape(c) + rest) == [c] + Unescape(rest)
  {
    if c == '&' {
      UnescapeEntity(0, rest);
    } else if c == '<' {
      UnescapeEntity(1, rest);
    } else if c == '>' {
      UnescapeEntity(2, rest);
    } else if c == '"' {
      UnescapeEntity(3, rest);
    } else if c == '\'' {
      UnescapeEntity(4, rest);
    } else {
      UnescapePlain(c, rest);
    }
  }

  /** Decoding copies a character other than '&'. */
  lemma UnescapePlain(c: char, rest: string)
    requires c != '&'
    ensures Unescape([c] + rest) == [c] + Unescape(rest)
  {
    var r := [c] + rest;
    assert r[0] == c && r[1..] == rest;
    assert !StartsWith(r, "&amp;") && !StartsWith(r, "&lt;") && !StartsWith(r, "&gt;")
      && !StartsWith(r, "&quot;") && !StartsWith(r, "&#x27;") by {
      assert forall p: string :: |p| > 0 && p[0] == '&' && StartsWith(r, p) ==> r[0] == '&';
    }
  }

  /** The entities start with '&' and differ in their second character, so decoding
      recognises exactly the entity in front. */
  lemma UnescapeEntity(k: nat, rest: string)
    requires k < |Entities|
    ensures Unescape(Entities[k] + rest) == [Specials[k]] + Unescape(rest)
  {
    var e := Entities[k];
    var r := e + rest;
    assert r[..|e|] == e && r[|e|..] == rest;
    assert r[1] == e[1];
    if k == 0 {
      assert StartsWith(r, "&amp;");
    } else if k == 1 {
      assert !StartsWith(r, "&amp;") && StartsWith(r, "&lt;");
    } else if k == 2 {
      assert !StartsWith(r, "&amp;") && !StartsWith(r, "&lt;") && StartsWith(r, "&gt;");
    } else if k == 3 {
      assert !StartsWith(r, "&amp;") && !StartsWith(r, "&lt;") && !StartsWith(r, "&gt;");
      assert StartsWith(r, "&quot;");
    } else {
      assert !StartsWith(r, "&amp;") && !StartsWith(r, "&lt;") && !StartsWith(r, "&gt;");
      assert !StartsWith(r, "&quot;") && StartsWith(r, "&#x27;");
    }
  }

  // ---------------------------------------------------------------------------
  // isValidYouTubeUrl
  // ---------------------------------------------------------------------------

  /** One start-anchored URL pattern: `^https?:\/\/`, then one of `hosts`, then `path`,
      then either eleven `[\w-]` characters or `.*v=` and eleven of them. */
  datatype UrlForm = UrlForm(hosts: seq<string>, path: string, anyThenV: bool)

  /** The five forms of script.js, in the order they are listed. */
  const UrlForms: seq<UrlForm> := [
    UrlForm(["www.youtube.com/", "youtube.com/"], "watch?", true),
    UrlForm(["youtu.be/"], "", false),
    UrlForm(["www.youtube.com/", "youtube.com/"], "shorts/", false),
    UrlForm(["www.youtube.com/", "youtube.com/"], "embed/", false),
    UrlForm(["m.youtube.com/"], "watch?", true)
  ]

  /** `^https?:\/\/`: the length of the scheme, if `s` starts with one. */
  function SchemeLen(s: string): (n: Option<nat>)
    ensures n.Some? ==> n.value <= |s|
  {
    if StartsWith(s, "https://") then Some(8)
    else if StartsWith(s, "http://") then Some(7)
    else None
  }

  /** `.*v=[\w-]{11}` from position `q`: after a run without line terminators come
      "v=" and an id. */
  predicate VAfterAny(s: string, q: nat) {
    exists j :: q <= j <= |s| && LitAt(s, j, "v=") && IdAt(s, j + 2)
      && forall k :: q <= k < j ==> !IsLineTerminator(s[k])
  }

  /** The form matches `s` after a host starting at `p`. */
  predicate TailAt(s: string, p: nat, f: UrlForm) {
    LitAt(s, p, f.path)
    && if f.anyThenV then VAfterAny(s, p + |f.path|) else IdAt(s, p + |f.path|)
  }

  /** The form matches at the start of `s`; trailing text is allowed. */
  predicate FormMatches(s: string, f: UrlForm) {
    match SchemeLen(s)
    case None => false
    case Some(n) => exists i :: 0 <= i < |f.hosts| && LitAt(s, n, f.hosts[i]) && TailAt(s, n + |f.hosts[i]|, f)
  }

  /** `isValidYouTubeUrl(url)`: a non-empty input whose trimmed text starts with one
      of the five forms. */
  predicate IsValidYouTubeUrl(url: string) {
    url != "" && exists k :: 0 <= k < |UrlForms| && FormMatches(Trim(url), UrlForms[k])
  }

  /** The scheme decides the length `SchemeLen` reports. */
  lemma SchemeOf(s: string, scheme: string)
    requires (scheme == "https://" || scheme == "http://") && StartsWith(s, scheme)
    ensures SchemeLen(s) == Some(|scheme|)
  {
    if scheme == "http://" {
      assert s[4] == scheme[4] == ':';
      assert !StartsWith(s, "https://");
    }
  }

  /** Trimming a text whose head starts and ends with non-whitespace keeps the head. */
  lemma TrimKeepsHead(head: string, rest: string) returns (tail: string)
    requires |head| > 0 && !IsSpace(head[0]) && !IsSpace(head[|head| - 1])
    ensures Trim(head + rest) == head + tail
  {
    var s := head + rest;
    var r := Trim(s);
    assert s[0] == head[0] && s[|head| - 1] == head[|head| - 1];
    assert SpaceLen(s) == 0 && |head| <= |r|;
    assert r[..|head|] == s[..|head|] == head;
    tail := r[|head|..];
    assert r == r[..|head|] + tail;
  }

  /** The second part of a concatenation is found right after the first. */
  lemma LitEnd(a: string, b: string)
    ensures StartsWith(a + b, a) && LitAt(a + b, |a|, b)
  {
    assert (a + b)[..|a|] == a;
    assert (a + b)[|a|..|a| + |b|] == b;
  }

  /** Appending text keeps what is found before it. */
  lemma LitExtend(a: string, p: nat, w: string, b: string)
    requires LitAt(a, p, w)
    ensures LitAt(a + b, p, w)
  {
    assert (a + b)[p..p + |w|] == a[p..p + |w|];
  }

  /** Appending text keeps the prefix. */
  lemma StartsExtend(a: string, w: string, b: string)
    requires StartsWith(a, w)
    ensures StartsWith(a + b, w)
  {
    assert (a + b)[..|w|] == a[..|w|];
  }

  /** An id found at `p` is eleven id characters there. */
  lemma IdAtLit(s: string, p: nat, id: string)
    requires LitAt(s, p, id) && IsVideoId(id)
    ensures IdAt(s, p)
  {
    assert forall k :: p <= k < p + IdLen ==> s[k] == id[k - p];
  }

  /** Where the pieces of `scheme + host + path + x` are found. */
  lemma Pieces(scheme: string, host: string, path: string, x: string)
    ensures var t := scheme + host + path + x;
      && StartsWith(t, scheme) && LitAt(t, |scheme|, host)
      && LitAt(t, |scheme| + |host|, path) && LitAt(t, |scheme| + |host| + |path|, x)
  {
    var x1 := scheme + host;
    var x2 := x1 + path;
    LitEnd(scheme, host);
    LitEnd(x1, path);
    LitExtend(x1, |scheme|, host, path);
    StartsExtend(x1, scheme, path);
    LitEnd(x2, x);
    LitExtend(x2, |scheme|, host, x);
    LitExtend(x2, |x1|, path, x);
    StartsExtend(x2, scheme, x);
  }

  /** A head that starts with a scheme letter and ends with an id survives trimming. */
  lemma HeadSurvives(head: string, id: string, rest: string) returns (tail: string)
    requires |head| >= IdLen && head[0] == 'h' && IsVideoId(id)
    requires head[|head| - IdLen..] == id
    ensures Trim(head + rest) == head + tail
  {
    PrintableIsNotSpace(head[0]);
    assert head[|head| - 1] == id[IdLen - 1];
    PrintableIsNotSpace(head[|head| - 1]);
    tail := TrimKeepsHead(head, rest);
  }

  /** A URL is accepted once its trimmed text has the scheme, the host `i` and the
      tail of form `k`. */
  lemma FormAccepted(url: string, head: string, scheme: string, k: nat, i: nat)
    requires (scheme == "https://" || scheme == "http://")
    requires k < |UrlForms| && i < |UrlForms[k].hosts|
    requires Trim(url) == head && StartsWith(head, scheme)
    requires LitAt(head, |scheme|, UrlForms[k].hosts[i])
    requires TailAt(head, |scheme| + |UrlForms[k].hosts[i]|, UrlForms[k])
    ensures IsValidYouTubeUrl(url)
  {
    SchemeOf(head, scheme);
    assert FormMatches(head, UrlForms[k]);
  }

  /** The short-link, shorts and embed forms with an id and any trailing text are
      accepted, over either scheme and any of their hosts. */
  lemma DirectFormAccepted(scheme: string, k: nat, i: nat, id: string, rest: string)
    requires scheme == "https://" || scheme == "http://"
    requires k < |UrlForms| && !UrlForms[k].anyThenV && i < |UrlForms[k].hosts|
    requires IsVideoId(id)
    ensures IsValidYouTubeUrl(scheme + UrlForms[k].hosts[i] + UrlForms[k].path + id + rest)
  {
    var host, path := UrlForms[k].hosts[i], UrlForms[k].path;
    var t := DirectHead(scheme, host, path, id, rest);
    FormAccepted(scheme + host + path + id + rest, t, scheme, k, i);
  }

  /** The trimmed `scheme + host + path + id + rest` shows each piece in place. */
  lemma DirectHead(scheme: string, host: string, path: string, id: string, rest: string)
    returns (t: string)
    requires scheme == "https://" || scheme == "http://"
    requires IsVideoId(id)
    ensures Trim(scheme + host + path + id + rest) == t
    ensures StartsWith(t, scheme) && LitAt(t, |scheme|, host)
    ensures LitAt(t, |scheme| + |host|, path) && IdAt(t, |scheme| + |host| + |path|)
  {
    var pre := scheme + host + path;
    var head := pre + id;
    assert head[0] == 'h' by {
      assert head[0] == scheme[0];
    }
    assert head[|head| - IdLen..] == id;
    var tail := HeadSurvives(head, id, rest);
    t := head + tail;
    assert t == pre + (id + tail) by {
      ConcatAssoc(pre, id, tail);
    }
    Pieces(scheme, host, path, id + tail);
    LitEnd(id, tail);
    LitExtend(id, 0, id, tail);
    IdAtLit(t, |scheme| + |host| + |path|, id);
  }

  /** The watch forms (`youtube.com`, `www.` and `m.`) are accepted with any text
      free of line terminators between `watch?` and `v=<id>`, and any trailing text. */
  lemma WatchFormAccepted(scheme: string, k: nat, i: nat, mid: string, id: string, rest: string)
    requires scheme == "https://" || scheme == "http://"
    requires k < |UrlForms| && UrlForms[k].anyThenV && i < |UrlForms[k].hosts|
    requires forall c :: c in mid ==> !IsLineTerminator(c)
    requires IsVideoId(id)
    ensures IsValidYouTubeUrl(scheme + UrlForms[k].hosts[i] + UrlForms[k].path + mid + "v=" + id + rest)
  {
    var host, path := UrlForms[k].hosts[i], UrlForms[k].path;
    var t := WatchHead(scheme, host, path, mid, id, rest);
    FormAccepted(scheme + host + path + mid + "v=" + id + rest, t, scheme, k, i);
  }

  /** The trimmed `scheme + host + path + mid + "v=" + id + rest` shows each piece in
      place. */
  lemma WatchHead(scheme: string, host: string, path: string, mid: string, id: string, rest: string)
    returns (t: string)
    requires scheme == "https://" || scheme == "http://"
    requires forall c :: c in mid ==> !IsLineTerminator(c)
    requires IsVideoId(id)
    ensures Trim(scheme + host + path + mid + "v=" + id + rest) == t
    ensures StartsWith(t, scheme) && LitAt(t, |scheme|, host)
    ensures LitAt(t, |scheme| + |host|, path) && VAfterAny(t, |scheme| + |host| + |path|)
  {
    var pre := scheme + host + path;
    var head := pre + mid + "v=" + id;
    assert head[0] == 'h' by {
      assert head[0] == scheme[0];
    }
    assert head[|head| - IdLen..] == id by {
      var h := pre + mid + "v=";
      assert head == h + id;
    }
    var tail := HeadSurvives(head, id, rest);
    t := head + tail;
    var x := mid + "v=" + id + tail;
    assert t == pre + x by {
      ConcatAssoc(pre, mid, "v=");
      ConcatAssoc(pre, mid + "v=", id);
      ConcatAssoc(pre, mid + "v=" + id, tail);
    }
    Pieces(scheme, host, path, x);
    VThenId(t, |scheme| + |host| + |path|, mid, id, tail);
  }

  /** `mid + "v=" + id` found at `q` satisfies `.*v=[\w-]{11}` from `q`. */
  lemma VThenId(t: string, q: nat, mid: string, id: string, tail: string)
    requires LitAt(t, q, mid + "v=" + id + tail) && IsVideoId(id)
    requires forall c :: c in mid ==> !IsLineTerminator(c)
    ensures VAfterAny(t, q)
  {
    var x := mid + "v=" + id + tail;
    assert forall n :: q <= n < q + |x| ==> t[n] == x[n - q];
    var j := q + |mid|;
    assert x[|mid|] == 'v' && x[|mid| + 1] == '=';
    assert t[j..j + 2] == "v=";
    assert forall n :: j + 2 <= n < j + 2 + IdLen ==> t[n] == id[n - j - 2];
    forall n | q <= n < j
      ensures !IsLineTerminator(t[n])
    {
      assert t[n] == mid[n - q] && mid[n - q] in mid;
    }
    assert LitAt(t, j, "v=") && IdAt(t, j + 2);
  }

  /** A bare id is not an accepted URL: it has no scheme. */
  lemma BareIdRejected(id: string)
    requires IsVideoId(id)
    ensures !IsValidYouTubeUrl(id)
  {
    VideoIdIsWord(id);
    assert Trim(id) == id;
    assert !IsIdChar(':');
    assert !StartsWith(id, "https://") && !StartsWith(id, "http://") by {
      assert IsIdChar(id[4]) && IsIdChar(id[5]);
    }
  }

  // ---------------------------------------------------------------------------
  // extractVideoId (client copy)
  // ---------------------------------------------------------------------------

  /** The four patterns of the client copy: no `live/` form. */
  const ClientLeads: seq<Lead> := [WatchLead, ShortLinkLead, ShortsLead, EmbedLead]

  /** The client's `extractVideoId(url)`: `null` for an empty input, otherwise the
      capture of the first of four patterns, searched in the untrimmed input. */
  function ClientExtract(url: string): (r: Option<string>)
    ensures r.Some? ==> IsVideoId(r.value)
    ensures r.None? <==> url == "" || forall i :: 0 <= i < |ClientLeads| ==> Capture(url, ClientLeads[i]).None?
    ensures r.Some? ==> exists i :: FirstMatchIs(url, ClientLeads, i, r.value)
  {
    if url == "" then None
    else
      var r := FirstCapture(url, ClientLeads);
      if r.Some? then FirstCaptureIsFirst(url, ClientLeads); r else r
  }

  /** Every client lead is made of printable characters. */
  lemma ClientLeadsPrintable(i: nat)
    requires i < |ClientLeads|
    ensures IsPrintableLead(ClientLeads[i]) && ClientLeads[i] == ApiLeads[i]
  {
  }

  /** The characters of a match are never whitespace. */
  lemma MatchNotSpace(s: string, p: nat, lead: Lead)
    requires IsPrintableLead(lead) && MatchAt(s, p, lead)
    ensures forall k :: p <= k < p + |lead| + IdLen ==> !IsSpace(s[k])
  {
    forall k | p <= k < p + |lead| + IdLen
      ensures !IsSpace(s[k])
    {
      if k < p + |lead| {
        var cls := lead[k - p];
        var i :| 0 <= i < |cls| && cls[i] == s[k];
        PrintableIsNotSpace(cls[i]);
      } else {
        PrintableIsNotSpace(s[k]);
      }
    }
  }

  /** Trimming does not move a match: the capture in the trimmed text is the
      capture in the text. */
  lemma CaptureTrim(u: string, lead: Lead)
    requires IsPrintableLead(lead)
    ensures Capture(Trim(u), lead) == Capture(u, lead)
  {
    var t, a := Trim(u), SpaceLen(u);
    var b := a + |t|;
    forall p: nat | MatchAt(u, p, lead)
      ensures a <= p && p + |lead| + IdLen <= b
    {
      MatchInside(u, p, lead);
    }
    assert t == u[a..b];
    CaptureWindow(u, a, b, lead);
  }

  /** A window of the text that holds every match has the text's capture. */
  lemma CaptureWindow(u: string, a: nat, b: nat, lead: Lead)
    requires a <= b <= |u|
    requires forall p: nat :: MatchAt(u, p, lead) ==> a <= p && p + |lead| + IdLen <= b
    ensures Capture(u[a..b], lead) == Capture(u, lead)
  {
    var t := u[a..b];
    if Capture(u, lead).Some? {
      var p := FindFrom(u, lead, 0).value;
      UnshiftMatch(u, a, b, p, lead);
      forall q: nat | q < p - a
        ensures !MatchAt(t, q, lead)
      {
        if MatchAt(t, q, lead) {
          ShiftMatch(u, a, b, q, lead);
        }
      }
      CaptureAt(t, lead, p - a);
      SliceOfWindow(u, a, b, p - a + |lead|, p - a + |lead| + IdLen);
    } else {
      forall q: nat
        ensures !MatchAt(t, q, lead)
      {
        if MatchAt(t, q, lead) {
          ShiftMatch(u, a, b, q, lead);
        }
      }
    }
  }

  /** A slice of a window is a slice of the text. */
  lemma SliceOfWindow(u: string, a: nat, b: nat, i: nat, j: nat)
    requires a <= b <= |u| && i <= j <= b - a
    ensures u[a..b][i..j] == u[a + i..a + j]
  {
    assert forall k :: 0 <= k < j - i ==> u[a..b][i..j][k] == u[a + k + i];
  }

  /** A match lies inside the trimmed window of the text. */
  lemma MatchInside(u: string, p: nat, lead: Lead)
    requires IsPrintableLead(lead) && MatchAt(u, p, lead)
    ensures SpaceLen(u) <= p && p + |lead| + IdLen <= SpaceLen(u) + |Trim(u)|
  {
    MatchNotSpace(u, p, lead);
    assert !IsSpace(u[p]) && !IsSpace(u[p + |lead| + IdLen - 1]);
  }

  /** A match in a window of `u` is a match in `u`. */
  lemma ShiftMatch(u: string, a: nat, b: nat, q: nat, lead: Lead)
    requires a <= b <= |u| && MatchAt(u[a..b], q, lead)
    ensures MatchAt(u, q + a, lead)
  {
    var t := u[a..b];
    assert forall k :: 0 <= k < |t| ==> t[k] == u[a + k];
  }

  /** A match of `u` inside a window is a match in the window. */
  lemma UnshiftMatch(u: string, a: nat, b: nat, p: nat, lead: Lead)
    requires a <= p && p + |lead| + IdLen <= b <= |u| && MatchAt(u, p, lead)
    ensures MatchAt(u[a..b], p - a, lead)
  {
    var t := u[a..b];
    assert forall k :: 0 <= k < |t| ==> t[k] == u[a + k];
  }

  /** Two strings on which every pattern captures the same have the same first capture. */
  lemma {:induction false} FirstCaptureSame(u: string, t: string, leads: seq<Lead>)
    requires forall i :: 0 <= i < |leads| ==> Capture(u, leads[i]) == Capture(t, leads[i])
    ensures FirstCapture(u, leads) == FirstCapture(t, leads)
    decreases |leads|
  {
    if |leads| > 0 {
      assert forall i :: 0 <= i < |leads| - 1 ==> leads[1..][i] == leads[i + 1];
      FirstCaptureSame(u, t, leads[1..]);
    }
  }

  /** The client copy is weaker but never disagrees: whenever it finds an id, the
      server function finds the same one. */
  lemma ClientAgreesWithApi(u: string)
    requires ClientExtract(u).Some?
    ensures ExtractVideoId(Values.Str(u)) == ClientExtract(u)
  {
    var t := Trim(u);
    forall i | 0 <= i < |ClientLeads|
      ensures Capture(u, ClientLeads[i]) == Capture(t, ClientLeads[i])
    {
      ClientLeadsPrintable(i);
      CaptureTrim(u, ClientLeads[i]);
    }
    FirstCaptureSame(u, t, ClientLeads);
    assert ApiLeads[..4] == ClientLeads;
    FirstCapturePrefix(t, ApiLeads, 4);
  }

  // ---------------------------------------------------------------------------
  // saveToHistory
  // ---------------------------------------------------------------------------

  /** `CONFIG.MAX_HISTORY` */
  const MaxHistory: nat := 10

  /** `saveToHistory(entry)` on the history list: the entry goes in front, and one
      element is dropped from the end when the list has grown past the bound. */
  function SaveToHistory<T>(history: seq<T>, entry: T): (r: seq<T>)
    ensures |r| == if |history| < MaxHistory then |history| + 1 else |history|
    ensures |r| > 0 && r[0] == entry && r[1..] == history[..|r| - 1]
  {
    var h := [entry] + history;
    if |h| > MaxHistory then h[..|h| - 1] else h
  }

  /** The entries saved one after the other, oldest first. */
  function SaveAll<T>(history: seq<T>, entries: seq<T>): seq<T>
    decreases |entries|
  {
    if |entries| == 0 then history
    else SaveAll(SaveToHistory(history, entries[0]), entries[1..])
  }

  /** `entries` newest first. */
  function Reverse<T>(s: seq<T>): (r: seq<T>)
    ensures |r| == |s| && forall i :: 0 <= i < |s| ==> r[i] == s[|s| - 1 - i]
    decreases |s|
  {
    if |s| == 0 then [] else Reverse(s[1..]) + [s[0]]
  }

  /** Starting from a history of at most ten entries, the history holds the ten most
      recent of all entries, newest first. */
  lemma {:induction false} SaveAllKeepsNewest<T>(history: seq<T>, entries: seq<T>)
    requires |history| <= MaxHistory
    ensures SaveAll(history, entries) ==
              (Reverse(entries) + history)[..Min(MaxHistory, |entries| + |history|)]
    decreases |entries|
  {
    if |entries| > 0 {
      var e, es := entries[0], entries[1..];
      var h1 := SaveToHistory(history, e);
      var m := Min(MaxHistory, 1 + |history|);
      var k := Min(MaxHistory, |es| + m);
      assert h1 == ([e] + history)[..m];
      SaveAllKeepsNewest(h1, es);
      assert SaveAll(history, entries) == (Reverse(es) + h1)[..k];
      PrefixOfConcat(Reverse(es), [e] + history, m, k);
      ReverseFirst(entries);
      ConcatAssoc(Reverse(es), [e], history);
      assert k == Min(MaxHistory, |entries| + |history|);
    }
  }

  /** Reversing puts the first element last. */
  lemma ReverseFirst<T>(s: seq<T>)
    requires |s| > 0
    ensures Reverse(s) == Reverse(s[1..]) + [s[0]]
  {
  }

  /** Cutting the tail before taking a prefix that does not reach the cut changes nothing. */
  lemma PrefixOfConcat<T>(a: seq<T>, b: seq<T>, m: nat, k: nat)
    requires m <= |b| && k <= |a| + m
    ensures (a + b[..m])[..k] == (a + b)[..k]
  {
  }

  // ---------------------------------------------------------------------------
  // The input gate of summarize()
  // ---------------------------------------------------------------------------

  /** What `summarize()` does with the input before any request. */
  datatype Gate = Busy | EmptyUrl | InvalidUrl | Request(videoId: string)

  /** The checks at the start of `summarize()`: nothing while a request is in flight,
      then the 'empty' message, then 'invalid' for a URL of no accepted form or
      without an id; only otherwise is the video requested. */
  function SummarizeGate(isLoading: bool, input: string): (g: Gate)
    ensures g == Busy <==> isLoading
    ensures !isLoading ==> (g == EmptyUrl <==> Words(input) == [])
    ensures g.Request? ==> IsVideoId(g.videoId) && IsValidYouTubeUrl(input)
    ensures g.Request? ==> ExtractVideoId(Values.Str(input)) == Some(g.videoId)
    ensures g.Request? ==> ClientExtract(Trim(input)) == Some(g.videoId)
    ensures !isLoading && Words(input) != [] ==>
      (g.Request? <==> IsValidYouTubeUrl(input) && ClientExtract(Trim(input)).Some?)
  {
    if isLoading then Busy
    else
      var url := Trim(input);
      TrimEmpty(input);
      if url == "" then EmptyUrl
      else
        TrimTwice(input);
        if !IsValidYouTubeUrl(url) then InvalidUrl
        else
          match ClientExtract(url)
          case None => InvalidUrl
          case Some(id) =>
            ClientAgreesWithApi(url);
            Request(id)
  }

  /** A short link `https://youtu.be/<id>` is an accepted URL, and `summarize()`
      requests exactly its id. */
  lemma ShortLinkRequested(scheme: string, host: string, id: string)
    requires scheme == "https://" && host == "youtu.be/" && IsVideoId(id)
    ensures IsValidYouTubeUrl(scheme + host + id)
    ensures SummarizeGate(false, scheme + host + id) == Request(id)
  {
    ShortLinkAccepted(scheme, host, id);
    ShortLinkCaptured(scheme, host, id);
  }

  /** The short link is trimmed and has the second accepted form. */
  lemma ShortLinkAccepted(scheme: string, host: string, id: string)
    requires scheme == "https://" && host == "youtu.be/" && IsVideoId(id)
    ensures Trim(scheme + host + id) == scheme + host + id
    ensures IsValidYouTubeUrl(scheme + host + id)
  {
    var s := scheme + host + id;
    assert forall k :: 17 <= k < 28 ==> s[k] == id[k - 17];
    PrintableIsNotSpace(s[0]);
    PrintableIsNotSpace(s[27]);
    assert s[..8] == scheme && s[8..17] == host;
    assert SchemeLen(s) == Some(8);
    var f := UrlForms[1];
    assert f.hosts[0] == host && f.path == "" && !f.anyThenV;
    assert LitAt(s, 8, f.hosts[0]) && TailAt(s, 17, f);
  }

  /** The client copy finds the id of the short link: the watch pattern cannot
      match, and the short-link pattern matches first right after the scheme. */
  lemma ShortLinkCaptured(scheme: string, host: string, id: string)
    requires scheme == "https://" && host == "youtu.be/" && IsVideoId(id)
    ensures ClientExtract(scheme + host + id) == Some(id)
  {
    var s := scheme + host + id;
    assert forall k :: 0 <= k < 8 ==> s[k] == scheme[k];
    assert forall k :: 8 <= k < 17 ==> s[k] == host[k - 8];
    assert forall k :: 17 <= k < 28 ==> s[k] == id[k - 17];
    assert forall k :: 0 <= k < |id| ==> id[k] != '?' && id[k] != '&';
    NoWatchMatch(s);
    assert LeadAt(s, 8, ShortLinkLead);
    forall j: nat | j < 8
      ensures !MatchAt(s, j, ShortLinkLead)
    {
      assert s[j] in scheme && ShortLinkLead[0] == "y";
    }
    CaptureAt(s, ShortLinkLead, 8);
    assert s[17..28] == id;
    var rest := ClientLeads[1..];
    assert ClientLeads[0] == WatchLead && rest[0] == ShortLinkLead;
    assert FirstCapture(s, rest) == Capture(s, ShortLinkLead);
    assert FirstCapture(s, ClientLeads) == FirstCapture(s, rest);
  }

  /** Text without '?' or '&' has no watch-URL match. */
  lemma NoWatchMatch(s: string)
    requires '?' !in s && '&' !in s
    ensures Capture(s, WatchLead).None?
  {
    forall p: nat
      ensures !MatchAt(s, p, WatchLead)
    {
      if p < |s| {
        assert s[p] in s && WatchLead[0] == "?&";
      }
    }
  }

  /** Trimming twice is trimming once, and the API's extraction sees through it. */
  lemma TrimTwice(s: string)
    requires Trim(s) != ""
    ensures Trim(Trim(s)) == Trim(s)
    ensures ExtractVideoId(Values.Str(s)) == ExtractVideoId(Values.Str(Trim(s)))
  {
    TrimEmpty(s);
    assert s != "";
  }

  /** `https://www.youtube.com/watch?xv=<id>` passes the URL check, whose `.*v=`
      accepts any text before `v=`, yet no client pattern finds an id in it (`[?&]v=`
      needs the `v` right after the `?`), so `summarize()` reports it invalid. */
  lemma StrayLetterBeforeV(scheme: string, host: string, path: string, mid: string, id: string)
    requires scheme == "https://" && host == "www.youtube.com/" && path == "watch?" && mid == "x"
    requires IsVideoId(id)
    ensures IsValidYouTubeUrl(scheme + host + path + mid + "v=" + id)
    ensures ClientExtract(scheme + host + path + mid + "v=" + id).None?
    ensures SummarizeGate(false, scheme + host + path + mid + "v=" + id) == InvalidUrl
  {
    var s := scheme + host + path + mid + "v=" + id;
    assert UrlForms[0].hosts[0] == host && UrlForms[0].path == path && UrlForms[0].anyThenV;
    assert forall c :: c in mid ==> !IsLineTerminator(c);
    WatchFormAccepted(scheme, 0, 0, mid, id, "");
    assert s + "" == s;
    NoClientCapture(scheme, host, path, mid, id);
    assert s[0] == scheme[0];
    TrimmedEnds(s);
  }

  /** No client pattern matches `https://www.youtube.com/watch?xv=<id>`: the text
      before the id cannot hold one, and no lead ends right before the id. */
  lemma NoClientCapture(scheme: string, host: string, path: string, mid: string, id: string)
    requires scheme == "https://" && host == "www.youtube.com/" && path == "watch?" && mid == "x"
    requires IsVideoId(id)
    ensures ClientExtract(scheme + host + path + mid + "v=" + id).None?
  {
    var pre := scheme + host + path + mid + "v=";
    StrayVChars(scheme, host, path, mid);
    var seps := StrayVLayout(scheme, host, path, mid, id);
    var s := pre + id;
    assert s[30 + 0] !in WatchLead[0];
    FencedCapture(pre, id, seps, WatchLead);
    assert s[24 + 0] !in ShortLinkLead[0];
    FencedCapture(pre, id, seps, ShortLinkLead);
    assert s[26 + 0] !in ShortsLead[0];
    FencedCapture(pre, id, seps, ShortsLead);
    assert s[27 + 0] !in EmbedLead[0];
    FencedCapture(pre, id, seps, EmbedLead);
    NoLeadNoId(s);
  }

  /** When none of the four client patterns matches, the client finds no id. */
  lemma NoLeadNoId(s: string)
    requires Capture(s, WatchLead).None? && Capture(s, ShortLinkLead).None?
    requires Capture(s, ShortsLead).None? && Capture(s, EmbedLead).None?
    ensures ClientExtract(s).None?
  {
    assert ClientLeads == [WatchLead, ShortLinkLead, ShortsLead, EmbedLead];
  }

  /** The characters of `https://www.youtube.com/watch?x` that decide the layout. */
  lemma StrayVChars(scheme: string, host: string, path: string, mid: string)
    requires scheme == "https://" && host == "www.youtube.com/" && path == "watch?" && mid == "x"
    ensures |scheme| == 8 && scheme[5] == ':'
    ensures |host| == 16 && host[3] == '.' && host[11] == '.' && host[15] == '/'
    ensures |path| == 6 && path[0] == 'w' && path[2] == 't' && path[3] == 'c' && path[5] == '?'
    ensures mid == ['x']
  {
  }

  /** Where the separators and the first letters of `https://www.youtube.com/watch?xv=`
      sit. */
  lemma StrayVLayout(scheme: string, host: string, path: string, mid: string, id: string)
    returns (seps: seq<nat>)
    requires |scheme| == 8 && scheme[5] == ':'
    requires |host| == 16 && host[3] == '.' && host[11] == '.' && host[15] == '/'
    requires |path| == 6 && path[0] == 'w' && path[2] == 't' && path[3] == 'c' && path[5] == '?'
    requires mid == ['x'] && IsVideoId(id)
    ensures var s := scheme + host + path + mid + "v=" + id;
      && |s| == 33 + IdLen && Fenced(s, seps, 33)
      && s[24] == 'w' && s[26] == 't' && s[27] == 'c' && s[30] == 'x'
  {
    var pre := scheme + host + path + mid + "v=";
    var s := pre + id;
    assert s[5] == ':' by {
      assert pre[..8] == scheme && s[5] == pre[5];
    }
    assert s[11] == '.' && s[19] == '.' && s[23] == '/' by {
      assert pre[8..24] == host;
      assert s[11] == pre[11] && s[19] == pre[19] && s[23] == pre[23];
    }
    assert s[24] == 'w' && s[26] == 't' && s[27] == 'c' && s[29] == '?' by {
      assert pre[24..30] == path;
      assert s[24] == pre[24] && s[26] == pre[26] && s[27] == pre[27] && s[29] == pre[29];
    }
    assert s[30] == 'x' && s[32] == '=' by {
      assert pre[30] == mid[0] && pre[31..] == "v=" && s[30] == pre[30] && s[32] == pre[32];
    }
    seps := [5, 11, 19, 23, 29, 32];
  }
}

=== FILE: ranking.dfy ===
/** Stable sorting and top-k selection of positions under an arbitrary score function.

    api/summarize.js sorts sentences with `[...scored].sort((a, b) => b.score - a.score)`
    and word-frequency entries with `.sort((a, b) => b[1] - a[1])`. JavaScript's
    `Array.prototype.sort` is stable, so on an input listed in position order both
    produce the positions ordered by "higher score first, then lower position first".
    That order is strict and total, and a sequence sorted under a strict total order is
    unique (`SortedUnique`), so the insertion sort below yields exactly the sequence any
    stable sort yields. */
module Ranking {

  function Min(a: nat, b: nat): nat {
    if a <= b then a else b
  }

  /** `before` is a strict total order on positions. */
  ghost predicate StrictTotalOrder(before: (nat, nat) -> bool) {
    && (forall a :: !before(a, a))
    && (forall a, b, c :: before(a, b) && before(b, c) ==> before(a, c))
    && (forall a, b :: a != b ==> before(a, b) || before(b, a))
  }

  /** Each element of `xs` comes before every later element. */
  ghost predicate SortedBy(xs: seq<nat>, before: (nat, nat) -> bool) {
    forall i, j :: 0 <= i < j < |xs| ==> before(xs[i], xs[j])
  }

  /** No position occurs twice. */
  predicate Distinct(xs: seq<nat>) {
    forall i, j :: 0 <= i < j < |xs| ==> xs[i] != xs[j]
  }

  /** Inserts `x` in front of the first element it comes before. */
  function Insert(x: nat, xs: seq<nat>, before: (nat, nat) -> bool): seq<nat>
  {
    if |xs| == 0 then [x]
    else if before(x, xs[0]) then [x] + xs
    else [xs[0]] + Insert(x, xs[1..], before)
  }

  /** Sorts `xs` under the strict total order `before`: the result is a
      permutation of `xs` in which every element comes before every later one. */
  function SortBy(xs: seq<nat>, before: (nat, nat) -> bool): (r: seq<nat>)
    requires StrictTotalOrder(before)
    requires Distinct(xs)
    ensures multiset(r) == multiset(xs)
    ensures SortedBy(r, before)
  {
    if |xs| == 0 then []
    else
      var rest := SortBy(xs[1..], before);
      assert xs == [xs[0]] + xs[1..];
      assert xs[0] !in multiset(xs[1..]);
      InsertSorted(xs[0], rest, before);
      Insert(xs[0], rest, before)
  }

  lemma {:induction false} InsertSorted(x: nat, xs: seq<nat>, before: (nat, nat) -> bool)
    requires StrictTotalOrder(before)
    requires SortedBy(xs, before)
    requires x !in multiset(xs)
    ensures multiset(Insert(x, xs, before)) == multiset(xs) + multiset{x}
    ensures SortedBy(Insert(x, xs, before), before)
    decreases |xs|
  {
    if |xs| > 0 && !before(x, xs[0]) {
      var tail := xs[1..];
      assert xs == [xs[0]] + tail;
      assert x != xs[0];
      assert before(xs[0], x);
      assert forall k :: 0 <= k < |tail| ==> tail[k] == xs[k + 1];
      InsertSorted(x, tail, before);
      var ins := Insert(x, tail, before);
      HeadBeforeAll(xs[0], x, tail, ins, before);
      ConsSorted(xs[0], ins, before);
    } else if |xs| > 0 {
      assert forall j :: 0 <= j < |xs| ==> before(x, xs[j]) by {
        forall j | 0 < j < |xs|
          ensures before(x, xs[j])
        {
          assert before(xs[0], xs[j]);
        }
      }
      ConsSorted(x, xs, before);
    }
  }

  /** A head that comes before `x` and before every element of `tail` comes before
      every element of a permutation of `tail` plus `x`. */
  lemma HeadBeforeAll(h: nat, x: nat, tail: seq<nat>, ins: seq<nat>, before: (nat, nat) -> bool)
    requires before(h, x)
    requires forall k :: 0 <= k < |tail| ==> before(h, tail[k])
    requires multiset(ins) == multiset(tail) + multiset{x}
    ensures forall j :: 0 <= j < |ins| ==> before(h, ins[j])
  {
    forall j | 0 <= j < |ins|
      ensures before(h, ins[j])
    {
      assert ins[j] in multiset(ins);
      if ins[j] != x {
        assert ins[j] in multiset(tail);
        var k :| 0 <= k < |tail| && tail[k] == ins[j];
      }
    }
  }

  /** A sorted sequence stays sorted behind a head that comes before all of it. */
  lemma ConsSorted(h: nat, ys: seq<nat>, before: (nat, nat) -> bool)
    requires SortedBy(ys, before)
    requires forall j :: 0 <= j < |ys| ==> before(h, ys[j])
    ensures SortedBy([h] + ys, before)
  {
    var r := [h] + ys;
    forall i, j | 0 <= i < j < |r|
      ensures before(r[i], r[j])
    {
      assert r[j] == ys[j - 1];
      if i > 0 {
        assert r[i] == ys[i - 1];
      }
    }
  }

  /** Two sequences sorted under the same strict total order with the same
      elements are equal: sorting has exactly one possible result. */
  lemma {:induction false} SortedUnique(a: seq<nat>, b: seq<nat>, before: (nat, nat) -> bool)
    requires StrictTotalOrder(before)
    requires SortedBy(a, before) && SortedBy(b, before)
    requires multiset(a) == multiset(b)
    ensures a == b
    decreases |a|
  {
    if |a| > 0 {
      assert |b| == |a| by {
        assert |multiset(a)| == |a| && |multiset(b)| == |b|;
      }
      assert a[0] in multiset(b);
      assert b[0] in multiset(a);
      assert a[0] == b[0];
      assert a == [a[0]] + a[1..];
      assert b == [b[0]] + b[1..];
      assert multiset(a) == multiset{a[0]} + multiset(a[1..]);
      assert multiset(b) == multiset{b[0]} + multiset(b[1..]);
      assert multiset(a[1..]) == multiset(a) - multiset{a[0]};
      assert multiset(b[1..]) == multiset(b) - multiset{b[0]};
      SortedUnique(a[1..], b[1..], before);
    }
  }

  /** The positions 0, 1, ..., n-1 in order. */
  function Range(n: nat): (r: seq<nat>)
    ensures |r| == n
    ensures forall i :: 0 <= i < n ==> r[i] == i
  {
    if n == 0 then [] else Range(n - 1) + [n - 1]
  }

  /** Position `a` is ranked before `b`: it has the higher score, or the same score
      and the earlier position (the order a stable descending sort produces). */
  predicate RanksBefore(score: nat -> real, a: nat, b: nat) {
    score(a) > score(b) || (score(a) == score(b) && a < b)
  }

  lemma RanksBeforeIsStrictTotal(score: nat -> real)
    ensures StrictTotalOrder((a: nat, b: nat) => RanksBefore(score, a, b))
  {
  }

  lemma AscendingIsStrictTotal()
    ensures StrictTotalOrder((a: nat, b: nat) => a < b)
  {
  }

  /** The positions 0..n-1 sorted by descending score, ties in position order. */
  function Rank(n: nat, score: nat -> real): (r: seq<nat>)
    ensures |r| == n
    ensures multiset(r) == multiset(Range(n))
    ensures forall i, j :: 0 <= i < j < n ==> RanksBefore(score, r[i], r[j])
  {
    RanksBeforeIsStrictTotal(score);
    SortBy(Range(n), (a: nat, b: nat) => RanksBefore(score, a, b))
  }

  /** `xs.sort((a, b) => a - b)` on distinct positions. */
  function Ascending(xs: seq<nat>): (r: seq<nat>)
    requires Distinct(xs)
    ensures multiset(r) == multiset(xs)
    ensures forall i, j :: 0 <= i < j < |r| ==> r[i] < r[j]
  {
    AscendingIsStrictTotal();
    SortBy(xs, (a: nat, b: nat) => a < b)
  }

  /** Every element of a ranking of 0..n-1 is below n, and none repeats. */
  lemma RankFacts(n: nat, score: nat -> real)
    ensures Distinct(Rank(n, score))
    ensures forall i :: 0 <= i < n ==> Rank(n, score)[i] < n
    ensures forall p: nat :: p < n ==> p in Rank(n, score)
  {
    RankBelow(n, score);
    RankCovers(n, score);
  }

  lemma RankBelow(n: nat, score: nat -> real)
    ensures forall i :: 0 <= i < n ==> Rank(n, score)[i] < n
  {
    var r := Rank(n, score);
    forall i | 0 <= i < n
      ensures r[i] < n
    {
      assert r[i] in multiset(Range(n));
      var j :| 0 <= j < n && Range(n)[j] == r[i];
    }
  }

  lemma RankCovers(n: nat, score: nat -> real)
    ensures forall p: nat :: p < n ==> p in Rank(n, score)
  {
    var r := Rank(n, score);
    forall p: nat | p < n
      ensures p in r
    {
      assert Range(n)[p] == p;
      assert p in multiset(Range(n));
    }
  }

  /** The first `k` positions of a ranking rank before every position left out. */
  lemma TopRanksFirst(n: nat, score: nat -> real, k: nat, p: nat, q: nat)
    requires k <= n
    requires p in Rank(n, score)[..k]
    requires q < n && q !in Rank(n, score)[..k]
    ensures RanksBefore(score, p, q)
  {
    var r := Rank(n, score);
    RankFacts(n, score);
    var i :| 0 <= i < k && r[..k][i] == p;
    assert q in r;
    var j :| 0 <= j < n && r[j] == q;
    assert forall t :: 0 <= t < k ==> r[..k][t] == r[t];
    assert j >= k;
  }

  /** `Math.min(3, Math.max(1, Math.floor(n / 4)))` */
  function SummaryCount(n: nat): nat {
    Min(3, if n / 4 >= 1 then n / 4 else 1)
  }

  /** The positions chosen for the summary and for the key points. */
  datatype Selection = Selection(summary: seq<nat>, keyPoints: seq<nat>)

  /** The `SummaryCount(n)` best-ranked positions form the summary and the next (at
      most five) the key points; each group is then put back in position order. */
  function Select(n: nat, score: nat -> real): (sel: Selection)
    requires n > 0
    ensures IsSelection(n, score, sel)
    ensures |sel.summary| == SummaryCount(n)
    ensures |sel.keyPoints| == Min(5, n - SummaryCount(n))
    ensures forall i, j :: 0 <= i < j < |sel.summary| ==> sel.summary[i] < sel.summary[j]
    ensures forall i, j :: 0 <= i < j < |sel.keyPoints| ==> sel.keyPoints[i] < sel.keyPoints[j]
    ensures forall p :: p in sel.summary ==> p < n && p !in sel.keyPoints
    ensures forall p :: p in sel.keyPoints ==> p < n
    ensures forall p, q: nat :: p in sel.summary && q < n && q !in sel.summary ==> RanksBefore(score, p, q)
    ensures forall p, q: nat :: p in sel.keyPoints && q < n && q !in sel.summary && q !in sel.keyPoints
                           ==> RanksBefore(score, p, q)
  {
    var r := Rank(n, score);
    var k := SummaryCount(n);
    var e := Min(k + 5, n);
    RankFacts(n, score);
    DistinctSlice(r, 0, k);
    DistinctSlice(r, k, e);
    assert r[0..k] == r[..k];
    var sel := Selection(Ascending(r[..k]), Ascending(r[k..e]));
    SizesOf(sel.summary, r[..k]);
    SizesOf(sel.keyPoints, r[k..e]);
    SelectionFacts(n, score, k, e, sel);
    sel
  }

  /** What `buildSummary` asks of its choice of positions among `n` ranked ones: the
      summary holds `SummaryCount(n)` positions and the key points the next (at most
      five); each group is in position order; the groups are disjoint; and each
      group ranks before every position chosen for neither. */
  ghost predicate IsSelection(n: nat, score: nat -> real, sel: Selection) {
    && n > 0
    && |sel.summary| == SummaryCount(n)
    && |sel.keyPoints| == Min(5, n - SummaryCount(n))
    && (forall i, j :: 0 <= i < j < |sel.summary| ==> sel.summary[i] < sel.summary[j])
    && (forall i, j :: 0 <= i < j < |sel.keyPoints| ==> sel.keyPoints[i] < sel.keyPoints[j])
    && (forall p :: p in sel.summary ==> p < n && p !in sel.keyPoints)
    && (forall p :: p in sel.keyPoints ==> p < n)
    && (forall p, q: nat :: p in sel.summary && q < n && q !in sel.summary ==> RanksBefore(score, p, q))
    && (forall p, q: nat :: p in sel.keyPoints && q < n && q !in sel.summary && q !in sel.keyPoints
                        ==> RanksBefore(score, p, q))
  }

  lemma SizesOf(a: seq<nat>, b: seq<nat>)
    requires multiset(a) == multiset(b)
    ensures |a| == |b|
  {
    assert |multiset(a)| == |a| && |multiset(b)| == |b|;
  }

  lemma DistinctSlice(xs: seq<nat>, a: nat, b: nat)
    requires Distinct(xs) && a <= b <= |xs|
    ensures Distinct(xs[a..b])
  {
    var s := xs[a..b];
    forall i, j | 0 <= i < j < |s|
      ensures s[i] != s[j]
    {
      assert s[i] == xs[a + i] && s[j] == xs[a + j];
    }
  }

  lemma SelectionFacts(n: nat, score: nat -> real, k: nat, e: nat, sel: Selection)
    requires k <= e <= n
    requires multiset(sel.summary) == multiset(Rank(n, score)[..k])
    requires multiset(sel.keyPoints) == multiset(Rank(n, score)[k..e])
    ensures forall p :: p in sel.summary ==> p < n && p !in sel.keyPoints
    ensures forall p :: p in sel.keyPoints ==> p < n
    ensures forall p, q: nat :: p in sel.summary && q < n && q !in sel.summary ==> RanksBefore(score, p, q)
    ensures forall p, q: nat :: p in sel.keyPoints && q < n && q !in sel.summary && q !in sel.keyPoints
                           ==> RanksBefore(score, p, q)
  {
    RankFacts(n, score);
    forall p | p in sel.summary
      ensures p < n && p !in sel.keyPoints
    {
      InTop(n, score, k, e, sel, p);
    }
    forall p | p in sel.keyPoints
      ensures p < n
    {
      InNext(n, score, k, e, sel, p);
    }
    forall p, q: nat | p in sel.summary && q < n && q !in sel.summary
      ensures RanksBefore(score, p, q)
    {
      assert p in multiset(Rank(n, score)[..k]);
      assert q !in multiset(Rank(n, score)[..k]);
      TopRanksFirst(n, score, k, p, q);
    }
    forall p, q: nat | p in sel.keyPoints && q < n && q !in sel.summary && q !in sel.keyPoints
      ensures RanksBefore(score, p, q)
    {
      NextRanksFirst(n, score, k, e, sel, p, q);
    }
  }

  lemma InTop(n: nat, score: nat -> real, k: nat, e: nat, sel: Selection, p: nat)
    requires k <= e <= n
    requires multiset(sel.summary) == multiset(Rank(n, score)[..k])
    requires multiset(sel.keyPoints) == multiset(Rank(n, score)[k..e])
    requires p in sel.summary
    ensures p < n && p !in sel.keyPoints
  {
    var r := Rank(n, score);
    RankFacts(n, score);
    assert p in multiset(r[..k]);
    var i := IndexIn(r, 0, k, p);
    if p in sel.keyPoints {
      assert p in multiset(r[k..e]);
      var j := IndexIn(r, k, e, p);
      assert false;
    }
  }

  lemma InNext(n: nat, score: nat -> real, k: nat, e: nat, sel: Selection, p: nat)
    requires k <= e <= n
    requires multiset(sel.keyPoints) == multiset(Rank(n, score)[k..e])
    requires p in sel.keyPoints
    ensures p < n
  {
    var r := Rank(n, score);
    RankFacts(n, score);
    assert p in multiset(r[k..e]);
    var j := IndexIn(r, k, e, p);
  }

  lemma NextRanksFirst(n: nat, score: nat -> real, k: nat, e: nat, sel: Selection, p: nat, q: nat)
    requires k <= e <= n
    requires multiset(sel.summary) == multiset(Rank(n, score)[..k])
    requires multiset(sel.keyPoints) == multiset(Rank(n, score)[k..e])
    requires p in sel.keyPoints && q < n && q !in sel.summary && q !in sel.keyPoints
    ensures RanksBefore(score, p, q)
  {
    var r := Rank(n, score);
    RankFacts(n, score);
    assert p in multiset(r[k..e]);
    var i := IndexIn(r, k, e, p);
    assert q in r;
    var j :| 0 <= j < n && r[j] == q;
    assert q !in multiset(sel.summary) && q !in multiset(sel.keyPoints);
    assert q !in r[..k] && q !in r[k..e];
    InSlice(r, 0, k, j);
    InSlice(r, k, e, j);
  }

  /** A member of a slice sits at some position of the slice. */
  lemma IndexIn(r: seq<nat>, lo: nat, hi: nat, x: nat) returns (t: nat)
    requires lo <= hi <= |r|
    requires x in r[lo..hi]
    ensures lo <= t < hi && r[t] == x
  {
    var u :| 0 <= u < hi - lo && r[lo..hi][u] == x;
    t := lo + u;
  }

  /** An element at a position within a slice's bounds is in the slice. */
  lemma InSlice(r: seq<nat>, lo: nat, hi: nat, j: nat)
    requires lo <= hi <= |r| && j < |r|
    ensures lo <= j < hi ==> r[j] in r[lo..hi]
  {
    if lo <= j < hi {
      assert r[lo..hi][j - lo] == r[j];
    }
  }
}

=== FILE: server.dfy ===
/** The pure logic of server.js: the checks of the `/api/summarize` route, the
    transcript fetch with its truncation rule, the reading of the language model's
    reply and the mapping of errors to HTTP statuses. The transcript library, the
    model call and `JSON.parse` are parameters. */
module Server {
  import opened Wrappers
  import opened Text
  import opened Values
  import opened VideoId
  import opened Ranking
  import Transcript

  /** `MAX_WORDS`: the words of the transcript sent to the model. */
  const MaxWords: nat := 12000
  /** A transcript of more than twice `MAX_WORDS` words is refused. */
  const TooLong: nat := 2 * MaxWords

  // ---------------------------------------------------------------------------
  // Thrown values and handleServerError
  // ---------------------------------------------------------------------------

  /** What a thrown value carries that `handleServerError` looks at: the module's
      own `code`, and the HTTP `status` and `error.type` of a model API error. A
      `TypeError` carries none of them. */
  datatype Thrown = Thrown(code: Option<string>, status: Option<int>, errorType: Option<string>)

  /** `{ code }`, an error the module throws itself. */
  function Coded(code: string): Thrown {
    Thrown(Some(code), None, None)
  }

  /** A `TypeError`, such as reading `.trim()` of a missing segment text. */
  const TypeError: Thrown := Thrown(None, None, None)

  /** A status and the error code of the JSON body sent with it. */
  datatype Failed = Failed(status: nat, code: string)

  /** `knownErrors[code]?.status` */
  function KnownStatus(code: string): Option<nat> {
    if code == "NO_TRANSCRIPT" then Some(404)
    else if code == "VIDEO_TOO_LONG" then Some(422)
    else if code == "INVALID_ID" then Some(400)
    else None
  }

  /** The thrown value has a code of the table. */
  predicate IsKnown(e: Thrown) {
    e.code.Some? && KnownStatus(e.code.value).Some?
  }

  /** The model API refused the key. */
  predicate IsAuthFailure(e: Thrown) {
    e.status == Some(401) || e.errorType == Some("authentication_error")
  }

  /** `handleServerError(err, res)`: the module's own codes first, then the model
      API's statuses, then an internal error. */
  function HandleServerError(e: Thrown): (r: Failed)
    ensures IsKnown(e) ==> r == Failed(KnownStatus(e.code.value).value, e.code.value)
    ensures !IsKnown(e) ==> (r == Failed(401, "INVALID_API_KEY") <==> IsAuthFailure(e))
    ensures r == Failed(429, "RATE_LIMITED") <==> !IsKnown(e) && !IsAuthFailure(e) && e.status == Some(429)
    ensures r == Failed(503, "SERVICE_UNAVAILABLE") <==>
      !IsKnown(e) && !IsAuthFailure(e) && (e.status == Some(529) || e.status == Some(503))
    ensures r == Failed(500, "INTERNAL_ERROR") <==>
      !IsKnown(e) && !IsAuthFailure(e) && e.status !in {Some(429), Some(503), Some(529)}
  {
    if IsKnown(e) then Failed(KnownStatus(e.code.value).value, e.code.value)
    else if IsAuthFailure(e) then Failed(401, "INVALID_API_KEY")
    else if e.status == Some(429) then Failed(429, "RATE_LIMITED")
    else if e.status == Some(529) || e.status == Some(503) then Failed(503, "SERVICE_UNAVAILABLE")
    else Failed(500, "INTERNAL_ERROR")
  }

  /** The module's own code wins over any status the value also carries. */
  lemma KnownCodesComeFirst(code: string, status: Option<int>, errorType: Option<string>)
    requires KnownStatus(code).Some?
    ensures HandleServerError(Thrown(Some(code), status, errorType)).status in {400, 404, 422}
  {
  }

  // ---------------------------------------------------------------------------
  // Request validation
  // ---------------------------------------------------------------------------

  /** The three summary kinds the route accepts. */
  datatype Mode = Detailed | Brief | Bullets

  /** `mode = 'detailed'` then `['detailed', 'brief', 'bullets'].includes(mode)`: the
      default replaces only a missing field, and the test is strict equality. */
  function ParseMode(v: Value): (m: Option<Mode>)
    ensures m == Some(Detailed) <==> v.Undefined? || v == Str("detailed")
    ensures v.Null? || v.Other? ==> m.None?
    ensures m == Some(Brief) <==> v == Str("brief")
    ensures m == Some(Bullets) <==> v == Str("bullets")
  {
    match v
    case Undefined => Some(Detailed)
    case Str(s) =>
      if s == "detailed" then Some(Detailed)
      else if s == "brief" then Some(Brief)
      else if s == "bullets" then Some(Bullets)
      else None
    case _ => None
  }

  /** A request that passed the checks. */
  datatype Request = Request(videoId: string, mode: Mode)

  /** The checks of the route: the id first (`!videoId || !/^[\w-]{11}$/.test(videoId)`,
      where `test` reads `String(videoId)`), then the mode. */
  function Validate(videoId: Value, mode: Value): (r: Result<Request, Failed>)
    ensures r.Success? <==> videoId.Truthy() && IsVideoId(videoId.AsString()) && ParseMode(mode).Some?
    ensures !videoId.Truthy() || !IsVideoId(videoId.AsString()) ==> r == Failure(Failed(400, "INVALID_ID"))
    ensures videoId.Truthy() && IsVideoId(videoId.AsString()) && ParseMode(mode).None? ==>
      r == Failure(Failed(400, "INVALID_MODE"))
    ensures r.Success? ==> IsVideoId(r.value.videoId) && Some(r.value.mode) == ParseMode(mode)
  {
    if !videoId.Truthy() || !IsVideoId(videoId.AsString()) then Failure(Failed(400, "INVALID_ID"))
    else
      match ParseMode(mode)
      case None => Failure(Failed(400, "INVALID_MODE"))
      case Some(m) => Success(Request(videoId.AsString(), m))
  }

  /** A valid id with no mode asks for the detailed summary; a valid string id is
      accepted exactly when the mode is missing or one of the three strings, and any
      other mode is refused with `INVALID_MODE`. */
  lemma ValidIdDefaults(id: string, mode: Value)
    requires IsVideoId(id)
    ensures Validate(Str(id), Undefined) == Success(Request(id, Detailed))
    ensures Validate(Str(id), mode).Success? <==>
      mode.Undefined? || mode in [Str("detailed"), Str("brief"), Str("bullets")]
    ensures !mode.Undefined? && mode !in [Str("detailed"), Str("brief"), Str("bullets")] ==>
      Validate(Str(id), mode) == Failure(Failed(400, "INVALID_MODE"))
  {
  }

  // ---------------------------------------------------------------------------
  // fetchTranscript
  // ---------------------------------------------------------------------------

  /** The languages the server tries, in priority order. */
  const ServerLanguages: seq<string> := ["ar", "en", "fr", "tr", "de", "es"]

  /** Every language is a two-letter code, so none is `"auto"` or `"unknown"`. */
  lemma ServerLanguagesAreCodes(i: nat)
    requires i < |ServerLanguages|
    ensures |ServerLanguages[i]| == 2
  {
  }

  /** The segments of the first language that succeeds, or of the automatic request;
      any failure of the automatic request becomes `NO_TRANSCRIPT`. */
  function FetchSegments(fetch: Transcript.Fetcher): (r: Result<Transcript.Fetched, Thrown>)
    ensures r.Success? ==> r.value.language != "unknown" && r.value.language != ""
    ensures r.Success? && r.value.language != "auto" ==>
      exists i :: 0 <= i < |ServerLanguages| && ServerLanguages[i] == r.value.language
        && fetch(Some(ServerLanguages[i])) == Success(r.value.segments)
        && forall j :: 0 <= j < i ==> fetch(Some(ServerLanguages[j])).Failure?
    ensures r.Success? && r.value.language == "auto" <==>
      (forall j :: 0 <= j < |ServerLanguages| ==> fetch(Some(ServerLanguages[j])).Failure?)
      && fetch(None).Success?
    ensures r.Failure? <==>
      (forall j :: 0 <= j < |ServerLanguages| ==> fetch(Some(ServerLanguages[j])).Failure?)
      && fetch(None).Failure?
    ensures r.Failure? ==> r.error == Coded("NO_TRANSCRIPT")
  {
    match Transcript.FirstSuccess(ServerLanguages, fetch)
    case Some(i) =>
      ServerLanguagesAreCodes(i);
      Success(Transcript.Fetched(fetch(Some(ServerLanguages[i])).value, ServerLanguages[i]))
    case None =>
      match fetch(None)
      case Success(segments) => Success(Transcript.Fetched(segments, "auto"))
      case Failure(_) => Failure(Coded("NO_TRANSCRIPT"))
  }

  /** The segment texts, or `None` when one is missing (`s.text.trim()` then throws). */
  function Texts(segments: seq<Transcript.Segment>): (r: Option<seq<string>>)
    ensures r.Some? <==> forall i :: 0 <= i < |segments| ==> segments[i].text.Some?
    ensures r.Some? ==>
      |r.value| == |segments| && forall i :: 0 <= i < |segments| ==> r.value[i] == segments[i].text.value
    decreases |segments|
  {
    if |segments| == 0 then Some([])
    else
      match segments[0].text
      case None => None
      case Some(t) =>
        match Texts(segments[1..])
        case None => None
        case Some(rest) => Some([t] + rest)
  }

  /** `.map(s => s.text.trim()).filter(Boolean)` */
  function TrimmedTexts(texts: seq<string>): (r: seq<string>)
    ensures forall i :: 0 <= i < |r| ==> r[i] != ""
    decreases |texts|
  {
    if |texts| == 0 then []
    else
      var t := Trim(texts[0]);
      if t == "" then TrimmedTexts(texts[1..]) else [t] + TrimmedTexts(texts[1..])
  }

  /** Trimming and dropping empty texts loses no word. */
  lemma {:induction false} TrimmedTextsWords(texts: seq<string>)
    ensures WordsOfAll(TrimmedTexts(texts)) == WordsOfAll(texts)
    decreases |texts|
  {
    if |texts| > 0 {
      TrimmedTextsWords(texts[1..]);
      var t := Trim(texts[0]);
      WordsOfTrim(texts[0]);
      TrimEmpty(texts[0]);
      var rest := TrimmedTexts(texts[1..]);
      assert WordsOfAll(texts) == Words(texts[0]) + WordsOfAll(texts[1..]);
      if t != "" {
        assert TrimmedTexts(texts) == [t] + rest;
        assert ([t] + rest)[1..] == rest;
        assert WordsOfAll([t] + rest) == Words(t) + WordsOfAll(rest);
      } else {
        assert TrimmedTexts(texts) == rest;
      }
    }
  }

  /** `.join(' ').replace(/\s+/g, ' ').trim()` over the trimmed texts. */
  function FullText(texts: seq<string>): (r: string)
    ensures Words(r) == WordsOfAll(texts) && r == Join(WordsOfAll(texts))
  {
    var ts := TrimmedTexts(texts);
    SquishProperties(Join(ts));
    WordsOfJoinAll(ts);
    TrimmedTextsWords(texts);
    Squish(Join(ts))
  }

  /** What `fetchTranscript` returns. */
  datatype Fetched = Fetched(text: string, language: string, wordCount: nat)

  /** The truncation rule of `fetchTranscript` on the segment texts: the word count is
      that of all the texts; a transcript without words is `NO_TRANSCRIPT`, one of
      more than 24 000 words is `VIDEO_TOO_LONG`, and one of more than 12 000 words
      is cut to its first 12 000 words followed by "...". */
  function Truncate(texts: seq<string>, language: string): (r: Result<Fetched, Thrown>)
    ensures r.Success? <==> 0 < |WordsOfAll(texts)| <= TooLong
    ensures WordsOfAll(texts) == [] ==> r == Failure(Coded("NO_TRANSCRIPT"))
    ensures |WordsOfAll(texts)| > TooLong ==> r == Failure(Coded("VIDEO_TOO_LONG"))
    ensures r.Success? ==> r.value.wordCount == |WordsOfAll(texts)| && r.value.language == language
    ensures r.Success? && r.value.wordCount <= MaxWords ==> r.value.text == Join(WordsOfAll(texts))
    ensures r.Success? && r.value.wordCount > MaxWords ==>
      r.value.text == Join(WordsOfAll(texts)[..MaxWords]) + "..."
    ensures r.Success? ==> CountWords(r.value.text) == Min(r.value.wordCount, MaxWords)
  {
    var fullText := FullText(texts);
    if fullText == "" then
      assert Words(fullText) == [];
      Failure(Coded("NO_TRANSCRIPT"))
    else
      var words := Words(fullText);
      var w := |words|;
      var truncated := if w > MaxWords then Join(words[..MaxWords]) + "..." else fullText;
      if w > TooLong then Failure(Coded("VIDEO_TOO_LONG"))
      else if w > MaxWords then
        EllipsisKeepsCount(words[..MaxWords]);
        Success(Fetched(truncated, language, w))
      else Success(Fetched(truncated, language, w))
  }

  /** "..." sticks to the last word: it adds no word. */
  lemma EllipsisKeepsCount(ws: seq<string>)
    requires AllWords(ws) && |ws| > 0
    ensures CountWords(Join(ws) + "...") == |ws|
  {
    var dots := "...";
    AppendKeepsWords(ws, dots);
    JoinAppend(ws, dots);
    WordsOfJoin(ws[..|ws| - 1] + [ws[|ws| - 1] + dots]);
  }

  /** Gluing printable characters to the last of a list of words leaves a list of words. */
  lemma AppendKeepsWords(ws: seq<string>, x: string)
    requires AllWords(ws) && |ws| > 0
    requires |x| > 0 && forall i :: 0 <= i < |x| ==> '!' <= x[i] <= '~'
    ensures AllWords(ws[..|ws| - 1] + [ws[|ws| - 1] + x])
  {
    PrintableWord(x);
    var w := ws[|ws| - 1];
    assert forall i :: 0 <= i < |w + x| ==> (w + x)[i] == if i < |w| then w[i] else x[i - |w|];
    assert IsWord(w + x);
  }

  /** Appending to a join appends to its last element. */
  lemma {:induction false} JoinAppend(ws: seq<string>, x: string)
    requires |ws| > 0
    ensures Join(ws) + x == Join(ws[..|ws| - 1] + [ws[|ws| - 1] + x])
    decreases |ws|
  {
    var n := |ws|;
    var ws' := ws[..n - 1] + [ws[n - 1] + x];
    if n > 1 {
      JoinAppend(ws[1..], x);
      assert ws'[1..] == ws[1..][..n - 2] + [ws[1..][n - 2] + x];
      assert ws'[0] == ws[0];
      ConcatAssoc(ws[0] + " ", Join(ws[1..]), x);
    }
  }

  /** `fetchTranscript(videoId)` with the transcript library as `fetch`. */
  function FetchTranscript(fetch: Transcript.Fetcher): (r: Result<Fetched, Thrown>)
    ensures FetchSegments(fetch).Failure? ==> r == Failure(Coded("NO_TRANSCRIPT"))
    ensures FetchSegments(fetch).Success? ==> var segs := FetchSegments(fetch).value.segments;
      && (Texts(segs).None? ==> r == Failure(TypeError))
      && (Texts(segs).Some? ==> r == Truncate(Texts(segs).value, FetchSegments(fetch).value.language))
    ensures r.Success? ==> r.value.language == FetchSegments(fetch).value.language
    ensures r.Success? ==> 0 < r.value.wordCount <= TooLong
  {
    match FetchSegments(fetch)
    case Failure(e) => Failure(e)
    case Success(f) =>
      match Texts(f.segments)
      case None => Failure(TypeError)
      case Some(texts) => Truncate(texts, f.language)
  }

  /** `Math.ceil(wordCount / 200)`: the reading time at 200 words a minute. */
  function ReadMinutes(words: nat): (r: nat)
    ensures words <= 200 * r < words + 200
  {
    (words + 199) / 200
  }

  // ---------------------------------------------------------------------------
  // parseClaudeResponse
  // ---------------------------------------------------------------------------

  /** A value `JSON.parse` can produce. */
  datatype Json = JNull | JBool(b: bool) | JNum(n: real) | JStr(s: string)
                | JArr(items: seq<Json>) | JObj(fields: seq<(string, Json)>)

  /** `!!v` for a parsed value. */
  predicate Truthy(v: Json) {
    match v
    case JNull => false
    case JBool(b) => b
    case JNum(n) => n != 0.0
    case JStr(s) => s != ""
    case _ => true
  }

  /** `object[key]` on the fields of a parsed object. */
  function Lookup(fields: seq<(string, Json)>, key: string): Option<Json>
    decreases |fields|
  {
    if |fields| == 0 then None
    else if fields[|fields| - 1].0 == key then Some(fields[|fields| - 1].1)
    else Lookup(fields[..|fields| - 1], key)
  }

  /** `JSON.parse` keeps the last of repeated keys: a lookup finds a field exactly
      when one is named `key`, and then the value of the last such field. */
  lemma {:induction false} LookupFindsLast(fields: seq<(string, Json)>, key: string)
    ensures Lookup(fields, key).Some? <==> exists i :: 0 <= i < |fields| && fields[i].0 == key
    ensures Lookup(fields, key).Some? ==> exists i ::
      0 <= i < |fields| && fields[i] == (key, Lookup(fields, key).value)
      && forall j :: i < j < |fields| ==> fields[j].0 != key
    decreases |fields|
  {
    if |fields| > 0 && fields[|fields| - 1].0 != key {
      var init := fields[..|fields| - 1];
      LookupFindsLast(init, key);
      assert forall i :: 0 <= i < |init| ==> init[i] == fields[i];
    }
  }

  /** `parsed[key]`: `None` stands for `undefined`, which every non-object value gives. */
  function Field(parsed: Json, key: string): Option<Json> {
    if parsed.JObj? then Lookup(parsed.fields, key) else None
  }

  /** `parsed[key] || otherwise` */
  function OrElse(parsed: Json, key: string, otherwise: Json): (r: Json)
    ensures Truthy(r) || r == otherwise
    ensures Field(parsed, key).Some? && Truthy(Field(parsed, key).value) ==> r == Field(parsed, key).value
    ensures !(Field(parsed, key).Some? && Truthy(Field(parsed, key).value)) ==> r == otherwise
  {
    match Field(parsed, key)
    case Some(v) => if Truthy(v) then v else otherwise
    case None => otherwise
  }

  /** `Array.isArray(parsed[key]) ? parsed[key] : []` */
  function ArrayOr(parsed: Json, key: string): (r: seq<Json>)
    ensures Field(parsed, key).Some? && Field(parsed, key).value.JArr? ==> r == Field(parsed, key).value.items
    ensures !(Field(parsed, key).Some? && Field(parsed, key).value.JArr?) ==> r == []
  {
    match Field(parsed, key)
    case Some(JArr(items)) => items
    case _ => []
  }

  /** The summary object the route returns. */
  datatype Summary = Summary(videoId: string, title: Json, channel: Json, duration: Json,
                             language: Json, summary: Json, keyPoints: seq<Json>,
                             topics: seq<Json>, verdict: Json)

  /** The default title of a parsed reply. */
  const DefaultTitle: string := "فيديو يوتيوب"
  /** The title of a reply that could not be parsed. */
  const FallbackTitle: string := "ملخص الفيديو"

  /** A backtick fence: three backticks. */
  predicate FenceAt(s: string, p: nat) {
    p + 3 <= |s| && s[p] == '`' && s[p + 1] == '`' && s[p + 2] == '`'
  }

  /** `json` in any letter case at position `p`. */
  predicate JsonTagAt(s: string, p: nat) {
    && p + 4 <= |s|
    && (s[p] == 'j' || s[p] == 'J') && (s[p + 1] == 's' || s[p + 1] == 'S')
    && (s[p + 2] == 'o' || s[p + 2] == 'O') && (s[p + 3] == 'n' || s[p + 3] == 'N')
  }

  /** `.replace(/^```json\s*\/i, '')` */
  function DropJsonFence(s: string): string {
    if FenceAt(s, 0) && JsonTagAt(s, 3) then TrimStart(s[7..]) else s
  }

  /** `.replace(/^```\s*\/i, '')` */
  function DropFence(s: string): string {
    if FenceAt(s, 0) then TrimStart(s[3..]) else s
  }

  /** `.replace(/\s*```$/i, '')`: a closing fence and the whitespace before it. */
  function DropClosingFence(s: string): string {
    if |s| >= 3 && FenceAt(s, |s| - 3) then TrimEnd(s[..|s| - 3]) else s
  }

  /** The text `parseClaudeResponse` hands to `JSON.parse`. Its contract says only
      that the text is trimmed; what the fence removal does is stated by the lemmas
      FencedReply, UpperCaseFence, BareFencedReply and PlainReply below. */
  function StripFences(raw: string): (r: string)
    ensures IsTrimmed(r)
  {
    Trim(DropClosingFence(DropFence(DropJsonFence(raw))))
  }

  /** A reply wrapped in a fence opened by ```json, with `json` in any letter case,
      loses the fence and nothing else. */
  lemma FencedReply(tag: string, j: string, before: string, after: string)
    requires |tag| == 4 && JsonTagAt(tag, 0)
    requires IsTrimmed(j) && j != "" && j[0] != '`'
    requires forall i :: 0 <= i < |before| ==> IsSpace(before[i])
    requires forall i :: 0 <= i < |after| ==> IsSpace(after[i])
    ensures StripFences("```" + tag + before + j + after + "```") == j
  {
    var open, rest := "```" + tag + before, j + after + "```";
    ConcatAssoc(open, j, after);
    ConcatAssoc(open, j + after, "```");
    assert rest[0] == j[0];
    OpeningFence(tag, before, rest);
    assert !FenceAt(rest, 0);
    assert DropFence(rest) == rest;
    ClosingFence(j, after);
  }

  /** The tag is read in any letter case: an upper-case ```JSON fence goes too. */
  lemma UpperCaseFence(j: string, before: string, after: string)
    requires IsTrimmed(j) && j != "" && j[0] != '`'
    requires forall i :: 0 <= i < |before| ==> IsSpace(before[i])
    requires forall i :: 0 <= i < |after| ==> IsSpace(after[i])
    ensures StripFences("```JSON" + before + j + after + "```") == j
  {
    var tag := "JSON";
    assert JsonTagAt(tag, 0) by {
      assert tag[0] == 'J' && tag[1] == 'S' && tag[2] == 'O' && tag[3] == 'N';
    }
    assert "```" + tag == "```JSON";
    FencedReply(tag, j, before, after);
  }

  /** A reply wrapped in a bare ``` fence loses the fence and nothing else, provided
      it does not itself begin where a `json` tag would be read. */
  lemma BareFencedReply(j: string, before: string, after: string)
    requires IsTrimmed(j) && j != "" && j[0] != '`'
    requires before == "" ==> j[0] != 'j' && j[0] != 'J'
    requires forall i :: 0 <= i < |before| ==> IsSpace(before[i])
    requires forall i :: 0 <= i < |after| ==> IsSpace(after[i])
    ensures StripFences("```" + before + j + after + "```") == j
  {
    var rest := j + after + "```";
    var s := "```" + before + rest;
    ConcatAssoc("```" + before, j, after);
    ConcatAssoc("```" + before, j + after, "```");
    assert s == "```" + before + j + after + "```";
    assert rest[0] == j[0];
    BareOpening(before, rest);
    ClosingFence(j, after);
  }

  /** An opening bare fence goes with the whitespace after it. */
  lemma BareOpening(before: string, rest: string)
    requires forall i :: 0 <= i < |before| ==> IsSpace(before[i])
    requires rest != [] && !IsSpace(rest[0]) && rest[0] != '`'
    requires before == "" ==> rest[0] != 'j' && rest[0] != 'J'
    ensures DropFence(DropJsonFence("```" + before + rest)) == rest
  {
    var s := "```" + before + rest;
    var body := before + rest;
    assert s[3] == body[0];
    if before != "" {
      assert IsSpace(s[3]);
      PrintableIsNotSpace('j');
      PrintableIsNotSpace('J');
    }
    assert !JsonTagAt(s, 3);
    assert DropJsonFence(s) == s && FenceAt(s, 0);
    assert s[3..] == body;
    SpaceLenIs(body, |before|);
    assert body[|before|..] == rest;
    assert !FenceAt(rest, 0);
  }

  /** The opening ```json fence goes with the whitespace after it. */
  lemma OpeningFence(tag: string, before: string, rest: string)
    requires |tag| == 4 && JsonTagAt(tag, 0)
    requires forall i :: 0 <= i < |before| ==> IsSpace(before[i])
    requires rest != [] && !IsSpace(rest[0])
    ensures DropJsonFence("```" + tag + before + rest) == rest
  {
    var s := "```" + tag + before + rest;
    var body := before + rest;
    assert s[3..7] == tag;
    assert FenceAt(s, 0) && JsonTagAt(s, 3);
    assert s[7..] == body;
    SpaceLenIs(body, |before|);
    assert body[|before|..] == rest;
  }

  /** The closing fence goes with the whitespace before it. */
  lemma ClosingFence(j: string, after: string)
    requires IsTrimmed(j) && j != ""
    requires forall i :: 0 <= i < |after| ==> IsSpace(after[i])
    ensures DropClosingFence(j + after + "```") == j
  {
    var rest := j + after + "```";
    assert FenceAt(rest, |rest| - 3);
    var inner := j + after;
    assert rest[..|rest| - 3] == inner;
    TrailLenIs(inner, |after|);
    assert inner[..|inner| - |after|] == j;
  }

  /** A reply without fences is only trimmed. */
  lemma PlainReply(j: string)
    requires IsTrimmed(j) && (j == "" || (j[0] != '`' && j[|j| - 1] != '`'))
    ensures StripFences(j) == j
  {
  }

  /** `parseClaudeResponse(rawText, videoId)` with `JSON.parse` as `parse`. A reply
      that does not parse, or parses to `null` (reading its fields throws), becomes
      a summary holding the raw text. */
  function ParseClaudeResponse(raw: string, videoId: string, parse: string -> Option<Json>): (r: Summary)
    ensures r.videoId == videoId && Truthy(r.title) && |r.topics| <= 5
    ensures Truthy(r.channel) || r.channel == JNull
    ensures Truthy(r.summary) || r.summary == JNull || r.summary == JStr(raw)
    ensures parse(StripFences(raw)).None? || parse(StripFences(raw)) == Some(JNull) ==>
      r.summary == JStr(raw) && r.keyPoints == [] && r.topics == [] && r.title == JStr(FallbackTitle)
    ensures parse(StripFences(raw)).Some? && parse(StripFences(raw)) != Some(JNull) ==>
      ReadFrom(parse(StripFences(raw)).value, r)
  {
    match parse(StripFences(raw))
    case None => Unparsed(raw, videoId)
    case Some(JNull) => Unparsed(raw, videoId)
    case Some(p) => Parsed(p, videoId)
  }

  /** The summary's fields are read from the parsed reply `p`: the arrays as they are
      (at most five topics), a truthy title or else the default title, and every other
      field if truthy, else `null`. */
  predicate ReadFrom(p: Json, r: Summary) {
    && r.keyPoints == ArrayOr(p, "keyPoints")
    && r.topics == ArrayOr(p, "topics")[..Min(5, |ArrayOr(p, "topics")|)]
    && (Field(p, "title").Some? && Truthy(Field(p, "title").value) ==> r.title == Field(p, "title").value)
    && (!(Field(p, "title").Some? && Truthy(Field(p, "title").value)) ==> r.title == JStr(DefaultTitle))
    && r.channel == OrElse(p, "channel", JNull) && r.duration == OrElse(p, "duration", JNull)
    && r.language == OrElse(p, "language", JNull) && r.summary == OrElse(p, "summary", JNull)
    && r.verdict == OrElse(p, "verdict", JNull)
  }

  /** The summary of a reply that parsed to something other than `null`. */
  function Parsed(p: Json, videoId: string): (r: Summary)
    ensures r.videoId == videoId && ReadFrom(p, r)
  {
    var topics := ArrayOr(p, "topics");
    Summary(videoId, OrElse(p, "title", JStr(DefaultTitle)), OrElse(p, "channel", JNull),
            OrElse(p, "duration", JNull), OrElse(p, "language", JNull),
            OrElse(p, "summary", JNull), ArrayOr(p, "keyPoints"),
            topics[..Min(5, |topics|)], OrElse(p, "verdict", JNull))
  }

  /** The summary of a reply `JSON.parse` rejects. */
  function Unparsed(raw: string, videoId: string): Summary {
    Summary(videoId, JStr(FallbackTitle), JNull, JNull, JNull, JStr(raw), [], [], JNull)
  }

  /** The fence around a reply makes no difference to what is read from it. */
  lemma FenceIsTransparent(tag: string, j: string, before: string, after: string, videoId: string,
                           parse: string -> Option<Json>)
    requires |tag| == 4 && JsonTagAt(tag, 0)
    requires IsTrimmed(j) && j != "" && j[0] != '`' && j[|j| - 1] != '`'
    requires forall i :: 0 <= i < |before| ==> IsSpace(before[i])
    requires forall i :: 0 <= i < |after| ==> IsSpace(after[i])
    requires parse(j).Some? && parse(j) != Some(JNull)
    ensures ParseClaudeResponse("```" + tag + before + j + after + "```", videoId, parse)
         == ParseClaudeResponse(j, videoId, parse)
  {
    FencedReply(tag, j, before, after);
    PlainReply(j);
  }

  /** When the bare reply does not parse, each summary is its own raw text, so the
      fence stays visible and the two summaries differ. */
  lemma FenceShowsWhenUnparsed(tag: string, j: string, before: string, after: string, videoId: string,
                               parse: string -> Option<Json>)
    requires |tag| == 4 && JsonTagAt(tag, 0)
    requires IsTrimmed(j) && j != "" && j[0] != '`' && j[|j| - 1] != '`'
    requires forall i :: 0 <= i < |before| ==> IsSpace(before[i])
    requires forall i :: 0 <= i < |after| ==> IsSpace(after[i])
    requires parse(j).None? || parse(j) == Some(JNull)
    ensures ParseClaudeResponse("```" + tag + before + j + after + "```", videoId, parse).summary
         == JStr("```" + tag + before + j + after + "```")
    ensures ParseClaudeResponse(j, videoId, parse).summary == JStr(j)
    ensures ParseClaudeResponse("```" + tag + before + j + after + "```", videoId, parse)
         != ParseClaudeResponse(j, videoId, parse)
  {
    FencedReply(tag, j, before, after);
    PlainReply(j);
    var fenced := "```" + tag + before + j + after + "```";
    assert |fenced| > |j|;
  }

  // ---------------------------------------------------------------------------
  // The route
  // ---------------------------------------------------------------------------

  /** `message.content[0].text` of the model's reply to the transcript text and mode. */
  type Completer = (string, Mode) -> Result<string, Thrown>

  /** The `stats` of the response. */
  datatype Stats = Stats(wordCount: nat, charCount: nat, readMinutes: nat)

  /** The body of a successful response. */
  datatype Payload = Payload(videoId: string, thumbnail: string, summary: Summary, stats: Stats)

  /** A successful response or a failed one. */
  datatype Outcome = Done(payload: Payload) | Refused(failure: Failed)

  /** `https://img.youtube.com/vi/${videoId}/hqdefault.jpg` */
  function Thumbnail(id: string): string {
    "https://img.youtube.com/vi/" + id + "/hqdefault.jpg"
  }

  /** `app.post('/api/summarize', …)` */
  function Summarize(videoId: Value, mode: Value, fetch: Transcript.Fetcher, complete: Completer,
                     parse: string -> Option<Json>): (r: Outcome)
    ensures Validate(videoId, mode).Failure? ==> r == Refused(Validate(videoId, mode).error)
    ensures r.Done? ==>
      && Validate(videoId, mode).Success? && FetchTranscript(fetch).Success?
      && r.payload.videoId == Validate(videoId, mode).value.videoId
    ensures r.Done? ==> var s := r.payload.stats;
      && 0 < s.wordCount <= TooLong
      && s.charCount == |FetchTranscript(fetch).value.text|
      && s.wordCount <= 200 * s.readMinutes < s.wordCount + 200
      && Truthy(r.payload.summary.title) && |r.payload.summary.topics| <= 5
    ensures r.Refused? && Validate(videoId, mode).Success? ==>
      exists e :: r.failure == HandleServerError(e)
    ensures Validate(videoId, mode).Success? && FetchTranscript(fetch).Failure? ==>
      r == Refused(HandleServerError(FetchTranscript(fetch).error))
    ensures Validate(videoId, mode).Success? && FetchTranscript(fetch).Success? ==>
      var req, t := Validate(videoId, mode).value, FetchTranscript(fetch).value;
      match complete(t.text, req.mode)
      case Failure(e) => r == Refused(HandleServerError(e))
      case Success(raw) =>
        r == Done(Payload(req.videoId, Thumbnail(req.videoId), ParseClaudeResponse(raw, req.videoId, parse),
                          Stats(t.wordCount, |t.text|, ReadMinutes(t.wordCount))))
  {
    match Validate(videoId, mode)
    case Failure(f) => Refused(f)
    case Success(Request(id, m)) =>
      match FetchTranscript(fetch)
      case Failure(e) => Refused(HandleServerError(e))
      case Success(t) =>
        match complete(t.text, m)
        case Failure(e) => Refused(HandleServerError(e))
        case Success(raw) =>
          var summary := ParseClaudeResponse(raw, id, parse);
          Done(Payload(id, Thumbnail(id), summary,
                       Stats(t.wordCount, |t.text|, ReadMinutes(t.wordCount))))
  }

  /** A transcript fetch that fails is reported as 404 or 500, never as a model error. */
  lemma FetchFailuresAreReported(fetch: Transcript.Fetcher)
    requires FetchTranscript(fetch).Failure?
    ensures HandleServerError(FetchTranscript(fetch).error) in
      {Failed(404, "NO_TRANSCRIPT"), Failed(422, "VIDEO_TOO_LONG"), Failed(500, "INTERNAL_ERROR")}
  {
  }
}

=== FILE: summarizer.dfy ===
/** The local extractive summarizer of api/summarize.js: sentence splitting, the
    term-frequency table, sentence scoring, the choice of summary sentences and key
    points, key-point shaping and topic extraction. Scores are real numbers. */
module Summarizer {
  import opened Wrappers
  import opened Text
  import opened Ranking
  import Transcript

  // ---------------------------------------------------------------------------
  // splitSentences: text.split(/(?<=[.!?؟])\s+|(?<=\n)/).map(trim).filter(non-empty)
  // ---------------------------------------------------------------------------

  /** The end of the separator match starting at position `q`, if any. The first
      alternative is a whitespace run right after a sentence mark (`\s+` is greedy);
      the second is the empty match right after a line feed. */
  function MatchEnd(s: string, q: nat): (e: Option<nat>)
    requires q < |s|
    ensures e.Some? ==> q <= e.value <= |s|
    ensures e.Some? && e.value == q ==> q > 0 && s[q - 1] == '\n'
    ensures e.None? <==> q == 0 || !IsBreak(s, q)
  {
    if q > 0 && Transcript.IsMark(s[q - 1]) && IsSpace(s[q]) then Some(q + SpaceLen(s[q..]))
    else if q > 0 && s[q - 1] == '\n' then Some(q)
    else None
  }

  /** The separator a match spans is whitespace. */
  lemma MatchEndSpaces(s: string, q: nat, e: nat)
    requires q < |s| && MatchEnd(s, q) == Some(e)
    ensures forall i :: q <= i < e ==> IsSpace(s[i])
  {
    if e > q {
      var n := SpaceLen(s[q..]);
      assert e == q + n;
      forall i | q <= i < e
        ensures IsSpace(s[i])
      {
        assert s[q..][i - q] == s[i];
      }
    }
  }

  /** The loop of `String.prototype.split` with a regular-expression separator: `p` is
      the start of the current piece and `q` the position where a match is tried. An
      empty match at the start of a piece is skipped, and no match is tried at the end. */
  function SplitFrom(s: string, p: nat, q: nat): seq<string>
    requires p <= q <= |s|
    decreases |s| - q, q - p
  {
    if q == |s| then [s[p..]]
    else
      var e := MatchEnd(s, q);
      if e.None? || e.value == p then SplitFrom(s, p, q + 1)
      else [s[p..q]] + SplitFrom(s, e.value, e.value)
  }

  /** The raw pieces of `text.split(/(?<=[.!?؟])\s+|(?<=\n)/)`. */
  function Pieces(s: string): seq<string> {
    SplitFrom(s, 0, 0)
  }

  /** `.map(s => s.trim()).filter(s => s.length > 0)` */
  function TrimNonEmpty(ps: seq<string>): (r: seq<string>)
    ensures forall i :: 0 <= i < |r| ==> r[i] != "" && IsTrimmed(r[i])
  {
    if |ps| == 0 then []
    else
      var t := Trim(ps[0]);
      if t == "" then TrimNonEmpty(ps[1..]) else [t] + TrimNonEmpty(ps[1..])
  }

  /** A sentence break lies before position `i`: a line feed, or a sentence mark
      followed by whitespace. */
  predicate IsBreak(t: string, i: nat)
    requires 0 < i < |t|
  {
    t[i - 1] == '\n' || (Transcript.IsMark(t[i - 1]) && IsSpace(t[i]))
  }

  /** No sentence break inside `t`. */
  predicate NoBreak(t: string) {
    forall i :: 0 < i < |t| ==> !IsBreak(t, i)
  }

  /** `splitSentences(text)`: the non-empty trimmed pieces between sentence breaks. */
  function SplitSentences(text: string): (r: seq<string>)
    ensures forall i :: 0 <= i < |r| ==> r[i] != "" && IsTrimmed(r[i])
  {
    TrimNonEmpty(Pieces(text))
  }

  /** Splitting at breaks neither loses, adds nor merges words. */
  lemma {:induction false} SplitFromWords(s: string, p: nat, q: nat)
    requires p <= q <= |s|
    ensures WordsOfAll(SplitFrom(s, p, q)) == Words(s[p..])
    decreases |s| - q, q - p, 1
  {
    if q == |s| {
      LastPieceWords(s, p);
    } else if MatchEnd(s, q).None? || MatchEnd(s, q).value == p {
      SkipWords(s, p, q);
    } else {
      var e := MatchEnd(s, q).value;
      SplitFromWords(s, e, e);
      CutStepWords(s, p, q, e);
    }
  }

  lemma LastPieceWords(s: string, p: nat)
    requires p <= |s|
    ensures WordsOfAll(SplitFrom(s, p, |s|)) == Words(s[p..])
  {
    assert SplitFrom(s, p, |s|) == [s[p..]];
    assert WordsOfAll([s[p..]]) == Words(s[p..]) + [];
  }

  lemma {:induction false} SkipWords(s: string, p: nat, q: nat)
    requires p <= q < |s|
    requires MatchEnd(s, q).None? || MatchEnd(s, q).value == p
    ensures WordsOfAll(SplitFrom(s, p, q)) == Words(s[p..])
    decreases |s| - q, q - p, 0
  {
    SplitFromWords(s, p, q + 1);
    assert SplitFrom(s, p, q) == SplitFrom(s, p, q + 1);
  }

  lemma CutStepWords(s: string, p: nat, q: nat, e: nat)
    requires p <= q < |s| && MatchEnd(s, q) == Some(e) && e != p
    requires WordsOfAll(SplitFrom(s, e, e)) == Words(s[e..])
    ensures WordsOfAll(SplitFrom(s, p, q)) == Words(s[p..])
  {
    var rest := SplitFrom(s, e, e);
    assert SplitFrom(s, p, q) == [s[p..q]] + rest;
    assert ([s[p..q]] + rest)[1..] == rest;
    CutWords(s, p, q, e);
  }

  /** Cutting `s[p..]` at a separator `s[q..e]` splits its words in two. */
  lemma CutWords(s: string, p: nat, q: nat, e: nat)
    requires p <= q < |s| && q <= e <= |s|
    requires MatchEnd(s, q) == Some(e)
    ensures Words(s[p..]) == Words(s[p..q]) + Words(s[e..])
  {
    var sep := s[q..e];
    assert s[p..] == s[p..q] + (sep + s[e..]) by {
      assert s[p..] == s[p..q] + s[q..e] + s[e..];
    }
    if e == q {
      assert sep + s[e..] == s[e..];
      WordsConcat(s[p..q], s[e..]);
    } else {
      assert Words(sep + s[e..]) == Words(s[e..]) by {
        MatchEndSpaces(s, q, e);
        assert forall i :: 0 <= i < |sep| ==> IsSpace(sep[i]);
        WordsOfSpaces(sep);
        WordsConcat(sep, s[e..]);
      }
      assert sep[0] == s[q];
      WordsConcat(s[p..q], sep + s[e..]);
    }
  }

  /** Trimming and dropping empty pieces keeps the words. */
  lemma {:induction false} TrimNonEmptyWords(ps: seq<string>)
    ensures WordsOfAll(TrimNonEmpty(ps)) == WordsOfAll(ps)
    decreases |ps|
  {
    if |ps| > 0 {
      var t := Trim(ps[0]);
      WordsOfTrim(ps[0]);
      TrimNonEmptyWords(ps[1..]);
      if t != "" {
        assert ([t] + TrimNonEmpty(ps[1..]))[1..] == TrimNonEmpty(ps[1..]);
      }
    }
  }

  /** The sentences hold exactly the words of the text, in order. */
  lemma SplitSentencesKeepsWords(text: string)
    ensures WordsOfAll(SplitSentences(text)) == Words(text)
  {
    SplitFromWords(text, 0, 0);
    TrimNonEmptyWords(Pieces(text));
    assert text[0..] == text;
  }

  /** No match is found strictly between `p` and `q`. */
  predicate Unbroken(s: string, p: nat, q: nat)
    requires q <= |s|
  {
    forall i :: p < i < q ==> MatchEnd(s, i).None?
  }

  /** No piece holds a break. */
  predicate AllNoBreak(ps: seq<string>) {
    forall k :: 0 <= k < |ps| ==> NoBreak(ps[k])
  }

  /** Every piece runs up to the next break: no break lies inside it. */
  lemma {:induction false} SplitFromNoBreak(s: string, p: nat, q: nat)
    requires p <= q <= |s| && Unbroken(s, p, q)
    ensures AllNoBreak(SplitFrom(s, p, q))
    decreases |s| - q, q - p, 1
  {
    if q == |s| {
      LastPieceNoBreak(s, p);
    } else if MatchEnd(s, q).None? || MatchEnd(s, q).value == p {
      SkipNoBreak(s, p, q);
    } else {
      CutNoBreak(s, p, q);
    }
  }

  lemma {:induction false} SkipNoBreak(s: string, p: nat, q: nat)
    requires p <= q < |s| && Unbroken(s, p, q)
    requires MatchEnd(s, q).None? || MatchEnd(s, q).value == p
    ensures AllNoBreak(SplitFrom(s, p, q))
    decreases |s| - q, q - p, 0
  {
    UnbrokenStep(s, p, q);
    SplitFromNoBreak(s, p, q + 1);
    SkipStepNoBreak(s, p, q);
  }

  lemma {:induction false} CutNoBreak(s: string, p: nat, q: nat)
    requires p <= q < |s| && Unbroken(s, p, q)
    requires MatchEnd(s, q).Some? && MatchEnd(s, q).value != p
    ensures AllNoBreak(SplitFrom(s, p, q))
    decreases |s| - q, q - p, 0
  {
    var e := MatchEnd(s, q).value;
    SplitFromNoBreak(s, e, e);
    PieceNoBreak(s, p, q);
    CutStepNoBreak(s, p, q, e);
  }

  lemma LastPieceNoBreak(s: string, p: nat)
    requires p <= |s| && Unbroken(s, p, |s|)
    ensures AllNoBreak(SplitFrom(s, p, |s|))
  {
    PieceNoBreak(s, p, |s|);
    assert s[p..|s|] == s[p..];
    assert SplitFrom(s, p, |s|) == [s[p..]];
  }

  lemma UnbrokenStep(s: string, p: nat, q: nat)
    requires p <= q < |s| && Unbroken(s, p, q)
    requires MatchEnd(s, q).None? || MatchEnd(s, q).value == p
    ensures Unbroken(s, p, q + 1)
  {
  }

  lemma SkipStepNoBreak(s: string, p: nat, q: nat)
    requires p <= q < |s| && (MatchEnd(s, q).None? || MatchEnd(s, q).value == p)
    requires AllNoBreak(SplitFrom(s, p, q + 1))
    ensures AllNoBreak(SplitFrom(s, p, q))
  {
  }

  lemma CutStepNoBreak(s: string, p: nat, q: nat, e: nat)
    requires p <= q < |s| && MatchEnd(s, q) == Some(e) && e != p
    requires NoBreak(s[p..q])
    requires AllNoBreak(SplitFrom(s, e, e))
    ensures AllNoBreak(SplitFrom(s, p, q))
  {
    var rest := SplitFrom(s, e, e);
    assert SplitFrom(s, p, q) == [s[p..q]] + rest;
  }

  lemma PieceNoBreak(s: string, p: nat, q: nat)
    requires p <= q <= |s| && Unbroken(s, p, q)
    ensures NoBreak(s[p..q])
  {
    var t := s[p..q];
    forall i | 0 < i < |t|
      ensures !IsBreak(t, i)
    {
      assert MatchEnd(s, p + i).None?;
      assert t[i - 1] == s[p + i - 1] && t[i] == s[p + i];
    }
  }

  /** A window of a string without breaks has none either. */
  lemma NoBreakSlice(t: string, a: nat, b: nat)
    requires a <= b <= |t| && NoBreak(t)
    ensures NoBreak(t[a..b])
  {
    var u := t[a..b];
    forall i | 0 < i < |u|
      ensures !IsBreak(u, i)
    {
      assert !IsBreak(t, a + i);
      assert u[i - 1] == t[a + i - 1] && u[i] == t[a + i];
    }
  }

  lemma {:induction false} TrimNonEmptyNoBreak(ps: seq<string>)
    requires AllNoBreak(ps)
    ensures AllNoBreak(TrimNonEmpty(ps))
    decreases |ps|
  {
    if |ps| > 0 {
      var t := Trim(ps[0]);
      NoBreakSlice(ps[0], SpaceLen(ps[0]), SpaceLen(ps[0]) + |t|);
      TrimNonEmptyNoBreak(ps[1..]);
    }
  }

  /** Each sentence is maximal: it holds no line feed at all, and no sentence mark
      followed by whitespace. */
  lemma SentencesHaveNoBreak(text: string)
    ensures forall k :: 0 <= k < |SplitSentences(text)| ==> NoBreak(SplitSentences(text)[k])
    ensures forall k, i :: 0 <= k < |SplitSentences(text)| && 0 <= i < |SplitSentences(text)[k]| ==>
              SplitSentences(text)[k][i] != '\n'
  {
    SplitFromNoBreak(text, 0, 0);
    TrimNonEmptyNoBreak(Pieces(text));
    var ss := SplitSentences(text);
    SpaceAndNewlineAreSpace();
    forall k, i | 0 <= k < |ss| && 0 <= i < |ss[k]|
      ensures ss[k][i] != '\n'
    {
      if i == |ss[k]| - 1 {
        assert IsTrimmed(ss[k]);
      } else {
        assert !IsBreak(ss[k], i + 1);
      }
    }
  }

  /** Positions where no match ends a piece do not change the pieces. */
  lemma {:induction false} SkipUnbroken(s: string, p: nat, q: nat, q2: nat)
    requires p <= q <= q2 <= |s|
    requires forall i :: q <= i < q2 ==> MatchEnd(s, i).None? || MatchEnd(s, i).value == p
    ensures SplitFrom(s, p, q) == SplitFrom(s, p, q2)
    decreases q2 - q
  {
    if q < q2 {
      SkipUnbroken(s, p, q + 1, q2);
    }
  }

  /** A match tried at position `n + q` of `s`, where `t` is the text after `n` and
      no sentence mark ends the text before `n`, is the match tried at `q` in `t`. */
  lemma MatchEndShift(s: string, t: string, n: nat, q: nat)
    requires n <= |s| && s[n..] == t && q < |t|
    requires n == 0 || !Transcript.IsMark(s[n - 1])
    ensures q == 0 ==> MatchEnd(s, n).None? || MatchEnd(s, n).value == n
    ensures q > 0 && MatchEnd(t, q).None? ==> MatchEnd(s, n + q).None?
    ensures q > 0 && MatchEnd(t, q).Some? ==> MatchEnd(s, n + q) == Some(n + MatchEnd(t, q).value)
  {
    if q > 0 {
      assert s[n + q - 1] == t[q - 1] && s[n + q] == t[q];
      assert s[n + q..] == t[q..];
    }
  }

  /** A match found in `t` is found, shifted, in `s`. */
  lemma MatchEndAt(s: string, t: string, n: nat, q: nat, e: nat)
    requires n <= |s| && s[n..] == t && q < |t|
    requires n == 0 || !Transcript.IsMark(s[n - 1])
    requires MatchEnd(t, q) == Some(e) && e != 0
    ensures MatchEnd(s, n + q) == Some(n + e)
  {
    MatchEndShift(s, t, n, q);
  }

  /** A position skipped in `t` is skipped, shifted, in `s`. */
  lemma MatchSkipAt(s: string, t: string, n: nat, p: nat, q: nat)
    requires n <= |s| && s[n..] == t && p <= q < |t|
    requires n == 0 || !Transcript.IsMark(s[n - 1])
    requires MatchEnd(t, q).None? || MatchEnd(t, q).value == p
    ensures MatchEnd(s, n + q).None? || MatchEnd(s, n + q).value == n + p
  {
    MatchEndShift(s, t, n, q);
  }

  /** After a position `n` where no sentence mark ends the text before, the text is
      split as if it began there. */
  lemma {:induction false} SplitShift(s: string, t: string, n: nat, p: nat, q: nat)
    requires n <= |s| && s[n..] == t && p <= q <= |t|
    requires n == 0 || !Transcript.IsMark(s[n - 1])
    ensures SplitFrom(s, n + p, n + q) == SplitFrom(t, p, q)
    decreases |t| - q, q - p, 1
  {
    if q == |t| {
      LastPiece(s, n + p);
      LastPiece(t, p);
      assert s[n + p..] == t[p..];
    } else if MatchEnd(t, q).None? || MatchEnd(t, q).value == p {
      ShiftSkip(s, t, n, p, q);
    } else {
      ShiftCut(s, t, n, p, q);
    }
  }

  lemma {:induction false} ShiftSkip(s: string, t: string, n: nat, p: nat, q: nat)
    requires n <= |s| && s[n..] == t && p <= q < |t|
    requires n == 0 || !Transcript.IsMark(s[n - 1])
    requires MatchEnd(t, q).None? || MatchEnd(t, q).value == p
    ensures SplitFrom(s, n + p, n + q) == SplitFrom(t, p, q)
    decreases |t| - q, q - p, 0
  {
    SplitShift(s, t, n, p, q + 1);
    SkipAt(t, p, q);
    MatchSkipAt(s, t, n, p, q);
    SkipAt(s, n + p, n + q);
  }

  lemma {:induction false} ShiftCut(s: string, t: string, n: nat, p: nat, q: nat)
    requires n <= |s| && s[n..] == t && p <= q < |t|
    requires n == 0 || !Transcript.IsMark(s[n - 1])
    requires MatchEnd(t, q).Some? && MatchEnd(t, q).value != p
    ensures SplitFrom(s, n + p, n + q) == SplitFrom(t, p, q)
    decreases |t| - q, q - p, 0
  {
    var e := MatchEnd(t, q).value;
    SplitShift(s, t, n, e, e);
    ShiftCutStep(s, t, n, p, q, e);
  }

  lemma ShiftCutStep(s: string, t: string, n: nat, p: nat, q: nat, e: nat)
    requires n <= |s| && s[n..] == t && p <= q < |t|
    requires n == 0 || !Transcript.IsMark(s[n - 1])
    requires MatchEnd(t, q) == Some(e) && e != p
    requires SplitFrom(s, n + e, n + e) == SplitFrom(t, e, e)
    ensures SplitFrom(s, n + p, n + q) == SplitFrom(t, p, q)
  {
    MatchEndAt(s, t, n, q, e);
    ShiftedCut(s, t, n, p, q, e);
    CutAt(t, p, q, e);
    ConsCongruence(SplitFrom(s, n + p, n + q), SplitFrom(t, p, q), t[p..q],
                   SplitFrom(s, n + e, n + e), SplitFrom(t, e, e));
  }

  /** The piece cut at a match found in `t` is the same piece, cut in `s`. */
  lemma ShiftedCut(s: string, t: string, n: nat, p: nat, q: nat, e: nat)
    requires n <= |s| && s[n..] == t && p <= q < |t|
    requires MatchEnd(s, n + q) == Some(n + e) && e != p
    ensures SplitFrom(s, n + p, n + q) == [t[p..q]] + SplitFrom(s, n + e, n + e)
  {
    SliceShift(s, t, n, p, q);
    CutAt(s, n + p, n + q, n + e);
  }

  lemma ConsCongruence<T>(a: seq<T>, b: seq<T>, x: T, c: seq<T>, d: seq<T>)
    requires a == [x] + c && b == [x] + d && c == d
    ensures a == b
  {
  }

  lemma SliceShift(s: string, t: string, n: nat, p: nat, q: nat)
    requires n <= |s| && s[n..] == t && p <= q <= |t|
    ensures s[n + p..n + q] == t[p..q]
  {
    assert forall i :: 0 <= i < q - p ==> s[n + p..n + q][i] == s[n + p + i] == t[p + i] == t[p..q][i];
  }

  /** The last piece runs to the end of the text. */
  lemma LastPiece(s: string, p: nat)
    requires p <= |s|
    ensures SplitFrom(s, p, |s|) == [s[p..]]
  {
  }

  /** A position where no match ends the piece is passed over. */
  lemma SkipAt(s: string, p: nat, q: nat)
    requires p <= q < |s| && (MatchEnd(s, q).None? || MatchEnd(s, q).value == p)
    ensures SplitFrom(s, p, q) == SplitFrom(s, p, q + 1)
  {
  }

  /** A piece ends where a match is found. */
  lemma CutAt(s: string, p: nat, q: nat, e: nat)
    requires p <= q < |s| && MatchEnd(s, q) == Some(e) && e != p
    ensures SplitFrom(s, p, q) == [s[p..q]] + SplitFrom(s, e, e)
  {
  }

  /** Trimming and dropping empty pieces keeps a leading piece that holds a word. */
  lemma TrimNonEmptyCons(x: string, a: string, ps: seq<string>)
    requires Trim(x) == a && a != ""
    ensures TrimNonEmpty([x] + ps) == [a] + TrimNonEmpty(ps)
  {
    assert ([x] + ps)[1..] == ps;
  }

  /** A text without a sentence break is a single sentence, its trimmed self, when it
      holds a word, and no sentence otherwise. */
  lemma SplitUnbroken(text: string)
    requires NoBreak(text)
    ensures SplitSentences(text) == if Trim(text) == "" then [] else [Trim(text)]
  {
    UnbrokenPrefix(text, "");
    assert text + "" == text;
    SkipUnbroken(text, 0, 0, |text|);
    assert SplitFrom(text, 0, |text|) == [text[0..]];
    assert text[0..] == text;
    assert Pieces(text) == [text];
    assert [text][1..] == [];
    assert TrimNonEmpty([]) == [];
  }

  /** A sentence that ends in a sentence mark, followed by whitespace, is cut off from
      the rest of the text, which is split on its own. */
  lemma SplitAfterMark(a: string, sep: string, rest: string)
    requires a != "" && IsTrimmed(a) && NoBreak(a) && Transcript.IsMark(a[|a| - 1])
    requires sep != "" && forall i :: 0 <= i < |sep| ==> IsSpace(sep[i])
    requires rest == "" || !IsSpace(rest[0])
    ensures SplitSentences(a + sep + rest) == [a] + SplitSentences(rest)
  {
    PiecesAfterMark(a, sep, rest);
    TrimNonEmptyCons(a, a, Pieces(rest));
  }

  lemma PiecesAfterMark(a: string, sep: string, rest: string)
    requires a != "" && NoBreak(a) && Transcript.IsMark(a[|a| - 1])
    requires sep != "" && forall i :: 0 <= i < |sep| ==> IsSpace(sep[i])
    requires rest == "" || !IsSpace(rest[0])
    ensures Pieces(a + sep + rest) == [a] + Pieces(rest)
  {
    var s := a + sep + rest;
    assert s == a + (sep + rest);
    UnbrokenPrefix(a, sep + rest);
    MarkMatch(a, sep, rest);
    assert IsSpace(s[|a| + |sep| - 1]) by {
      assert s[|a| + |sep| - 1] == sep[|sep| - 1];
    }
    PiecesCutAt(s, |a|, |a| + |sep|);
    assert s[..|a|] == a;
    assert s[|a| + |sep|..] == rest;
  }

  /** When the first match of a text is found at `k` and ends at `e`, the first piece
      is the text before `k`, and the others are the pieces of the text after `e`. */
  lemma PiecesCutAt(s: string, k: nat, e: nat)
    requires 0 < k <= e <= |s| && k < |s|
    requires forall i :: 0 <= i < k ==> MatchEnd(s, i).None?
    requires MatchEnd(s, k) == Some(e)
    requires IsSpace(s[e - 1])
    ensures Pieces(s) == [s[..k]] + Pieces(s[e..])
  {
    assert Pieces(s) == [s[0..k]] + SplitFrom(s, e, e) by {
      SkipUnbroken(s, 0, 0, k);
      CutAt(s, 0, k, e);
    }
    assert SplitFrom(s, e, e) == Pieces(s[e..]) by {
      assert !Transcript.IsMark(s[e - 1]);
      SplitShift(s, s[e..], e, 0, 0);
    }
    assert s[0..k] == s[..k];
  }

  /** The separator after a sentence mark spans the whole whitespace run. */
  lemma MarkMatch(a: string, sep: string, rest: string)
    requires a != "" && Transcript.IsMark(a[|a| - 1])
    requires sep != "" && forall i :: 0 <= i < |sep| ==> IsSpace(sep[i])
    requires rest == "" || !IsSpace(rest[0])
    ensures MatchEnd(a + sep + rest, |a|) == Some(|a| + |sep|)
  {
    var s := a + sep + rest;
    assert s[|a|..] == sep + rest;
    assert s[|a| - 1] == a[|a| - 1] && s[|a|] == sep[0];
    SpaceLenIs(sep + rest, |sep|);
  }

  /** A sentence that does not end in a sentence mark, followed by a line feed, is cut
      off from the rest of the text, which is split on its own. */
  lemma SplitAfterLineFeed(a: string, rest: string)
    requires a != "" && IsTrimmed(a) && NoBreak(a) && !Transcript.IsMark(a[|a| - 1])
    ensures SplitSentences(a + "\n" + rest) == [a] + SplitSentences(rest)
  {
    SpaceAndNewlineAreSpace();
    TrimAround("", a, "\n");
    assert "" + a + "\n" == a + "\n";
    if rest == "" {
      assert a + "\n" + rest == a + "\n";
      PiecesEndLineFeed(a);
      assert [a + "\n"][1..] == [];
      assert SplitSentences(rest) == [] by {
        assert Pieces(rest) == [""];
        assert [""][1..] == [];
      }
    } else {
      PiecesAfterLineFeed(a, rest);
      TrimNonEmptyCons(a + "\n", a, Pieces(rest));
    }
  }

  lemma PiecesEndLineFeed(a: string)
    requires a != "" && IsTrimmed(a) && NoBreak(a) && !Transcript.IsMark(a[|a| - 1])
    ensures Pieces(a + "\n") == [a + "\n"]
  {
    var s := a + "\n";
    SpaceAndNewlineAreSpace();
    assert s[|a| - 1] == a[|a| - 1];
    UnbrokenPrefix(a, "\n");
    assert MatchEnd(s, |a|).None?;
    SkipUnbroken(s, 0, 0, |s|);
    LastPiece(s, 0);
    assert s[0..] == s;
  }

  lemma PiecesAfterLineFeed(a: string, rest: string)
    requires a != "" && IsTrimmed(a) && NoBreak(a) && !Transcript.IsMark(a[|a| - 1]) && rest != ""
    ensures Pieces(a + "\n" + rest) == [a + "\n"] + Pieces(rest)
  {
    var pre := a + "\n";
    var s := pre + rest;
    assert s == a + ("\n" + rest);
    SpaceAndNewlineAreSpace();
    assert s[|a| - 1] == a[|a| - 1];
    UnbrokenPrefix(a, "\n" + rest);
    assert MatchEnd(s, |a|).None?;
    assert forall i :: 0 <= i < |pre| ==> MatchEnd(s, i).None?;
    assert MatchEnd(s, |pre|) == Some(|pre|);
    PiecesCutAt(s, |pre|, |pre|);
    assert s[..|pre|] == pre;
    assert s[|pre|..] == rest;
  }

  /** No match is found inside a sentence without a break placed at the start of a text. */
  lemma UnbrokenPrefix(a: string, tail: string)
    requires NoBreak(a)
    ensures forall i :: 0 <= i < |a| ==> MatchEnd(a + tail, i).None?
  {
    var s := a + tail;
    forall i | 0 <= i < |a|
      ensures MatchEnd(s, i).None?
    {
      if i > 0 {
        assert s[i - 1] == a[i - 1] && s[i] == a[i];
        assert !IsBreak(a, i);
      }
    }
  }

  /** `splitSentences("Hi there. Bye")` gives the two sentences. */
  lemma SplitExample()
    ensures SplitSentences("Hi there. Bye") == ["Hi there.", "Bye"]
  {
    var a, b := "Hi there.", "Bye";
    assert NoBreak(a) by {
      forall i | 0 < i < |a|
        ensures !IsBreak(a, i)
      {
        assert a[i - 1] != '\n';
        if i - 1 == 8 {
          assert false;
        } else {
          assert !Transcript.IsMark(a[i - 1]);
        }
      }
    }
    assert NoBreak(b);
    assert IsTrimmed(a) && IsTrimmed(b);
    SplitAfterMark(a, " ", b);
    assert a + " " + b == "Hi there. Bye";
    SplitUnbroken(b);
  }

  // ---------------------------------------------------------------------------
  // computeWordFrequency
  // ---------------------------------------------------------------------------

  /** The Arabic and English function words left out of the frequency table. */
  const StopWords: seq<string> := [
    "في", "من", "إلى", "على", "عن", "مع", "هذا", "هذه", "التي", "الذي", "كان", "كانت",
    "هو", "هي", "هم", "نحن", "أنت", "أنا", "لا", "ما", "هل", "إن", "أن", "كما", "أو",
    "وكذلك", "ولكن", "لأن", "حتى", "قد", "لقد", "كل", "جدا", "فقط", "أيضا", "ثم",
    "لم", "لن", "ليس", "عند", "بعد", "قبل", "عندما", "إذا", "كيف", "لماذا", "ماذا",
    "يمكن", "يجب", "ذلك", "تلك", "الان", "اليوم", "وأن", "وهو", "وهي", "وهم", "وقد",
    "the", "a", "an", "is", "are", "was", "were", "be", "been", "being",
    "have", "has", "had", "do", "does", "did", "will", "would", "could", "should",
    "may", "might", "shall", "must", "can", "to", "of", "in", "on", "at", "by",
    "for", "with", "about", "as", "this", "that", "these", "those", "it", "its",
    "and", "or", "but", "not", "so", "if", "then", "than", "when", "where",
    "how", "what", "which", "who", "just", "also", "very", "more", "some",
    "we", "they", "he", "she", "you", "i", "my", "our", "your", "their", "his", "her"
  ]

  /** `stopWords.has(w)` */
  predicate IsStopWord(w: string) {
    StopFrom(w, 0)
  }

  /** `w` is one of the stop words from position `k` on. */
  predicate StopFrom(w: string, k: nat)
    decreases |StopWords| - k
  {
    k < |StopWords| && (StopWords[k] == w || StopFrom(w, k + 1))
  }

  /** `toLowerCase` on one character, for the ASCII letters. */
  function LowerChar(c: char): char {
    if 'A' <= c <= 'Z' then (c as int + 32) as char else c
  }

  /** `toUpperCase` on one character, for the ASCII letters. */
  function UpperChar(c: char): char {
    if 'a' <= c <= 'z' then (c as int - 32) as char else c
  }

  /** A character `/[^\u0600-\u06FFa-z0-9\s]/g` leaves in place. */
  predicate IsTermChar(c: char) {
    '\U{0600}' <= c <= '\U{06FF}' || 'a' <= c <= 'z' || IsDigit(c)
  }

  /** `text.toLowerCase().replace(/[^\u0600-\u06FFa-z0-9\s]/g, ' ')`: every character
      is lower-cased, then kept if it is Arabic, a lower-case letter, a digit or
      whitespace, and replaced by a space otherwise. */
  function Normalize(s: string): (r: string)
    ensures |r| == |s|
    ensures forall i :: 0 <= i < |r| ==> IsTermChar(r[i]) || IsSpace(r[i])
    ensures forall i :: 0 <= i < |r| && IsTermChar(LowerChar(s[i])) ==> r[i] == LowerChar(s[i])
  {
    seq(|s|, i requires 0 <= i < |s| =>
      var c := LowerChar(s[i]);
      if IsTermChar(c) || IsSpace(c) then c else ' ')
  }

  /** `filter(w => w.length > 3)` */
  function LongWords(ws: seq<string>): (r: seq<string>)
    ensures |r| <= |ws|
    ensures forall i :: 0 <= i < |r| ==> |r[i]| > 3
  {
    if |ws| == 0 then []
    else
      var rest := LongWords(ws[1..]);
      if |ws[0]| > 3 then [ws[0]] + rest else rest
  }

  /** `filter(w => !stopWords.has(w))` */
  function NonStopWords(ws: seq<string>): (r: seq<string>)
    ensures |r| <= |ws|
    ensures forall i :: 0 <= i < |r| ==> !IsStopWord(r[i])
  {
    if |ws| == 0 then []
    else
      var rest := NonStopWords(ws[1..]);
      if !IsStopWord(ws[0]) then [ws[0]] + rest else rest
  }

  /** `LongWords` keeps every occurrence of a word longer than three characters and
      drops every occurrence of a shorter one. */
  lemma {:induction false} LongWordsFilter(ws: seq<string>)
    ensures forall x :: multiset(LongWords(ws))[x] == if |x| > 3 then multiset(ws)[x] else 0
    decreases |ws|
  {
    if |ws| > 0 {
      var w := ws[0];
      var rest := LongWords(ws[1..]);
      assert ws == [w] + ws[1..];
      LongWordsFilter(ws[1..]);
      forall x
        ensures multiset(LongWords(ws))[x] == if |x| > 3 then multiset(ws)[x] else 0
      {
        assert multiset(ws)[x] == multiset([w])[x] + multiset(ws[1..])[x];
        if |w| > 3 {
          assert multiset([w] + rest)[x] == multiset([w])[x] + multiset(rest)[x];
        }
      }
    }
  }

  /** `NonStopWords` keeps every occurrence of a word that is not a stop word and
      drops every occurrence of a stop word. */
  lemma {:induction false} NonStopWordsFilter(ws: seq<string>)
    ensures forall x :: multiset(NonStopWords(ws))[x] == if !IsStopWord(x) then multiset(ws)[x] else 0
    decreases |ws|
  {
    if |ws| > 0 {
      var w := ws[0];
      var rest := NonStopWords(ws[1..]);
      assert ws == [w] + ws[1..];
      NonStopWordsFilter(ws[1..]);
      forall x
        ensures multiset(NonStopWords(ws))[x] == if !IsStopWord(x) then multiset(ws)[x] else 0
      {
        assert multiset(ws)[x] == multiset([w])[x] + multiset(ws[1..])[x];
        if !IsStopWord(w) {
          assert multiset([w] + rest)[x] == multiset([w])[x] + multiset(rest)[x];
        }
      }
    }
  }

  /** The words `computeWordFrequency` counts: the two conditions of its filter are
      applied one after the other, which keeps the same words in the same order. */
  function Terms(text: string): seq<string> {
    NonStopWords(LongWords(Words(Normalize(text))))
  }

  /** The terms are the words of the normalized text that are longer than three
      characters and not stop words, each as often as it occurs there. */
  lemma TermsFilter(text: string)
    ensures forall x :: multiset(Terms(text))[x] ==
              if |x| > 3 && !IsStopWord(x) then multiset(Words(Normalize(text)))[x] else 0
  {
    var ws := Words(Normalize(text));
    LongWordsFilter(ws);
    NonStopWordsFilter(LongWords(ws));
  }

  /** A term consists of Arabic letters, lower-case ASCII letters and digits. */
  lemma TermsAreLowerCase(text: string)
    ensures var ts := Terms(text);
      forall k :: 0 <= k < |ts| ==>
        |ts[k]| > 3 && !IsStopWord(ts[k]) && forall i :: 0 <= i < |ts[k]| ==> IsTermChar(ts[k][i])
  {
    var ts := Terms(text);
    forall k | 0 <= k < |ts|
      ensures |ts[k]| > 3 && forall i :: 0 <= i < |ts[k]| ==> IsTermChar(ts[k][i])
    {
      TermIsWord(text, k);
      WordCharsOf(Normalize(text), ts[k]);
    }
  }

  /** Each term is a word of the normalized text longer than three characters. */
  lemma TermIsWord(text: string, k: nat)
    requires k < |Terms(text)|
    ensures Terms(text)[k] in Words(Normalize(text)) && |Terms(text)[k]| > 3
  {
    var ws := Words(Normalize(text));
    var lw := LongWords(ws);
    NonStopWordsFrom(lw, k);
    var j :| 0 <= j < |lw| && lw[j] == Terms(text)[k];
    LongWordsFrom(ws, j);
  }

  /** Every word `LongWords` keeps comes from its input. */
  lemma {:induction false} LongWordsFrom(ws: seq<string>, i: nat)
    requires i < |LongWords(ws)|
    ensures exists j :: 0 <= j < |ws| && ws[j] == LongWords(ws)[i]
    decreases |ws|
  {
    var rest := LongWords(ws[1..]);
    if |ws[0]| > 3 {
      if i > 0 {
        assert LongWords(ws)[i] == rest[i - 1];
        LongWordsFrom(ws[1..], i - 1);
      }
    } else {
      LongWordsFrom(ws[1..], i);
    }
  }

  /** Every word `NonStopWords` keeps comes from its input. */
  lemma {:induction false} NonStopWordsFrom(ws: seq<string>, i: nat)
    requires i < |NonStopWords(ws)|
    ensures exists j :: 0 <= j < |ws| && ws[j] == NonStopWords(ws)[i]
    decreases |ws|
  {
    var rest := NonStopWords(ws[1..]);
    if !IsStopWord(ws[0]) {
      if i > 0 {
        assert NonStopWords(ws)[i] == rest[i - 1];
        NonStopWordsFrom(ws[1..], i - 1);
      }
    } else {
      NonStopWordsFrom(ws[1..], i);
    }
  }

  /** Every character of a word of `s` is a non-whitespace character of `s`. */
  lemma {:induction false} WordCharsOf(s: string, w: string)
    requires w in Words(s)
    requires forall i :: 0 <= i < |s| ==> IsTermChar(s[i]) || IsSpace(s[i])
    ensures forall i :: 0 <= i < |w| ==> IsTermChar(w[i])
    decreases |s|
  {
    if IsSpace(s[0]) {
      WordCharsOf(s[1..], w);
    } else {
      var n := WordLen(s);
      if w != s[..n] {
        WordCharsOf(s[n..], w);
      }
    }
  }

  /** One entry of the frequency `Map`. */
  datatype Entry = Entry(word: string, count: nat)

  /** A `Map<string, number>` as its entries in insertion order. */
  type Table = seq<Entry>

  /** `freq.get(w) ?? 0` */
  function Count(t: Table, w: string): nat {
    if |t| == 0 then 0 else if t[0].word == w then t[0].count else Count(t[1..], w)
  }

  /** The keys of a `Map` are distinct. */
  predicate DistinctKeys(t: Table) {
    |t| == 0 || (t[0].word !in Keys(t[1..]) && DistinctKeys(t[1..]))
  }

  /** The set of keys. */
  function Keys(t: Table): set<string> {
    if |t| == 0 then {} else {t[0].word} + Keys(t[1..])
  }

  /** The sum of all counts. */
  function Total(t: Table): nat {
    if |t| == 0 then 0 else t[0].count + Total(t[1..])
  }

  /** The position of the first occurrence of `w` in `ws`, or `|ws|` when it does not occur. */
  function FirstIndex(ws: seq<string>, w: string): (n: nat)
    ensures n <= |ws|
    ensures n < |ws| <==> w in ws
    ensures n < |ws| ==> ws[n] == w
  {
    if |ws| == 0 then 0 else if ws[0] == w then 0 else 1 + FirstIndex(ws[1..], w)
  }

  /** The keys of `t` come in the order in which they first occur in `ws`, as the
      insertion order of a `Map` filled from `ws`. */
  predicate InFirstOccurrenceOrder(t: Table, ws: seq<string>) {
    forall i, j :: 0 <= i < j < |t| ==> FirstIndex(ws, t[i].word) < FirstIndex(ws, t[j].word)
  }

  /** `freq.set(w, (freq.get(w) ?? 0) + 1)`: the entry of `w` is incremented in place,
      or a new entry with count 1 is appended. */
  function Bump(t: Table, w: string): (r: Table)
    ensures forall x :: Count(r, x) == Count(t, x) + (if x == w then 1 else 0)
    ensures Keys(r) == Keys(t) + {w}
    ensures Total(r) == Total(t) + 1
    ensures DistinctKeys(t) ==> DistinctKeys(r)
    ensures (forall i :: 0 <= i < |t| ==> t[i].count > 0) ==> forall i :: 0 <= i < |r| ==> r[i].count > 0
    ensures w in Keys(t) ==> |r| == |t| && forall i :: 0 <= i < |t| ==> r[i].word == t[i].word
    ensures w !in Keys(t) ==> r == t + [Entry(w, 1)]
  {
    if |t| == 0 then [Entry(w, 1)]
    else if t[0].word == w then [Entry(w, t[0].count + 1)] + t[1..]
    else
      var rest := Bump(t[1..], w);
      var r := [t[0]] + rest;
      assert r[1..] == rest;
      assert w !in Keys(t) ==> r == t + [Entry(w, 1)] by {
        if w !in Keys(t) {
          assert t == [t[0]] + t[1..];
        }
      }
      r
  }

  /** The table the `for` loop of `computeWordFrequency` builds from `ws`: one entry
      per distinct word, in the order of first occurrence, holding its number of
      occurrences. */
  function Tally(ws: seq<string>): (r: Table)
    ensures forall x :: Count(r, x) == multiset(ws)[x]
    ensures Total(r) == |ws|
    ensures DistinctKeys(r)
    ensures forall i :: 0 <= i < |r| ==> r[i].count > 0
    ensures forall x :: x in Keys(r) <==> x in ws
    ensures InFirstOccurrenceOrder(r, ws)
  {
    if |ws| == 0 then []
    else
      var init := ws[..|ws| - 1];
      assert ws == init + [ws[|ws| - 1]];
      var t := Tally(init);
      BumpKeepsOrder(t, init, ws[|ws| - 1]);
      Bump(t, ws[|ws| - 1])
  }

  /** Counting one more word keeps the keys in first-occurrence order. */
  lemma BumpKeepsOrder(t: Table, init: seq<string>, w: string)
    requires forall x :: x in Keys(t) <==> x in init
    requires InFirstOccurrenceOrder(t, init)
    ensures InFirstOccurrenceOrder(Bump(t, w), init + [w])
  {
    forall k | 0 <= k < |t|
      ensures FirstIndex(init + [w], t[k].word) == FirstIndex(init, t[k].word) < |init|
    {
      KeyOf(t, k);
      FirstIndexExtend(init, w, t[k].word);
    }
    if w in Keys(t) {
      BumpOldKey(t, init, w);
    } else {
      FirstIndexExtend(init, w, w);
      BumpNewKey(t, init, w);
    }
  }

  lemma BumpOldKey(t: Table, init: seq<string>, w: string)
    requires w in Keys(t) && InFirstOccurrenceOrder(t, init)
    requires forall k :: 0 <= k < |t| ==> FirstIndex(init + [w], t[k].word) == FirstIndex(init, t[k].word)
    ensures InFirstOccurrenceOrder(Bump(t, w), init + [w])
  {
    var r := Bump(t, w);
    assert forall k :: 0 <= k < |r| ==> r[k].word == t[k].word;
  }

  lemma BumpNewKey(t: Table, init: seq<string>, w: string)
    requires w !in Keys(t) && InFirstOccurrenceOrder(t, init)
    requires forall k :: 0 <= k < |t| ==> FirstIndex(init + [w], t[k].word) == FirstIndex(init, t[k].word) < |init|
    requires FirstIndex(init + [w], w) == |init|
    ensures InFirstOccurrenceOrder(Bump(t, w), init + [w])
  {
    var r := Bump(t, w);
    assert r == t + [Entry(w, 1)];
    assert forall k :: 0 <= k < |t| ==> r[k] == t[k];
  }

  /** Appending a word does not move the first occurrence of a word already present,
      and puts that of a new word at the end. */
  lemma {:induction false} FirstIndexExtend(init: seq<string>, w: string, x: string)
    ensures x in init ==> FirstIndex(init + [w], x) == FirstIndex(init, x)
    ensures x !in init && x == w ==> FirstIndex(init + [w], x) == |init|
    decreases |init|
  {
    if |init| > 0 {
      assert (init + [w])[1..] == init[1..] + [w];
      FirstIndexExtend(init[1..], w, x);
    }
  }

  /** `computeWordFrequency(text)`: each term of the text is counted as many times as
      it occurs, every entry has a positive count, the counts add up to the number of
      terms, and the entries come in the order in which their terms first occur. */
  function WordFrequency(text: string): (r: Table)
    ensures forall w :: Count(r, w) == multiset(Terms(text))[w]
    ensures forall i :: 0 <= i < |r| ==> r[i].count > 0
    ensures Total(r) == |Terms(text)|
    ensures DistinctKeys(r)
    ensures forall w :: w in Keys(r) <==> w in Terms(text)
    ensures InFirstOccurrenceOrder(r, Terms(text))
  {
    Tally(Terms(text))
  }

  /** In a table with distinct keys, an entry holds the count of its key. */
  lemma {:induction false} CountOfEntry(t: Table, i: nat)
    requires DistinctKeys(t) && i < |t|
    ensures Count(t, t[i].word) == t[i].count
  {
    if i > 0 {
      KeyOf(t[1..], i - 1);
      CountOfEntry(t[1..], i - 1);
    }
  }

  lemma {:induction false} KeyOf(t: Table, i: nat)
    requires i < |t|
    ensures t[i].word in Keys(t)
  {
    if i > 0 {
      KeyOf(t[1..], i - 1);
    }
  }

  // ---------------------------------------------------------------------------
  // scoreSentence
  // ---------------------------------------------------------------------------

  /** The words `scoreSentence` looks up: those longer than three characters, stop
      words included. */
  function SentenceTerms(sentence: string): seq<string> {
    LongWords(Words(Normalize(sentence)))
  }

  /** `words.reduce((sum, w) => sum + (wordFreq.get(w) ?? 0), 0)` */
  function CountSum(t: Table, ws: seq<string>): (r: nat)
    ensures r == 0 <==> forall i :: 0 <= i < |ws| ==> Count(t, ws[i]) == 0
  {
    if |ws| == 0 then 0 else Count(t, ws[0]) + CountSum(t, ws[1..])
  }

  /** The mean table count of the words `ws`, 0 for no words. */
  function MeanCount(t: Table, ws: seq<string>): (m: real)
    ensures m >= 0.0
    ensures m == 0.0 <==> forall i :: 0 <= i < |ws| ==> Count(t, ws[i]) == 0
  {
    if |ws| == 0 then 0.0 else (CountSum(t, ws) as real) / (|ws| as real)
  }

  /** 1.3 for the first and the last sentence, 1.15 for the rest of the first fifth. */
  function PositionBonus(index: nat, total: nat): (b: real)
    ensures 1.0 <= b <= 1.3
  {
    if index == 0 || index == total - 1 then 1.3
    else if (index as real) < (total as real) * 0.2 then 1.15
    else 1.0
  }

  /** 0.7 below 50 characters, 0.85 above 300. */
  function LengthPenalty(length: nat): (p: real)
    ensures 0.7 <= p <= 1.0
  {
    if length < 50 then 0.7 else if length > 300 then 0.85 else 1.0
  }

  /** `scoreSentence(sentence, wordFreq, index, total)`: the mean table count of the
      sentence's terms, raised by at most 30% for its position and lowered by at most
      30% for its length. It is zero exactly when none of its terms is in the table. */
  function ScoreSentence(sentence: string, t: Table, index: nat, total: nat): (r: real)
    ensures 0.7 * MeanCount(t, SentenceTerms(sentence)) <= r <= 1.3 * MeanCount(t, SentenceTerms(sentence))
    ensures r == 0.0 <==> forall i :: 0 <= i < |SentenceTerms(sentence)| ==> Count(t, SentenceTerms(sentence)[i]) == 0
  {
    var ws := SentenceTerms(sentence);
    if |ws| == 0 then 0.0
    else
      Scale(MeanCount(t, ws), PositionBonus(index, total), LengthPenalty(|sentence|))
  }

  /** `m * b * p` for a bonus `b` and a penalty `p`: it stays within 30% of `m`. */
  function Scale(m: real, b: real, p: real): (r: real)
    requires m >= 0.0 && 1.0 <= b <= 1.3 && 0.7 <= p <= 1.0
    ensures 0.7 * m <= r
    ensures r <= 1.3 * m
  {
    ScaleBounds(m, b, p);
    m * b * p
  }

  lemma ScaleBounds(m: real, b: real, p: real)
    requires m >= 0.0 && 1.0 <= b <= 1.3 && 0.7 <= p <= 1.0
    ensures 0.7 * m <= m * b * p
    ensures m * b * p <= 1.3 * m
  {
    assert m * b >= m;
    assert m * b * p >= m * p;
    assert m * p >= 0.7 * m;
    assert m * b <= 1.3 * m;
    assert m * b * p <= m * b;
  }

  /** A larger bonus never lowers the scaled score. */
  lemma ScaleMonotone(m: real, b1: real, b2: real, p: real)
    requires m >= 0.0 && 1.0 <= b1 <= b2 <= 1.3 && 0.7 <= p <= 1.0
    ensures Scale(m, b1, p) <= Scale(m, b2, p)
  {
    assert m * b1 <= m * b2;
    assert (m * b2 - m * b1) * p >= 0.0;
    assert m * b2 * p - m * b1 * p == (m * b2 - m * b1) * p;
  }

  /** The same sentence scores highest in the first or last place: no other place of
      the same text raises its score above those. */
  lemma EndsScoreHighest(sentence: string, t: Table, index: nat, total: nat)
    requires index < total
    ensures ScoreSentence(sentence, t, index, total) <= ScoreSentence(sentence, t, 0, total)
    ensures ScoreSentence(sentence, t, index, total) <= ScoreSentence(sentence, t, total - 1, total)
  {
    var ws := SentenceTerms(sentence);
    if |ws| > 0 {
      var m := MeanCount(t, ws);
      var p := LengthPenalty(|sentence|);
      var b := PositionBonus(index, total);
      ScaleMonotone(m, b, PositionBonus(0, total), p);
      ScaleMonotone(m, b, PositionBonus(total - 1, total), p);
    }
  }

  // ---------------------------------------------------------------------------
  // formatKeyPoint and capitalize
  // ---------------------------------------------------------------------------

  /** `formatKeyPoint(sentence)`: a sentence over 150 characters is cut to 147 and
      given "..."; a sentence that does not end in a mark is given a '.'. The result
      always ends in a mark and has at most 151 characters. */
  function FormatKeyPoint(sentence: string): (r: string)
    ensures |r| <= 151 && |r| > 0 && Transcript.IsMark(r[|r| - 1])
    ensures |sentence| > 150 ==> r == sentence[..147] + "..."
    ensures |sentence| <= 150 ==> |sentence| <= |r| <= |sentence| + 1 && r[..|sentence|] == sentence
    ensures |sentence| <= 150 ==> (r == sentence <==> sentence != "" && Transcript.IsMark(sentence[|sentence| - 1]))
  {
    var cut := if |sentence| > 150 then sentence[..147] + "..." else sentence;
    if |cut| > 0 && Transcript.IsMark(cut[|cut| - 1]) then cut else cut + "."
  }

  /** Shaping a key point twice is shaping it once, except for a 150-character
      sentence that does not end in a mark. */
  lemma FormatKeyPointStable(sentence: string)
    requires |sentence| != 150 || Transcript.IsMark(sentence[149])
    ensures FormatKeyPoint(FormatKeyPoint(sentence)) == FormatKeyPoint(sentence)
  {
  }

  /** The exception: 150 letters gain a '.', and the 151 characters are then cut. */
  lemma FormatKeyPointNotIdempotent()
    ensures exists s :: FormatKeyPoint(FormatKeyPoint(s)) != FormatKeyPoint(s)
  {
    var s := seq(150, i => 'a');
    var once := FormatKeyPoint(s);
    assert once == s + ".";
    assert FormatKeyPoint(once) == once[..147] + "...";
    assert FormatKeyPoint(once)[147] == '.' != once[147];
  }

  /** Every sentence of `ss` shaped as a key point. */
  function FormatAll(ss: seq<string>): (r: seq<string>)
    ensures |r| == |ss|
    ensures forall i :: 0 <= i < |r| ==> r[i] == FormatKeyPoint(ss[i])
  {
    seq(|ss|, i requires 0 <= i < |ss| => FormatKeyPoint(ss[i]))
  }

  /** `capitalize(str)`: the first character upper-cased (ASCII letters only). */
  function Capitalize(w: string): (r: string)
    ensures |r| == |w|
    ensures |w| > 0 ==> r[1..] == w[1..]
  {
    if |w| == 0 then "" else [UpperChar(w[0])] + w[1..]
  }

  /** Capitalizing a term loses nothing: lower-casing the first character gives the
      term back, so distinct terms give distinct topics. */
  lemma CapitalizeTerm(w: string)
    requires forall i :: 0 <= i < |w| ==> IsTermChar(w[i])
    ensures |w| > 0 ==> [LowerChar(Capitalize(w)[0])] + Capitalize(w)[1..] == w
    ensures |w| > 0 ==> ('A' <= Capitalize(w)[0] <= 'Z' <==> 'a' <= w[0] <= 'z')
  {
  }

  lemma CapitalizeInjective(a: string, b: string)
    requires forall i :: 0 <= i < |a| ==> IsTermChar(a[i])
    requires forall i :: 0 <= i < |b| ==> IsTermChar(b[i])
    requires Capitalize(a) == Capitalize(b)
    ensures a == b
  {
    CapitalizeTerm(a);
    CapitalizeTerm(b);
  }

  // ---------------------------------------------------------------------------
  // extractTopics
  // ---------------------------------------------------------------------------

  /** The entries' counts as scores of their positions. */
  function CountScore(t: Table): nat -> real {
    (i: nat) => if i < |t| then t[i].count as real else 0.0
  }

  /** The positions of the (at most five) most frequent entries: sorted by count,
      ties in insertion order, as the stable sort of `extractTopics` leaves them. */
  function TopEntries(t: Table): (r: seq<nat>)
    ensures |r| == Min(5, |t|)
    ensures forall i :: 0 <= i < |r| ==> r[i] < |t|
    ensures forall i, j :: 0 <= i < j < |r| ==> RanksBefore(CountScore(t), r[i], r[j])
    ensures forall p, q: nat :: p in r && q < |t| && q !in r ==> RanksBefore(CountScore(t), p, q)
  {
    var order := Rank(|t|, CountScore(t));
    RankFacts(|t|, CountScore(t));
    var k := Min(5, |t|);
    forall p, q: nat | p in order[..k] && q < |t| && q !in order[..k]
      ensures RanksBefore(CountScore(t), p, q)
    {
      TopRanksFirst(|t|, CountScore(t), k, p, q);
    }
    order[..k]
  }

  /** `extractTopics(wordFreq)`: the words of the top entries, capitalized. */
  function ExtractTopics(t: Table): (r: seq<string>)
    ensures |r| == |TopEntries(t)| == Min(5, |t|)
    ensures forall i :: 0 <= i < |r| ==> r[i] == Capitalize(t[TopEntries(t)[i]].word)
  {
    var top := TopEntries(t);
    seq(|top|, i requires 0 <= i < |top| => Capitalize(t[top[i]].word))
  }

  /** Distinct terms give distinct topics. */
  lemma TopicsAreDistinct(text: string)
    ensures forall i, j :: 0 <= i < j < |ExtractTopics(WordFrequency(text))| ==>
              ExtractTopics(WordFrequency(text))[i] != ExtractTopics(WordFrequency(text))[j]
  {
    var t := WordFrequency(text);
    var top := TopEntries(t);
    var topics := ExtractTopics(t);
    EntriesAreTerms(text);
    forall i, j | 0 <= i < j < |topics|
      ensures topics[i] != topics[j]
    {
      TopicDiffers(t, top[i], top[j]);
    }
  }

  /** Every word of the table is a term: longer than three characters, not a stop
      word, and made of term characters. */
  lemma EntriesAreTerms(text: string)
    ensures var t := WordFrequency(text);
      forall i :: 0 <= i < |t| ==>
        |t[i].word| > 3 && !IsStopWord(t[i].word) && forall j :: 0 <= j < |t[i].word| ==> IsTermChar(t[i].word[j])
  {
    var t := WordFrequency(text);
    var ts := Terms(text);
    TermsAreLowerCase(text);
    forall i | 0 <= i < |t|
      ensures |t[i].word| > 3 && !IsStopWord(t[i].word) && forall j :: 0 <= j < |t[i].word| ==> IsTermChar(t[i].word[j])
    {
      CountOfEntry(t, i);
      assert multiset(ts)[t[i].word] > 0;
      var k :| 0 <= k < |ts| && ts[k] == t[i].word;
    }
  }

  lemma TopicDiffers(t: Table, a: nat, b: nat)
    requires DistinctKeys(t) && a < |t| && b < |t| && a != b
    requires forall k :: 0 <= k < |t| ==> forall i :: 0 <= i < |t[k].word| ==> IsTermChar(t[k].word[i])
    ensures Capitalize(t[a].word) != Capitalize(t[b].word)
  {
    DistinctEntries(t, a, b);
    if Capitalize(t[a].word) == Capitalize(t[b].word) {
      CapitalizeInjective(t[a].word, t[b].word);
    }
  }

  /** A topic is never less frequent than a table word left out, and topics are
      listed from the most frequent down. */
  lemma TopicsAreMostFrequent(t: Table)
    ensures var top := TopEntries(t);
      && (forall i, q :: 0 <= i < |top| && 0 <= q < |t| && q !in top ==> t[top[i]].count >= t[q].count)
      && (forall i, j :: 0 <= i < j < |top| ==> t[top[i]].count >= t[top[j]].count)
  {
    var top := TopEntries(t);
    forall i, q | 0 <= i < |top| && 0 <= q < |t| && q !in top
      ensures t[top[i]].count >= t[q].count
    {
      assert top[i] in top;
      assert RanksBefore(CountScore(t), top[i], q);
    }
    forall i, j | 0 <= i < j < |top|
      ensures t[top[i]].count >= t[top[j]].count
    {
      assert RanksBefore(CountScore(t), top[i], top[j]);
    }
  }

  /** Distinct positions of a table with distinct keys hold distinct words. */
  lemma {:induction false} DistinctEntries(t: Table, i: nat, j: nat)
    requires DistinctKeys(t) && i < |t| && j < |t| && i != j
    ensures t[i].word != t[j].word
  {
    if i == 0 {
      KeyOf(t[1..], j - 1);
    } else if j == 0 {
      KeyOf(t[1..], i - 1);
    } else {
      DistinctEntries(t[1..], i - 1, j - 1);
    }
  }

  // ---------------------------------------------------------------------------
  // buildSummary
  // ---------------------------------------------------------------------------

  /** `MIN_SENTENCE_LEN`: shorter sentences are not considered. */
  const MinSentenceLen: nat := 40

  /** The length of the fallback summary when no sentence qualifies. */
  const FallbackLen: nat := 300

  /** `sentences.filter(s => s.length >= MIN_SENTENCE_LEN)` */
  function LongSentences(ss: seq<string>): (r: seq<string>)
    ensures |r| <= |ss|
    ensures forall i :: 0 <= i < |r| ==> |r[i]| >= MinSentenceLen
  {
    if |ss| == 0 then []
    else
      var rest := LongSentences(ss[1..]);
      if |ss[0]| >= MinSentenceLen then [ss[0]] + rest else rest
  }

  /** The filter keeps every occurrence of a long enough sentence, in order, and
      drops every shorter one. */
  lemma {:induction false} LongSentencesFilter(ss: seq<string>)
    ensures forall x :: multiset(LongSentences(ss))[x] == if |x| >= MinSentenceLen then multiset(ss)[x] else 0
    decreases |ss|
  {
    if |ss| > 0 {
      var s := ss[0];
      var rest := LongSentences(ss[1..]);
      assert ss == [s] + ss[1..];
      LongSentencesFilter(ss[1..]);
      forall x
        ensures multiset(LongSentences(ss))[x] == if |x| >= MinSentenceLen then multiset(ss)[x] else 0
      {
        assert multiset(ss)[x] == multiset([s])[x] + multiset(ss[1..])[x];
        if |s| >= MinSentenceLen {
          assert multiset([s] + rest)[x] == multiset([s])[x] + multiset(rest)[x];
        }
      }
    }
  }

  /** A kept sentence is one of the input sentences. */
  lemma {:induction false} LongSentencesFrom(ss: seq<string>, i: nat)
    requires i < |LongSentences(ss)|
    ensures exists j :: 0 <= j < |ss| && ss[j] == LongSentences(ss)[i]
    decreases |ss|
  {
    var rest := LongSentences(ss[1..]);
    if |ss[0]| >= MinSentenceLen {
      if i > 0 {
        assert LongSentences(ss)[i] == rest[i - 1];
        LongSentencesFrom(ss[1..], i - 1);
      }
    } else {
      LongSentencesFrom(ss[1..], i);
    }
  }

  /** The sentences `buildSummary` ranks. */
  function Qualifying(text: string): (r: seq<string>)
    ensures forall i :: 0 <= i < |r| ==> |r[i]| >= MinSentenceLen && IsTrimmed(r[i])
  {
    var ss := SplitSentences(text);
    var r := LongSentences(ss);
    forall i | 0 <= i < |r|
      ensures IsTrimmed(r[i])
    {
      LongSentencesFrom(ss, i);
    }
    r
  }

  /** The score of every position of `ss`, as `scored` holds them. */
  function Scores(ss: seq<string>, t: Table): nat -> real {
    (i: nat) => if i < |ss| then ScoreSentence(ss[i], t, i, |ss|) else 0.0
  }

  /** The sentences at the positions `ps`, in that order. */
  function Pick(ss: seq<string>, ps: seq<nat>): (r: seq<string>)
    requires forall i :: 0 <= i < |ps| ==> ps[i] < |ss|
    ensures |r| == |ps| && forall i :: 0 <= i < |r| ==> r[i] == ss[ps[i]]
  {
    seq(|ps|, i requires 0 <= i < |ps| => ss[ps[i]])
  }

  /** The result of `buildSummary`. */
  datatype Summary = Summary(shortSummary: string, keyPoints: seq<string>, topics: seq<string>,
                             sentenceCount: nat)

  /** The choice of summary and key-point positions among the qualifying sentences
      `ss`, ranked by their scores against the frequency table `t`. */
  function Choose(ss: seq<string>, t: Table): (sel: Selection)
    requires |ss| > 0
    ensures |sel.keyPoints| == Min(5, |ss| - SummaryCount(|ss|))
    ensures |sel.summary| > 0 && forall i :: 0 <= i < |sel.summary| ==> sel.summary[i] < |ss|
    ensures forall i :: 0 <= i < |sel.keyPoints| ==> sel.keyPoints[i] < |ss|
  {
    var sel := Select(|ss|, Scores(ss, t));
    assert forall i :: 0 <= i < |sel.summary| ==> sel.summary[i] in sel.summary;
    assert forall i :: 0 <= i < |sel.keyPoints| ==> sel.keyPoints[i] in sel.keyPoints;
    sel
  }

  lemma ChooseSelects(ss: seq<string>, t: Table)
    requires |ss| > 0
    ensures IsSelection(|ss|, Scores(ss, t), Choose(ss, t))
  {
  }

  /** The shape every ranked summary has: a trimmed summary of at least one whole
      sentence, `Min(5, n - SummaryCount(n))` key points of at most 151 characters
      that each end in a sentence mark, and at most five topics. */
  predicate Shaped(r: Summary) {
    && r.sentenceCount >= SummaryCount(r.sentenceCount)
    && |r.shortSummary| >= MinSentenceLen && IsTrimmed(r.shortSummary)
    && |r.keyPoints| == Min(5, r.sentenceCount - SummaryCount(r.sentenceCount))
    && (forall i :: 0 <= i < |r.keyPoints| ==>
          0 < |r.keyPoints[i]| <= 151 && Transcript.IsMark(r.keyPoints[i][|r.keyPoints[i]| - 1]))
    && |r.topics| <= 5
  }

  /** The summary of the non-empty qualifying sentences `ss`. */
  function Ranked(ss: seq<string>, t: Table): (r: Summary)
    requires |ss| > 0 && forall i :: 0 <= i < |ss| ==> |ss[i]| >= MinSentenceLen && IsTrimmed(ss[i])
    ensures Shaped(r) && r.sentenceCount == |ss| && r.topics == ExtractTopics(t)
  {
    Assemble(ss, Choose(ss, t), ExtractTopics(t))
  }

  /** The summary record for the positions `sel` of the qualifying sentences `ss`. */
  function Assemble(ss: seq<string>, sel: Selection, topics: seq<string>): (r: Summary)
    requires |ss| > 0 && forall i :: 0 <= i < |ss| ==> |ss[i]| >= MinSentenceLen && IsTrimmed(ss[i])
    requires |sel.summary| > 0 && forall i :: 0 <= i < |sel.summary| ==> sel.summary[i] < |ss|
    requires forall i :: 0 <= i < |sel.keyPoints| ==> sel.keyPoints[i] < |ss|
    requires |sel.keyPoints| == Min(5, |ss| - SummaryCount(|ss|)) && |topics| <= 5
    ensures Shaped(r) && r.sentenceCount == |ss| && r.topics == topics
    ensures r.shortSummary == Join(Pick(ss, sel.summary))
    ensures r.keyPoints == FormatAll(Pick(ss, sel.keyPoints))
  {
    var top := Pick(ss, sel.summary);
    SummaryShape(top);
    KeyPointsShape(Pick(ss, sel.keyPoints));
    Summary(Trim(Join(top)), FormatAll(Pick(ss, sel.keyPoints)), topics, |ss|)
  }

  /** Joined sentences need no trimming and are at least one sentence long. */
  lemma SummaryShape(top: seq<string>)
    requires |top| > 0 && forall i :: 0 <= i < |top| ==> |top[i]| >= MinSentenceLen && IsTrimmed(top[i])
    ensures Trim(Join(top)) == Join(top)
    ensures |Join(top)| >= MinSentenceLen && IsTrimmed(Join(top))
  {
    JoinTrimmed(top);
  }

  /** Every shaped key point is short and ends in a sentence mark. */
  lemma KeyPointsShape(ps: seq<string>)
    ensures forall i :: 0 <= i < |FormatAll(ps)| ==>
              0 < |FormatAll(ps)[i]| <= 151 && Transcript.IsMark(FormatAll(ps)[i][|FormatAll(ps)[i]| - 1])
  {
    var r := FormatAll(ps);
    forall i | 0 <= i < |r|
      ensures 0 < |r[i]| <= 151 && Transcript.IsMark(r[i][|r[i]| - 1])
    {
      assert r[i] == FormatKeyPoint(ps[i]);
    }
  }

  /** `buildSummary({ text })`. Without a qualifying sentence the summary is the first
      300 characters of the text. Otherwise the best-scoring sentences, in text order,
      form the summary, the next ones the key points, and the most frequent terms the
      topics. */
  function BuildSummary(text: string): (r: Summary)
    ensures r.sentenceCount == |Qualifying(text)|
    ensures r.sentenceCount == 0 ==> r == Summary(text[..Min(FallbackLen, |text|)], [], [], 0)
    ensures r.sentenceCount > 0 ==> Shaped(r) && r.topics == ExtractTopics(WordFrequency(text))
  {
    var ss := Qualifying(text);
    if |ss| == 0 then Fallback(text) else Ranked(ss, WordFrequency(text))
  }

  /** The summary of a text without qualifying sentences. */
  function Fallback(text: string): Summary {
    Summary(text[..Min(FallbackLen, |text|)], [], [], 0)
  }

  /** The summary joins the sentences of a selection by score and the key points shape
      the sentences that follow it in the ranking. */
  lemma SummaryFollowsRanking(text: string)
    requires |Qualifying(text)| > 0
    ensures var ss := Qualifying(text);
      var r := BuildSummary(text);
      exists sel :: IsSelection(|ss|, Scores(ss, WordFrequency(text)), sel)
        && (forall i :: 0 <= i < |sel.summary| ==> sel.summary[i] < |ss|)
        && (forall i :: 0 <= i < |sel.keyPoints| ==> sel.keyPoints[i] < |ss|)
        && r.shortSummary == Join(Pick(ss, sel.summary))
        && r.keyPoints == FormatAll(Pick(ss, sel.keyPoints))
  {
    var ss := Qualifying(text);
    var t := WordFrequency(text);
    var sel := Choose(ss, t);
    ChooseSelects(ss, t);
    var r := BuildSummary(text);
    assert r == Assemble(ss, sel, ExtractTopics(t)) by {
      assert r == Ranked(ss, t);
    }
    assert r.shortSummary == Join(Pick(ss, sel.summary));
    assert r.keyPoints == FormatAll(Pick(ss, sel.keyPoints));
  }

  /** The summary holds exactly the words of the chosen sentences. */
  lemma SummaryWords(text: string)
    requires |Qualifying(text)| > 0
    ensures var ss := Qualifying(text);
      var sel := Choose(ss, WordFrequency(text));
      Words(BuildSummary(text).shortSummary) == WordsOfAll(Pick(ss, sel.summary))
  {
    var ss := Qualifying(text);
    var t := WordFrequency(text);
    var sel := Choose(ss, t);
    var top := Pick(ss, sel.summary);
    assert BuildSummary(text).shortSummary == Join(top) by {
      assert BuildSummary(text) == Ranked(ss, t) == Assemble(ss, sel, ExtractTopics(t));
    }
    WordsOfJoinAll(top);
  }
}

=== FILE: text.dfy ===
/** String operations the JavaScript source performs with regular expressions:
    whitespace splitting (`split(/\s+/)`), joining with single spaces, trimming,
    whitespace collapsing (`replace(/\s+/g, ' ')`) and substring search
    (`includes`). A `char` stands for one UTF-16 code unit of a JavaScript string. */
module Text {

  /** JavaScript's `\s`, which is also the set `String.prototype.trim` removes:
      the ECMAScript WhiteSpace and LineTerminator code points (tab, line feed,
      vertical tab, form feed, carriage return, space, no-break space, the Unicode
      space separators, the line and paragraph separators and the byte-order mark). */
  predicate IsSpace(c: char) {
    || '\U{0009}' <= c <= '\U{000D}'
    || c == '\U{0020}' || c == '\U{00A0}' || c == '\U{1680}'
    || '\U{2000}' <= c <= '\U{200A}'
    || c == '\U{2028}' || c == '\U{2029}' || c == '\U{202F}' || c == '\U{205F}'
    || c == '\U{3000}' || c == '\U{FEFF}'
  }

  /** Printable ASCII characters and the Arabic block (U+0600 to U+06FF) are not whitespace. */
  lemma PrintableIsNotSpace(c: char)
    requires '!' <= c <= '~' || '\U{0600}' <= c <= '\U{06FF}'
    ensures !IsSpace(c)
  {
  }

  /** A non-empty run of printable ASCII or Arabic characters is a word. */
  lemma PrintableWord(w: string)
    requires |w| > 0
    requires forall i :: 0 <= i < |w| ==> '!' <= w[i] <= '~' || '\U{0600}' <= w[i] <= '\U{06FF}'
    ensures IsWord(w)
  {
    forall i | 0 <= i < |w|
      ensures !IsSpace(w[i])
    {
      PrintableIsNotSpace(w[i]);
    }
  }

  /** The space and the line feed are whitespace. */
  lemma SpaceAndNewlineAreSpace()
    ensures IsSpace(' ') && IsSpace('\n')
  {
  }

  /** ECMAScript LineTerminator: the characters a regular-expression `.` does not match. */
  predicate IsLineTerminator(c: char) {
    c == '\n' || c == '\r' || c as int == 0x2028 || c as int == 0x2029
  }

  /** `\d` */
  predicate IsDigit(c: char) {
    '0' <= c <= '9'
  }

  /** `\w` */
  predicate IsWordChar(c: char) {
    'a' <= c <= 'z' || 'A' <= c <= 'Z' || '0' <= c <= '9' || c == '_'
  }

  /** One token of `s.split(/\s+/).filter(Boolean)`: non-empty and free of whitespace. */
  predicate IsWord(w: string) {
    |w| > 0 && forall i :: 0 <= i < |w| ==> !IsSpace(w[i])
  }

  /** Every element of `ws` is a word. */
  predicate AllWords(ws: seq<string>) {
    forall i :: 0 <= i < |ws| ==> IsWord(ws[i])
  }

  /** Length of the leading whitespace run of `s`. */
  function SpaceLen(s: string): (n: nat)
    ensures n <= |s|
    ensures forall i :: 0 <= i < n ==> IsSpace(s[i])
    ensures n < |s| ==> !IsSpace(s[n])
  {
    if |s| == 0 || !IsSpace(s[0]) then 0 else 1 + SpaceLen(s[1..])
  }

  /** Length of the leading non-whitespace run of `s`. */
  function WordLen(s: string): (n: nat)
    ensures n <= |s|
    ensures forall i :: 0 <= i < n ==> !IsSpace(s[i])
    ensures n < |s| ==> IsSpace(s[n])
  {
    if |s| == 0 || IsSpace(s[0]) then 0 else 1 + WordLen(s[1..])
  }

  /** Length of the trailing whitespace run of `s`. */
  function TrailLen(s: string): (n: nat)
    ensures n <= |s|
    ensures forall i :: |s| - n <= i < |s| ==> IsSpace(s[i])
    ensures n < |s| ==> !IsSpace(s[|s| - n - 1])
  {
    if |s| == 0 || !IsSpace(s[|s| - 1]) then 0 else 1 + TrailLen(s[..|s| - 1])
  }

  /** `s.split(/\s+/).filter(Boolean)`: the maximal whitespace-free runs of `s`, in order. */
  function Words(s: string): (ws: seq<string>)
    ensures AllWords(ws)
    decreases |s|
  {
    if |s| == 0 then []
    else if IsSpace(s[0]) then Words(s[1..])
    else
      var n := WordLen(s);
      [s[..n]] + Words(s[n..])
  }

  /** `countWords(text)` of api/summarize.js. */
  function CountWords(s: string): nat {
    |Words(s)|
  }

  /** `ws.join(' ')`. */
  function Join(ws: seq<string>): string {
    if |ws| == 0 then ""
    else if |ws| == 1 then ws[0]
    else ws[0] + " " + Join(ws[1..])
  }

  /** `s.trimStart()` */
  function TrimStart(s: string): string {
    s[SpaceLen(s)..]
  }

  /** `s.trimEnd()` */
  function TrimEnd(s: string): string {
    s[..|s| - TrailLen(s)]
  }

  /** Neither the first nor the last character is whitespace. */
  predicate IsTrimmed(s: string) {
    s == "" || (!IsSpace(s[0]) && !IsSpace(s[|s| - 1]))
  }

  /** `s.trim()`: the result is the window of `s` that starts at its first
      non-whitespace character and ends at its last one. */
  function Trim(s: string): (r: string)
    ensures IsTrimmed(r)
    ensures SpaceLen(s) + |r| <= |s| && r == s[SpaceLen(s)..SpaceLen(s) + |r|]
    ensures forall i :: 0 <= i < |s| && !IsSpace(s[i]) ==> SpaceLen(s) <= i < SpaceLen(s) + |r|
    ensures IsTrimmed(s) ==> r == s
  {
    TrimEnd(TrimStart(s))
  }

  /** `s.replace(/\s+/g, ' ')`: every maximal whitespace run becomes a single
      space and every run of other characters is copied unchanged. */
  function CollapseSpaces(s: string): string
    decreases |s|
  {
    if |s| == 0 then ""
    else if IsSpace(s[0]) then " " + CollapseSpaces(s[SpaceLen(s)..])
    else s[..WordLen(s)] + CollapseSpaces(s[WordLen(s)..])
  }

  /** `s.replace(/\s+/g, ' ').trim()`: the words of `s` joined by single spaces. */
  function Squish(s: string): (r: string)
    ensures r == Join(Words(s))
  {
    SquishIsJoinOfWords(s);
    Trim(CollapseSpaces(s))
  }

  /** No leading or trailing whitespace, and every whitespace character is a
      single ' ' between two non-whitespace characters. */
  ghost predicate IsSquished(s: string) {
    && IsTrimmed(s)
    && (forall i :: 0 <= i < |s| && IsSpace(s[i]) ==> s[i] == ' ')
    && (forall i, j :: 0 <= i < j < |s| && j == i + 1 ==> !IsSpace(s[i]) || !IsSpace(s[j]))
  }

  /** `s.includes(sub)` */
  predicate Contains(s: string, sub: string)
    decreases |s|
  {
    StartsWith(s, sub) || (|s| > 0 && Contains(s[1..], sub))
  }

  /** `s.startsWith(p)` */
  predicate StartsWith(s: string, p: string) {
    |p| <= |s| && s[..|p|] == p
  }

  // ---------------------------------------------------------------------------
  // Splitting and joining are inverse on words.
  // ---------------------------------------------------------------------------

  lemma WordLenOfWordThen(w: string, rest: string)
    requires forall i :: 0 <= i < |w| ==> !IsSpace(w[i])
    requires rest == "" || IsSpace(rest[0])
    ensures WordLen(w + rest) == |w|
  {
    var s := w + rest;
    var n := WordLen(s);
    assert forall i :: 0 <= i < |w| ==> s[i] == w[i];
    assert |w| < |s| ==> s[|w|] == rest[0];
  }

  lemma WordsOfWordThen(w: string, rest: string)
    requires IsWord(w)
    requires rest == "" || IsSpace(rest[0])
    ensures Words(w + rest) == [w] + Words(rest)
  {
    var s := w + rest;
    WordLenOfWordThen(w, rest);
    assert s[..|w|] == w;
    assert s[|w|..] == rest;
  }

  /** Splitting the space-joined words gives back the words. */
  lemma {:induction false} WordsOfJoin(ws: seq<string>)
    requires AllWords(ws)
    ensures Words(Join(ws)) == ws
    decreases |ws|
  {
    if |ws| == 1 {
      WordsOfWordThen(ws[0], "");
      assert ws[0] + "" == ws[0];
    } else if |ws| > 1 {
      var rest := " " + Join(ws[1..]);
      assert Join(ws) == ws[0] + rest;
      WordsOfWordThen(ws[0], rest);
      assert rest[1..] == Join(ws[1..]);
      WordsOfJoin(ws[1..]);
      assert ws == [ws[0]] + ws[1..];
    }
  }

  /** Leading whitespace does not change the words. */
  lemma {:induction false} WordsSkipSpaces(s: string)
    ensures Words(s) == Words(s[SpaceLen(s)..])
    decreases |s|
  {
    if |s| > 0 && IsSpace(s[0]) {
      WordsSkipSpaces(s[1..]);
      assert s[1..][SpaceLen(s[1..])..] == s[SpaceLen(s)..];
    }
  }

  /** A prefix never has more words than the whole string. */
  lemma {:induction false} WordsOfPrefix(s: string, k: nat)
    requires k <= |s|
    ensures |Words(s[..k])| <= |Words(s)|
    decreases |s|
  {
    if k == 0 {
      assert s[..k] == "";
    } else if IsSpace(s[0]) {
      assert s[..k][1..] == s[1..][..k - 1];
      WordsOfPrefix(s[1..], k - 1);
    } else {
      var n := WordLen(s);
      var p := s[..k];
      if k <= n {
        assert WordLen(p) == k by {
          assert forall i :: 0 <= i < k ==> p[i] == s[i];
        }
        assert p[k..] == "";
      } else {
        assert WordLen(p) == n by {
          assert forall i :: 0 <= i < k ==> p[i] == s[i];
        }
        assert p[n..] == s[n..][..k - n];
        WordsOfPrefix(s[n..], k - n);
      }
    }
  }

  /** A string whose characters are all whitespace has no words. */
  lemma {:induction false} WordsOfSpaces(s: string)
    requires forall i :: 0 <= i < |s| ==> IsSpace(s[i])
    ensures Words(s) == []
    decreases |s|
  {
    if |s| > 0 {
      WordsOfSpaces(s[1..]);
    }
  }

  /** Two strings meeting at whitespace (or with one of them empty) split into
      the words of the first followed by the words of the second. */
  lemma {:induction false} WordsConcat(a: string, b: string)
    requires a == "" || b == "" || IsSpace(a[|a| - 1]) || IsSpace(b[0])
    ensures Words(a + b) == Words(a) + Words(b)
    decreases |a|
  {
    if a == "" {
      assert a + b == b;
    } else if IsSpace(a[0]) {
      assert (a + b)[1..] == a[1..] + b;
      WordsConcat(a[1..], b);
    } else {
      var n := WordLen(a);
      var t := a[n..];
      if t != "" {
        assert t[|t| - 1] == a[|a| - 1];
        WordsConcat(t, b);
      } else {
        assert !IsSpace(a[|a| - 1]);
        assert t + b == b;
      }
      WordsConcatAfterWord(a, b, n);
    }
  }

  /** The step of `WordsConcat` past the first word `a[..n]` of `a`. */
  lemma WordsConcatAfterWord(a: string, b: string, n: nat)
    requires 0 < |a| && !IsSpace(a[0]) && n == WordLen(a)
    requires a[n..] == "" ==> b == "" || IsSpace(b[0])
    requires Words(a[n..] + b) == Words(a[n..]) + Words(b)
    ensures Words(a + b) == Words(a) + Words(b)
  {
    SplitAt(a, b, n);
    WordsOfWordThen(a[..n], a[n..]);
    WordsOfWordThen(a[..n], a[n..] + b);
    ConcatAssoc([a[..n]], Words(a[n..]), Words(b));
  }

  lemma SplitAt(a: string, b: string, n: nat)
    requires n <= |a|
    ensures a == a[..n] + a[n..]
    ensures a + b == a[..n] + (a[n..] + b)
  {
  }

  /** The words of every string of `ws`, in order. */
  function WordsOfAll(ws: seq<string>): seq<string> {
    if |ws| == 0 then [] else Words(ws[0]) + WordsOfAll(ws[1..])
  }

  /** Trimming leaves nothing exactly when there is no word. */
  lemma TrimEmpty(s: string)
    ensures Trim(s) == "" <==> Words(s) == []
  {
    WordsOfTrim(s);
    var t := Trim(s);
    if t != "" {
      assert !IsSpace(t[0]);
    }
  }

  /** Joining strings with single spaces neither merges nor splits their words. */
  lemma {:induction false} WordsOfJoinAll(ws: seq<string>)
    ensures Words(Join(ws)) == WordsOfAll(ws)
    decreases |ws|
  {
    if |ws| == 1 {
      assert WordsOfAll(ws) == Words(ws[0]) + [];
    } else if |ws| > 1 {
      var j := Join(ws[1..]);
      assert Join(ws) == ws[0] + (" " + j);
      WordsConcat(ws[0], " " + j);
      assert (" " + j)[1..] == j;
      WordsOfJoinAll(ws[1..]);
    }
  }

  /** Two words separated by a whitespace run. */
  lemma WordsOfTwo(a: string, sp: string, b: string)
    requires IsWord(a) && IsWord(b) && |sp| > 0
    requires forall i :: 0 <= i < |sp| ==> IsSpace(sp[i])
    ensures Words(a + sp + b) == [a, b]
    ensures Join([a, b]) == a + " " + b
  {
    assert Words(b) == [b] by {
      WordsOfWordThen(b, "");
      assert b + "" == b;
    }
    assert Words(sp + b) == [b] by {
      WordsOfSpaces(sp);
      WordsConcat(sp, b);
    }
    assert Words(a + (sp + b)) == [a, b] by {
      WordsOfWordThen(a, sp + b);
    }
    assert a + sp + b == a + (sp + b);
    assert Join([a, b]) == a + " " + b by {
      assert [a, b][1..] == [b];
    }
  }

  /** Trimming keeps the words. */
  lemma WordsOfTrim(s: string)
    ensures Words(Trim(s)) == Words(s)
  {
    var k := SpaceLen(s);
    var r := Trim(s);
    var lead := s[..k];
    var tail := s[k + |r|..];
    assert s == lead + r + tail;
    assert Words(lead) == [] by {
      WordsOfSpaces(lead);
    }
    if r == "" {
      WordsOfSpaces(tail);
      WordsConcat(lead, tail);
      assert lead + r == lead;
    } else {
      assert Words(tail) == [] by {
        forall i | 0 <= i < |tail|
          ensures IsSpace(tail[i])
        {
          assert tail[i] == s[k + |r| + i];
        }
        WordsOfSpaces(tail);
      }
      assert Words(lead + r) == Words(r) by {
        WordsConcat(lead, r);
      }
      WordsConcat(lead + r, tail);
      assert Words(r) + [] == Words(r);
    }
  }

  // ---------------------------------------------------------------------------
  // Collapsing then trimming is joining the words.
  // ---------------------------------------------------------------------------

  /** The single space `CollapseSpaces` leaves after the last word, if any. */
  function TailSpace(s: string): string {
    if |Words(s)| > 0 && IsSpace(s[|s| - 1]) then " " else ""
  }

  /** One word, then a whitespace run, then the remainder `r`. */
  lemma CollapseStep(s: string)
    requires |s| > 0 && !IsSpace(s[0])
    requires WordLen(s) < |s|
    ensures var n := WordLen(s); var rest := s[n..];
      CollapseSpaces(s) == s[..n] + " " + CollapseSpaces(rest[SpaceLen(rest)..])
  {
    var n := WordLen(s);
    var rest := s[n..];
    assert IsSpace(rest[0]) by {
      assert rest[0] == s[n];
    }
    var x := CollapseSpaces(rest[SpaceLen(rest)..]);
    CollapseAtSpace(rest);
    ConcatAssoc(s[..n], " ", x);
  }

  lemma CollapseAtSpace(t: string)
    requires |t| > 0 && IsSpace(t[0])
    ensures CollapseSpaces(t) == " " + CollapseSpaces(t[SpaceLen(t)..])
  {
  }

  lemma WordsStep(s: string)
    requires |s| > 0 && !IsSpace(s[0])
    ensures var n := WordLen(s); var rest := s[n..];
      Words(s) == [s[..n]] + Words(rest[SpaceLen(rest)..])
  {
    WordsSkipSpaces(s[WordLen(s)..]);
  }

  lemma {:induction false} CollapseFromWord(s: string)
    requires s == "" || !IsSpace(s[0])
    ensures CollapseSpaces(s) == Join(Words(s)) + TailSpace(s)
    decreases |s|
  {
    if |s| > 0 {
      var n := WordLen(s);
      var w := s[..n];
      var rest := s[n..];
      WordsStep(s);
      if rest == "" {
        assert s == w;
        assert Words(s) == [w];
      } else {
        var r2 := rest[SpaceLen(rest)..];
        CollapseStep(s);
        if r2 == "" {
          CollapseTailSpaces(s, w, rest);
        } else {
          CollapseFromWord(r2);
          CollapseJoinStep(s, w, r2);
        }
      }
    }
  }

  lemma CollapseTailSpaces(s: string, w: string, rest: string)
    requires IsWord(w) && s == w + rest && |rest| > 0
    requires forall i :: 0 <= i < |rest| ==> IsSpace(rest[i])
    requires Words(s) == [w]
    requires CollapseSpaces(s) == w + " " + CollapseSpaces("")
    ensures CollapseSpaces(s) == Join(Words(s)) + TailSpace(s)
  {
    assert s[|s| - 1] == rest[|rest| - 1];
  }

  lemma CollapseJoinStep(s: string, w: string, r2: string)
    requires IsWord(w) && |r2| > 0 && !IsSpace(r2[0])
    requires |s| > 0 && s[|s| - 1] == r2[|r2| - 1]
    requires Words(s) == [w] + Words(r2)
    requires CollapseSpaces(s) == w + " " + CollapseSpaces(r2)
    requires CollapseSpaces(r2) == Join(Words(r2)) + TailSpace(r2)
    ensures CollapseSpaces(s) == Join(Words(s)) + TailSpace(s)
  {
    var ws := Words(r2);
    assert |ws| > 0;
    assert ([w] + ws)[1..] == ws;
    assert Join([w] + ws) == w + " " + Join(ws);
  }

  lemma SpaceLenIs(s: string, k: nat)
    requires k <= |s|
    requires forall i :: 0 <= i < k ==> IsSpace(s[i])
    requires k < |s| ==> !IsSpace(s[k])
    ensures SpaceLen(s) == k
  {
  }

  lemma TrailLenIs(s: string, k: nat)
    requires k <= |s|
    requires forall i :: |s| - k <= i < |s| ==> IsSpace(s[i])
    requires k < |s| ==> !IsSpace(s[|s| - k - 1])
    ensures TrailLen(s) == k
  {
  }

  /** The first and last characters of a join of words are not whitespace. */
  lemma {:induction false} JoinEnds(ws: seq<string>)
    requires AllWords(ws)
    ensures IsTrimmed(Join(ws))
    ensures |ws| > 0 ==> |Join(ws)| > 0
    decreases |ws|
  {
    if |ws| > 1 {
      JoinEnds(ws[1..]);
    }
  }

  /** Joining non-empty trimmed strings with single spaces gives a trimmed string at
      least as long as the first of them. */
  lemma {:induction false} JoinTrimmed(ws: seq<string>)
    requires forall i :: 0 <= i < |ws| ==> ws[i] != "" && IsTrimmed(ws[i])
    ensures IsTrimmed(Join(ws))
    ensures |ws| > 0 ==> |Join(ws)| >= |ws[0]| && Join(ws)[..|ws[0]|] == ws[0]
    decreases |ws|
  {
    if |ws| > 1 {
      JoinTrimmed(ws[1..]);
      var j := Join(ws[1..]);
      assert Join(ws) == ws[0] + " " + j;
      assert (ws[0] + " " + j)[..|ws[0]|] == ws[0];
      assert j[|j| - 1] == Join(ws)[|Join(ws)| - 1];
    }
  }

  lemma TrimAround(lead: string, j: string, tail: string)
    requires forall i :: 0 <= i < |lead| ==> IsSpace(lead[i])
    requires forall i :: 0 <= i < |tail| ==> IsSpace(tail[i])
    requires IsTrimmed(j)
    ensures Trim(lead + j + tail) == j
  {
    var s := lead + j + tail;
    if j == "" {
      assert s == lead + tail;
      SpaceLenIs(s, |s|);
    } else {
      SpaceLenIs(s, |lead|);
      var t := TrimStart(s);
      assert t == j + tail;
      TrailLenIs(t, |tail|);
      assert TrimEnd(t) == j;
    }
  }

  /** Concatenation is associative. */
  lemma ConcatAssoc<T>(a: seq<T>, b: seq<T>, c: seq<T>)
    ensures a + (b + c) == a + b + c
  {
  }

  lemma SquishIsJoinOfWords(s: string)
    ensures Trim(CollapseSpaces(s)) == Join(Words(s))
  {
    JoinEnds(Words(s));
    if s == "" || !IsSpace(s[0]) {
      CollapseFromWord(s);
      TrimAround("", Join(Words(s)), TailSpace(s));
      assert "" + Join(Words(s)) + TailSpace(s) == Join(Words(s)) + TailSpace(s);
    } else {
      SquishFromSpace(s);
    }
  }

  lemma SquishFromSpace(s: string)
    requires |s| > 0 && IsSpace(s[0])
    ensures Trim(CollapseSpaces(s)) == Join(Words(s))
  {
    var r2 := s[SpaceLen(s)..];
    assert CollapseSpaces(s) == " " + CollapseSpaces(r2);
    FromWordThenTrim(r2);
    WordsSkipSpaces(s);
  }

  /** Text starting with a non-space, collapsed, behind one space, trims to its joined words. */
  lemma FromWordThenTrim(r2: string)
    requires r2 == "" || !IsSpace(r2[0])
    ensures Trim(" " + CollapseSpaces(r2)) == Join(Words(r2))
  {
    var j := Join(Words(r2));
    var tail := TailSpace(r2);
    CollapseFromWord(r2);
    JoinEnds(Words(r2));
    SpaceTrim(j, tail);
  }

  lemma SpaceTrim(j: string, tail: string)
    requires IsTrimmed(j) && (tail == "" || tail == " ")
    ensures Trim(" " + (j + tail)) == j
  {
    ConcatAssoc(" ", j, tail);
    SpaceAndNewlineAreSpace();
    TrimAround(" ", j, tail);
  }

  // ---------------------------------------------------------------------------
  // Shape of squished text.
  // ---------------------------------------------------------------------------

  /** A join of words has single spaces only between two non-whitespace characters. */
  lemma {:induction false} JoinIsSquished(ws: seq<string>)
    requires AllWords(ws)
    ensures IsSquished(Join(ws))
    decreases |ws|
  {
    JoinEnds(ws);
    if |ws| == 1 {
      assert Join(ws) == ws[0];
    } else if |ws| > 1 {
      var w := ws[0];
      var j := Join(ws[1..]);
      JoinIsSquished(ws[1..]);
      JoinEnds(ws[1..]);
      var s := w + " " + j;
      assert forall i :: 0 <= i < |w| ==> s[i] == w[i];
      assert forall i :: |w| < i < |s| ==> s[i] == j[i - |w| - 1];
      forall i, k | 0 <= i < k < |s| && k == i + 1
        ensures !IsSpace(s[i]) || !IsSpace(s[k])
      {
        if i > |w| {
          assert s[i] == j[i - |w| - 1] && s[k] == j[k - |w| - 1];
        } else if i == |w| {
          assert s[k] == j[0];
        }
      }
    }
  }

  /** The result of `replace(/\s+/g, ' ').trim()` has no leading, trailing or
      doubled whitespace, keeps exactly the words of its input, and is a fixed point. */
  lemma SquishProperties(s: string)
    ensures IsSquished(Squish(s))
    ensures IsTrimmed(Squish(s))
    ensures Words(Squish(s)) == Words(s)
    ensures Squish(Squish(s)) == Squish(s)
    ensures Squish(s) == "" <==> Words(s) == []
  {
    JoinIsSquished(Words(s));
    JoinEnds(Words(s));
    WordsOfJoin(Words(s));
  }

}

=== FILE: transcript.dfy ===
/** Transcript retrieval and preparation of api/summarize.js: cleaning one caption
    segment (`cleanSegment`), the language-priority search over the transcript
    library (`getTranscript`) and the word-budget clipper (`clipToWords`).
    The transcript library is a parameter: a pure function from a language
    request (`None` for the library's automatic choice) to segments or an error. */
module Transcript {
  import opened Wrappers
  import opened Text

  // ---------------------------------------------------------------------------
  // Removing bracketed groups: `replace(/\[.*?\]/g, '')` and `replace(/\(.*?\)/g, '')`.
  // ---------------------------------------------------------------------------

  /** The two delimiter pairs `cleanSegment` removes. */
  datatype Bracket = Square | Round {
    function Open(): char {
      match this
      case Square => '['
      case Round => '('
    }
    function Close(): char {
      match this
      case Square => ']'
      case Round => ')'
    }
  }

  /** Index of the first `close` or line terminator of `t`, or `|t|` when there is
      none: how far the lazy `.*?` can reach looking for `close`. */
  function Stop(t: string, close: char): (k: nat)
    ensures k <= |t|
    ensures forall i :: 0 <= i < k ==> t[i] != close && !IsLineTerminator(t[i])
    ensures k < |t| ==> t[k] == close || IsLineTerminator(t[k])
  {
    if |t| == 0 || t[0] == close || IsLineTerminator(t[0]) then 0 else 1 + Stop(t[1..], close)
  }

  /** `t` starts with a match of `open.*?close`: the opening delimiter, then the first
      closing one with no line terminator in between. */
  predicate GroupAt(t: string, b: Bracket) {
    |t| > 0 && t[0] == b.Open() && Stop(t[1..], b.Close()) < |t| - 1
    && t[1 + Stop(t[1..], b.Close())] == b.Close()
  }

  /** No position of `t` starts a group. */
  predicate NoGroup(t: string, b: Bracket) {
    forall i :: 0 <= i < |t| ==> !GroupAt(t[i..], b)
  }

  /** The global replacement of every group by the empty string, scanning left to right
      and resuming after each removed group. */
  function StripGroups(s: string, b: Bracket): (r: string)
    ensures |r| <= |s|
    decreases |s|
  {
    if |s| == 0 then ""
    else if GroupAt(s, b) then StripGroups(s[Stop(s[1..], b.Close()) + 2..], b)
    else [s[0]] + StripGroups(s[1..], b)
  }

  lemma StopIs(t: string, close: char, k: nat)
    requires k <= |t|
    requires forall i :: 0 <= i < k ==> t[i] != close && !IsLineTerminator(t[i])
    requires k < |t| ==> t[k] == close || IsLineTerminator(t[k])
    ensures Stop(t, close) == k
  {
  }

  /** A stretch free of closing delimiters and line terminators that ends at a line
      terminator (or at the end) is copied unchanged: no group can start in it. */
  lemma {:induction false} StripPrefix(t: string, b: Bracket, m: nat)
    requires m <= |t|
    requires forall i :: 0 <= i < m ==> t[i] != b.Close() && !IsLineTerminator(t[i])
    requires m == |t| || IsLineTerminator(t[m])
    ensures StripGroups(t, b) == t[..m] + StripGroups(t[m..], b)
    decreases m
  {
    if m > 0 {
      StopIs(t[1..], b.Close(), m - 1);
      assert !GroupAt(t, b);
      StripPrefix(t[1..], b, m - 1);
      PrefixStep(t, m, StripGroups(t[m..], b));
    }
  }

  /** The sequence algebra of one step of a prefix copy. */
  lemma PrefixStep(t: string, m: nat, x: string)
    requires 0 < m <= |t|
    ensures t[1..][m - 1..] == t[m..]
    ensures [t[0]] + (t[1..][..m - 1] + x) == t[..m] + x
  {
    assert t[..m] == [t[0]] + t[1..][..m - 1];
  }

  /** After the replacement no group is left. */
  lemma {:induction false} StripLeavesNoGroup(s: string, b: Bracket)
    ensures NoGroup(StripGroups(s, b), b)
    decreases |s|
  {
    if |s| > 0 {
      if GroupAt(s, b) {
        StripLeavesNoGroup(s[Stop(s[1..], b.Close()) + 2..], b);
      } else {
        var t := s[1..];
        var rest := StripGroups(t, b);
        var r := [s[0]] + rest;
        StripLeavesNoGroup(t, b);
        assert forall i :: 1 <= i < |r| ==> r[i..] == rest[i - 1..];
        if s[0] == b.Open() {
          KeptOpenStaysOpen(t, b);
          assert r[1..] == rest;
        }
        assert r[0..] == r;
      }
    }
  }

  /** An opening delimiter that starts no group in `t` starts none after the replacement:
      the first closing delimiter or line terminator it can reach is a line terminator
      (or absent), and the replacement keeps that stretch. */
  lemma KeptOpenStaysOpen(t: string, b: Bracket)
    requires !GroupAt([b.Open()] + t, b)
    ensures !GroupAt([b.Open()] + StripGroups(t, b), b)
  {
    var s := [b.Open()] + t;
    assert s[1..] == t;
    var m := Stop(t, b.Close());
    StripPrefix(t, b, m);
    var rest := StripGroups(t, b);
    if m == |t| {
      assert t[m..] == "";
      assert rest == t[..m];
    } else {
      KeepLineTerminator(t, b, m);
    }
    StopIs(rest, b.Close(), m);
    var r := [b.Open()] + rest;
    assert r[1..] == rest;
  }

  /** A line terminator is kept, so it stays right after the copied stretch. */
  lemma KeepLineTerminator(t: string, b: Bracket, m: nat)
    requires m < |t| && IsLineTerminator(t[m])
    requires StripGroups(t, b) == t[..m] + StripGroups(t[m..], b)
    ensures |StripGroups(t, b)| > m && StripGroups(t, b)[..m] == t[..m] && StripGroups(t, b)[m] == t[m]
  {
    var u := t[m..];
    assert u[0] == t[m];
    assert !GroupAt(u, b);
    assert StripGroups(u, b) == [t[m]] + StripGroups(u[1..], b);
  }

  /** Text without groups is left unchanged. */
  lemma {:induction false} StripWithoutGroups(s: string, b: Bracket)
    requires NoGroup(s, b)
    ensures StripGroups(s, b) == s
    decreases |s|
  {
    if |s| > 0 {
      assert s[0..] == s;
      assert forall i :: 0 <= i < |s| - 1 ==> s[1..][i..] == s[i + 1..];
      StripWithoutGroups(s[1..], b);
    }
  }

  /** Removing groups a second time changes nothing. */
  lemma StripIdempotent(s: string, b: Bracket)
    ensures StripGroups(StripGroups(s, b), b) == StripGroups(s, b)
  {
    StripLeavesNoGroup(s, b);
    StripWithoutGroups(StripGroups(s, b), b);
  }

  // ---------------------------------------------------------------------------
  // Replacing HTML entities: `replace(/&#\d+;/g, ' ')` and `replace(/&\w+;/g, ' ')`.
  // ---------------------------------------------------------------------------

  /** The two entity shapes: numeric `&#\d+;` and named `&\w+;`. */
  datatype Entity = Numeric | Named {
    /** Length of the lead: "&#" or "&". */
    function LeadLen(): nat {
      match this
      case Numeric => 2
      case Named => 1
    }
    /** `t` starts with the lead. */
    predicate HasLead(t: string) {
      match this
      case Numeric => |t| >= 2 && t[0] == '&' && t[1] == '#'
      case Named => |t| >= 1 && t[0] == '&'
    }
    predicate IsBody(c: char) {
      match this
      case Numeric => IsDigit(c)
      case Named => IsWordChar(c)
    }
  }

  /** Length of the leading run of body characters of `t`. */
  function BodyLen(t: string, k: Entity): (n: nat)
    ensures n <= |t|
    ensures forall i :: 0 <= i < n ==> k.IsBody(t[i])
    ensures n < |t| ==> !k.IsBody(t[n])
  {
    if |t| == 0 || !k.IsBody(t[0]) then 0 else 1 + BodyLen(t[1..], k)
  }

  /** `t` starts with an entity: the lead, a non-empty body run, then ';'. */
  predicate EntityAt(t: string, k: Entity) {
    k.HasLead(t)
    && var n := BodyLen(t[k.LeadLen()..], k);
       n > 0 && k.LeadLen() + n < |t| && t[k.LeadLen() + n] == ';'
  }

  /** Length of the entity `t` starts with. */
  function EntityLen(t: string, k: Entity): nat
    requires EntityAt(t, k)
  {
    k.LeadLen() + BodyLen(t[k.LeadLen()..], k) + 1
  }

  /** No position of `t` starts an entity. */
  predicate NoEntity(t: string, k: Entity) {
    forall i :: 0 <= i < |t| ==> !EntityAt(t[i..], k)
  }

  /** Every entity becomes one space, scanning left to right. */
  function ReplaceEntities(s: string, k: Entity): (r: string)
    ensures |r| <= |s|
    decreases |s|
  {
    if |s| == 0 then ""
    else if EntityAt(s, k) then " " + ReplaceEntities(s[EntityLen(s, k)..], k)
    else [s[0]] + ReplaceEntities(s[1..], k)
  }

  lemma BodyLenIs(t: string, k: Entity, n: nat)
    requires n <= |t|
    requires forall i :: 0 <= i < n ==> k.IsBody(t[i])
    requires n < |t| ==> !k.IsBody(t[n])
    ensures BodyLen(t, k) == n
  {
  }

  /** The replacement starts with the first character of its input or with a space. */
  lemma ReplaceFront(t: string, k: Entity)
    requires |t| > 0
    ensures |ReplaceEntities(t, k)| > 0
    ensures ReplaceEntities(t, k)[0] == t[0] || ReplaceEntities(t, k)[0] == ' '
  {
  }

  /** A stretch where no entity starts is copied unchanged: none starts at its first
      character, and no later character is '&'. */
  lemma {:induction false} ReplacePrefix(t: string, k: Entity, m: nat)
    requires m <= |t|
    requires m > 0 ==> !EntityAt(t, k)
    requires forall i :: 0 < i < m ==> t[i] != '&'
    ensures ReplaceEntities(t, k) == t[..m] + ReplaceEntities(t[m..], k)
    decreases m
  {
    if m > 0 {
      if m > 1 {
        NoEntityAtNonAmp(t[1..], k);
      }
      ReplacePrefix(t[1..], k, m - 1);
      PrefixStep(t, m, ReplaceEntities(t[m..], k));
    }
  }

  /** No character of a lead or a body is '&', so no entity starts there. */
  lemma NoEntityAtNonAmp(t: string, k: Entity)
    requires |t| > 0 && t[0] != '&'
    ensures !EntityAt(t, k)
  {
  }

  /** A lead not followed by a complete entity stays incomplete after the replacement. */
  lemma KeptLeadStaysIncomplete(s: string, k: Entity)
    requires k.HasLead(s) && !EntityAt(s, k)
    ensures !EntityAt(ReplaceEntities(s, k), k)
  {
    var n := BodyLen(s[k.LeadLen()..], k);
    var m := k.LeadLen() + n;
    NoEntityInLeadOrBody(s, k);
    ReplacePrefix(s, k, m);
    var tail := ReplaceEntities(s[m..], k);
    if m < |s| {
      ReplaceFront(s[m..], k);
      assert s[m..][0] == s[m];
    } else {
      assert s[m..] == "";
    }
    StillIncomplete(s, k, n, tail);
  }

  /** Past its first character, a lead and its body run hold no '&'. */
  lemma NoEntityInLeadOrBody(s: string, k: Entity)
    requires k.HasLead(s)
    ensures forall i :: 0 < i < k.LeadLen() + BodyLen(s[k.LeadLen()..], k) ==> s[i] != '&'
  {
    var L := k.LeadLen();
    var n := BodyLen(s[L..], k);
    forall i | 0 < i < L + n
      ensures s[i] != '&'
    {
      if i >= L {
        assert s[i] == s[L..][i - L];
      }
    }
  }

  /** Appending to an incomplete lead-and-body a tail that starts with neither a
      body character nor ';' leaves it incomplete. */
  lemma StillIncomplete(s: string, k: Entity, n: nat, tail: string)
    requires k.HasLead(s) && !EntityAt(s, k)
    requires n == BodyLen(s[k.LeadLen()..], k)
    requires k.LeadLen() + n < |s| ==> |tail| > 0 && (tail[0] == s[k.LeadLen() + n] || tail[0] == ' ')
    requires k.LeadLen() + n == |s| ==> tail == ""
    ensures !EntityAt(s[..k.LeadLen() + n] + tail, k)
  {
    var L := k.LeadLen();
    var m := L + n;
    var r := s[..m] + tail;
    assert k.HasLead(r) by {
      assert r[0] == s[0] && (L == 2 ==> r[1] == s[1]);
    }
    var u := r[L..];
    assert forall i :: 0 <= i < n ==> u[i] == s[L..][i];
    if m < |s| {
      assert s[m] == s[L..][n];
      assert u[n] == tail[0];
    } else {
      assert |u| == n;
    }
    BodyLenIs(u, k, n);
    if m < |r| {
      assert r[m] == tail[0];
    }
  }

  /** After the replacement no entity is left. */
  lemma {:induction false} ReplaceLeavesNoEntity(s: string, k: Entity)
    ensures NoEntity(ReplaceEntities(s, k), k)
    decreases |s|
  {
    if |s| > 0 {
      var r := ReplaceEntities(s, k);
      if EntityAt(s, k) {
        var rest := ReplaceEntities(s[EntityLen(s, k)..], k);
        ReplaceLeavesNoEntity(s[EntityLen(s, k)..], k);
        assert r == " " + rest;
        NoEntityAtNonAmp(r, k);
        NoEntityCons(r, rest, k);
      } else {
        var rest := ReplaceEntities(s[1..], k);
        ReplaceLeavesNoEntity(s[1..], k);
        assert r == [s[0]] + rest;
        KeptFrontNoEntity(s, k);
        NoEntityCons(r, rest, k);
      }
    }
  }

  /** A text starting without an entity, followed by text without any, has none. */
  lemma NoEntityCons(r: string, rest: string, k: Entity)
    requires |r| > 0 && r[1..] == rest && NoEntity(rest, k) && !EntityAt(r, k)
    ensures NoEntity(r, k)
  {
    assert r[0..] == r;
    forall i | 1 <= i < |r|
      ensures !EntityAt(r[i..], k)
    {
      assert r[i..] == rest[i - 1..];
    }
  }

  /** When the text does not start with an entity, its replacement does not either. */
  lemma KeptFrontNoEntity(s: string, k: Entity)
    requires |s| > 0 && !EntityAt(s, k)
    ensures !EntityAt(ReplaceEntities(s, k), k)
  {
    var r := ReplaceEntities(s, k);
    var rest := ReplaceEntities(s[1..], k);
    assert r == [s[0]] + rest;
    if k.HasLead(s) {
      KeptLeadStaysIncomplete(s, k);
    } else if s[0] == '&' {
      // Only the numeric lead "&#" can fail here: its '#' is missing.
      assert k == Numeric;
      if |s| > 1 {
        ReplaceFront(s[1..], k);
        assert s[1] != '#';
        assert r[1] == rest[0];
      }
    } else {
      NoEntityAtNonAmp(r, k);
    }
  }

  /** Text without entities is left unchanged. */
  lemma {:induction false} ReplaceWithoutEntities(s: string, k: Entity)
    requires NoEntity(s, k)
    ensures ReplaceEntities(s, k) == s
    decreases |s|
  {
    if |s| > 0 {
      assert s[0..] == s;
      assert forall i :: 0 <= i < |s| - 1 ==> s[1..][i..] == s[i + 1..];
      ReplaceWithoutEntities(s[1..], k);
    }
  }

  /** Replacing entities a second time changes nothing. */
  lemma ReplaceIdempotent(s: string, k: Entity)
    ensures ReplaceEntities(ReplaceEntities(s, k), k) == ReplaceEntities(s, k)
  {
    ReplaceLeavesNoEntity(s, k);
    ReplaceWithoutEntities(ReplaceEntities(s, k), k);
  }

  // ---------------------------------------------------------------------------
  // cleanSegment
  // ---------------------------------------------------------------------------

  /** `cleanSegment(text)`: `text ?? ''` with bracketed and parenthesised groups removed,
      numeric then named entities replaced by a space, and whitespace squished. */
  function CleanSegment(text: Option<string>): (r: string)
    ensures IsSquished(r) && IsTrimmed(r)
    ensures r == "" <==> Words(Entities(Groups(text.GetOr("")))) == []
  {
    var d := Entities(Groups(text.GetOr("")));
    SquishProperties(d);
    Squish(d)
  }

  /** The two group removals, square brackets first. */
  function Groups(s: string): string {
    StripGroups(StripGroups(s, Square), Round)
  }

  /** The two entity replacements, numeric first. */
  function Entities(s: string): string {
    ReplaceEntities(ReplaceEntities(s, Numeric), Named)
  }

  /** A missing text cleans to the empty string. */
  lemma CleanMissing()
    ensures CleanSegment(None) == ""
  {
    assert Groups("") == "" && Entities("") == "";
  }

  /** Text with no '[', '(' or '&' is only whitespace-normalised: its words joined
      by single spaces. */
  lemma CleanPlainText(s: string)
    requires forall i :: 0 <= i < |s| ==> s[i] != '[' && s[i] != '(' && s[i] != '&'
    ensures CleanSegment(Some(s)) == Join(Words(s))
  {
    PlainHasNoGroup(s, Square);
    StripWithoutGroups(s, Square);
    PlainHasNoGroup(s, Round);
    StripWithoutGroups(s, Round);
    PlainHasNoEntity(s, Numeric);
    ReplaceWithoutEntities(s, Numeric);
    PlainHasNoEntity(s, Named);
    ReplaceWithoutEntities(s, Named);
    assert Entities(Groups(s)) == s;
  }

  lemma PlainHasNoGroup(s: string, b: Bracket)
    requires forall i :: 0 <= i < |s| ==> s[i] != b.Open()
    ensures NoGroup(s, b)
  {
    assert forall i :: 0 <= i < |s| ==> s[i..][0] == s[i];
  }

  lemma PlainHasNoEntity(s: string, k: Entity)
    requires forall i :: 0 <= i < |s| ==> s[i] != '&'
    ensures NoEntity(s, k)
  {
    forall i | 0 <= i < |s|
      ensures !EntityAt(s[i..], k)
    {
      assert s[i..][0] == s[i];
      NoEntityAtNonAmp(s[i..], k);
    }
  }

  /** Inner whitespace runs collapse to one space. */
  lemma CleanSegmentCollapses()
    ensures CleanSegment(Some("كلمة   أخرى")) == "كلمة أخرى"
  {
    var a, b := "كلمة", "أخرى";
    assert "كلمة   أخرى" == a + "   " + b;
    assert "كلمة أخرى" == a + " " + b;
    TwoArabicWords(a, "   ", b);
  }

  lemma TwoArabicWords(a: string, sp: string, b: string)
    requires |a| > 0 && forall i :: 0 <= i < |a| ==> '\U{0600}' <= a[i] <= '\U{06FF}'
    requires |b| > 0 && forall i :: 0 <= i < |b| ==> '\U{0600}' <= b[i] <= '\U{06FF}'
    requires |sp| > 0 && forall i :: 0 <= i < |sp| ==> sp[i] == ' '
    ensures CleanSegment(Some(a + sp + b)) == a + " " + b
  {
    PrintableWord(a);
    PrintableWord(b);
    SpaceAndNewlineAreSpace();
    CleanPlainText(a + sp + b);
    WordsOfTwo(a, sp, b);
  }

  /** Caption noise in brackets is dropped. */
  lemma CleanSegmentDropsBrackets()
    ensures CleanSegment(Some("[موسيقى] مرحباً")) == "مرحباً"
  {
    assert "[موسيقى] مرحباً" == "[" + "موسيقى" + "]" + " " + "مرحباً";
    BracketThenArabic("موسيقى", "مرحباً");
  }

  /** An Arabic tag in square brackets, then a space and an Arabic word, cleans to the word. */
  lemma BracketThenArabic(tag: string, w: string)
    requires forall i :: 0 <= i < |tag| ==> '\U{0600}' <= tag[i] <= '\U{06FF}'
    requires |w| > 0 && forall i :: 0 <= i < |w| ==> '\U{0600}' <= w[i] <= '\U{06FF}'
    ensures CleanSegment(Some("[" + tag + "]" + " " + w)) == w
  {
    var s := "[" + tag + "]" + " " + w;
    var k := |tag|;
    assert forall i :: 1 <= i <= k ==> s[i] == tag[i - 1];
    LeadingGroup(s, k);
    assert s[k + 2..] == " " + w;
    SameAfterBrackets(s, " " + w);
    SpaceThenArabicWord(w);
  }

  lemma SameAfterBrackets(s: string, t: string)
    requires StripGroups(s, Square) == StripGroups(t, Square)
    ensures CleanSegment(Some(s)) == CleanSegment(Some(t))
  {
    assert Groups(s) == Groups(t);
  }

  /** A string opening with a bracketed group of `k` characters loses it. */
  lemma LeadingGroup(s: string, k: nat)
    requires k + 2 <= |s| && s[0] == '[' && s[k + 1] == ']'
    requires forall i :: 1 <= i <= k ==> s[i] != ']' && !IsLineTerminator(s[i])
    ensures StripGroups(s, Square) == StripGroups(s[k + 2..], Square)
  {
    StopIs(s[1..], ']', k);
  }

  lemma SpaceThenArabicWord(w: string)
    requires |w| > 0 && forall i :: 0 <= i < |w| ==> '\U{0600}' <= w[i] <= '\U{06FF}'
    ensures CleanSegment(Some(" " + w)) == w
    ensures Groups(" " + w) == " " + w
  {
    var rest := " " + w;
    PlainHasNoGroup(rest, Square);
    StripWithoutGroups(rest, Square);
    PlainHasNoGroup(rest, Round);
    StripWithoutGroups(rest, Round);
    CleanPlainText(rest);
    PrintableWord(w);
    SpaceAndNewlineAreSpace();
    WordsOfSpaces(" ");
    WordsConcat(" ", w);
    WordsOfWordThen(w, "");
    assert w + "" == w;
  }

  /** Cleaning twice can differ from cleaning once: a line break stops the lazy
      bracket match, but the whitespace pass turns it into a space, after which the
      brackets do match. */
  lemma CleanSegmentNotIdempotent(s: string, t: string)
    requires s == "[a\nb]" && t == "[a b]"
    ensures CleanSegment(Some(s)) == t
    ensures CleanSegment(Some(t)) == ""
  {
    var a, b := "[a", "b]";
    assert a + "\n" + b == s;
    assert a + " " + b == t;
    assert forall i :: 0 <= i < |a| ==> '!' <= a[i] <= '~' && a[i] != '(' && a[i] != '&' by {
      assert a[0] == '[' && a[1] == 'a' && |a| == 2;
    }
    assert forall i :: 0 <= i < |b| ==> '!' <= b[i] <= '~' && b[i] != '(' && b[i] != '&' by {
      assert b[0] == 'b' && b[1] == ']' && |b| == 2;
    }
    LineBreakKeepsBrackets(s);
    SpacedBracketsGo(t);
    NotIdempotentWords(a, b);
  }

  /** The lazy bracket match stops at the line break. */
  lemma LineBreakKeepsBrackets(s: string)
    requires s == "[a\nb]"
    ensures StripGroups(s, Square) == s
  {
    assert s[1..][1] == '\n';
    StopIs(s[1..], ']', 1);
    assert !GroupAt(s, Square);
    assert forall i :: 1 <= i < |s| ==> s[i..][0] == s[i] && s[i] != '[';
    assert NoGroup(s, Square);
    StripWithoutGroups(s, Square);
  }

  /** Without the line break the whole text is one group. */
  lemma SpacedBracketsGo(t: string)
    requires t == "[a b]"
    ensures CleanSegment(Some(t)) == ""
  {
    assert t[1..][3] == ']';
    assert t[1..][0] == 'a' && t[1..][1] == ' ' && t[1..][2] == 'b';
    StopIs(t[1..], ']', 3);
    assert GroupAt(t, Square);
    assert StripGroups(t, Square) == "";
  }

  lemma NotIdempotentWords(a: string, b: string)
    requires |a| > 0 && forall i :: 0 <= i < |a| ==> '!' <= a[i] <= '~' && a[i] != '(' && a[i] != '&'
    requires |b| > 0 && forall i :: 0 <= i < |b| ==> '!' <= b[i] <= '~' && b[i] != '(' && b[i] != '&'
    requires StripGroups(a + "\n" + b, Square) == a + "\n" + b
    ensures CleanSegment(Some(a + "\n" + b)) == a + " " + b
  {
    var s := a + "\n" + b;
    forall i | 0 <= i < |s|
      ensures s[i] != '(' && s[i] != '&'
    {
      if i < |a| { assert s[i] == a[i]; }
      else if i > |a| { assert s[i] == b[i - |a| - 1]; }
    }
    CleanKeptSquare(s);
    SplitAtNewline(a, b);
  }

  /** A text the square-bracket pass leaves alone, without round brackets or
      ampersands, is only squished. */
  lemma CleanKeptSquare(s: string)
    requires StripGroups(s, Square) == s
    requires forall i :: 0 <= i < |s| ==> s[i] != '(' && s[i] != '&'
    ensures CleanSegment(Some(s)) == Squish(s)
  {
    PlainHasNoGroup(s, Round);
    StripWithoutGroups(s, Round);
    PlainHasNoEntity(s, Numeric);
    ReplaceWithoutEntities(s, Numeric);
    PlainHasNoEntity(s, Named);
    ReplaceWithoutEntities(s, Named);
    assert Entities(Groups(s)) == s;
  }

  lemma SplitAtNewline(a: string, b: string)
    requires |a| > 0 && forall i :: 0 <= i < |a| ==> '!' <= a[i] <= '~'
    requires |b| > 0 && forall i :: 0 <= i < |b| ==> '!' <= b[i] <= '~'
    ensures Squish(a + "\n" + b) == a + " " + b
  {
    PrintableWord(a);
    PrintableWord(b);
    SpaceAndNewlineAreSpace();
    WordsOfTwo(a, "\n", b);
  }

  // ---------------------------------------------------------------------------
  // getTranscript
  // ---------------------------------------------------------------------------

  /** One caption segment; its `text` may be absent. */
  datatype Segment = Segment(text: Option<string>)

  /** A thrown error: its `code` (absent on library errors), its `message` (an absent
      message reads as "") and the `videoId` the module attaches to its own errors. */
  datatype Fault = Fault(code: Option<string>, message: string, videoId: Option<string>)

  /** The transcript library for one video: `Some(lang)` requests a language,
      `None` lets the library choose. */
  type Fetcher = Option<string> -> Result<seq<Segment>, Fault>

  /** The languages tried, in priority order. */
  const ApiLanguages: seq<string> := ["ar", "en", "fr", "de", "es", "tr", "it", "pt"]

  /** Every language is a two-letter code, so none of them is `"auto"`. */
  lemma LanguagesAreCodes(i: nat)
    requires i < |ApiLanguages|
    ensures |ApiLanguages[i]| == 2 && ApiLanguages[i] != "auto"
  {
  }

  /** Index of the first language whose request succeeds. */
  function FirstSuccess(langs: seq<string>, fetch: Fetcher): (r: Option<nat>)
    ensures r.Some? ==> r.value < |langs| && fetch(Some(langs[r.value])).Success?
    ensures r.Some? ==> forall j :: 0 <= j < r.value ==> fetch(Some(langs[j])).Failure?
    ensures r.None? <==> forall j :: 0 <= j < |langs| ==> fetch(Some(langs[j])).Failure?
    decreases |langs|
  {
    if |langs| == 0 then None
    else if fetch(Some(langs[0])).Success? then Some(0)
    else
      match FirstSuccess(langs[1..], fetch)
      case None => None
      case Some(i) => Some(i + 1)
  }

  /** The requests the loop issues, in order: one per language until one succeeds,
      then the automatic request if none did. */
  function Requests(langs: seq<string>, fetch: Fetcher): seq<Option<string>>
    decreases |langs|
  {
    if |langs| == 0 then [None]
    else if fetch(Some(langs[0])).Success? then [Some(langs[0])]
    else [Some(langs[0])] + Requests(langs[1..], fetch)
  }

  /** The loop requests exactly the languages up to the first success, and asks for the
      automatic choice only after every language has failed. */
  lemma {:induction false} RequestsStopAtFirstSuccess(langs: seq<string>, fetch: Fetcher)
    ensures FirstSuccess(langs, fetch).Some? ==>
      var i := FirstSuccess(langs, fetch).value;
      |Requests(langs, fetch)| == i + 1
      && forall j :: 0 <= j <= i ==> Requests(langs, fetch)[j] == Some(langs[j])
    ensures FirstSuccess(langs, fetch).None? ==>
      |Requests(langs, fetch)| == |langs| + 1
      && (forall j :: 0 <= j < |langs| ==> Requests(langs, fetch)[j] == Some(langs[j]))
      && Requests(langs, fetch)[|langs|] == None
    decreases |langs|
  {
    if |langs| > 0 && fetch(Some(langs[0])).Failure? {
      RequestsStopAtFirstSuccess(langs[1..], fetch);
    }
  }

  /** The segments obtained and the language recorded for them. */
  datatype Fetched = Fetched(segments: seq<Segment>, language: string)

  /** `{ code: 'NO_TRANSCRIPT', videoId }` */
  function NoTranscript(videoId: string): Fault {
    Fault(Some("NO_TRANSCRIPT"), "", Some(videoId))
  }

  /** The phrase of the library's message when it finds no captions. */
  const CouldNotGet: string := "Could not get"

  /** The library's message when a video has captions turned off or none at all. */
  predicate MeansNoCaptions(message: string) {
    Contains(message, "disabled") || Contains(message, CouldNotGet)
  }

  /** The language loop and the automatic fallback of `getTranscript`. */
  function FetchSegments(videoId: string, fetch: Fetcher): (r: Result<Fetched, Fault>)
    ensures r.Success? && r.value.language != "auto" ==>
      exists i :: 0 <= i < |ApiLanguages| && ApiLanguages[i] == r.value.language
        && fetch(Some(ApiLanguages[i])) == Success(r.value.segments)
        && forall j :: 0 <= j < i ==> fetch(Some(ApiLanguages[j])).Failure?
    ensures r.Success? && r.value.language == "auto" <==>
      (forall j :: 0 <= j < |ApiLanguages| ==> fetch(Some(ApiLanguages[j])).Failure?)
      && fetch(None).Success?
    ensures r.Success? && r.value.language == "auto" ==> fetch(None) == Success(r.value.segments)
    ensures r.Failure? ==>
      (forall j :: 0 <= j < |ApiLanguages| ==> fetch(Some(ApiLanguages[j])).Failure?)
      && fetch(None).Failure?
      && r.error == (if MeansNoCaptions(fetch(None).error.message) then NoTranscript(videoId)
                     else fetch(None).error)
  {
    match FirstSuccess(ApiLanguages, fetch)
    case Some(i) =>
      LanguagesAreCodes(i);
      Success(Fetched(fetch(Some(ApiLanguages[i])).value, ApiLanguages[i]))
    case None =>
      match fetch(None)
      case Success(segments) => Success(Fetched(segments, "auto"))
      case Failure(e) => Failure(if MeansNoCaptions(e.message) then NoTranscript(videoId) else e)
  }

  /** `segments.map(s => cleanSegment(s.text)).filter(Boolean)` */
  function CleanAll(segments: seq<Segment>): (r: seq<string>)
    ensures forall i :: 0 <= i < |r| ==> r[i] != "" && IsSquished(r[i])
    decreases |segments|
  {
    if |segments| == 0 then []
    else
      var c := CleanSegment(segments[0].text);
      var rest := CleanAll(segments[1..]);
      if c == "" then rest
      else
        CleanedPrepend(c, rest);
        [c] + rest
  }

  lemma CleanedPrepend(c: string, rest: seq<string>)
    requires c != "" && IsSquished(c)
    requires forall i :: 0 <= i < |rest| ==> rest[i] != "" && IsSquished(rest[i])
    ensures forall i :: 0 <= i < |rest| + 1 ==> ([c] + rest)[i] != "" && IsSquished(([c] + rest)[i])
  {
  }

  /** Nothing is left after filtering exactly when every segment cleans to "". */
  lemma {:induction false} CleanAllEmpty(segments: seq<Segment>)
    ensures CleanAll(segments) == [] <==> forall i :: 0 <= i < |segments| ==> CleanSegment(segments[i].text) == ""
    decreases |segments|
  {
    if |segments| > 0 {
      CleanAllEmpty(segments[1..]);
      assert forall i :: 1 <= i < |segments| ==> segments[1..][i - 1] == segments[i];
    }
  }

  /** `.join(' ').replace(/\s+/g, ' ').trim()` over the cleaned segments. */
  function FullText(segments: seq<Segment>): (r: string)
    ensures Words(r) == WordsOfAll(CleanAll(segments))
    ensures IsSquished(r)
    ensures r == "" <==> forall i :: 0 <= i < |segments| ==> CleanSegment(segments[i].text) == ""
  {
    var cs := CleanAll(segments);
    JoinedFacts(cs);
    CleanAllEmpty(segments);
    Squish(Join(cs))
  }

  /** Squishing the join of cleaned segments keeps their words, and is empty only
      when there are no segments left. */
  lemma JoinedFacts(cs: seq<string>)
    requires forall i :: 0 <= i < |cs| ==> cs[i] != "" && IsSquished(cs[i])
    ensures Words(Squish(Join(cs))) == WordsOfAll(cs)
    ensures IsSquished(Squish(Join(cs)))
    ensures Squish(Join(cs)) == "" <==> cs == []
  {
    SquishProperties(Join(cs));
    WordsOfJoinAll(cs);
    if cs != [] {
      SquishedHasWord(cs[0]);
      assert WordsOfAll(cs) == Words(cs[0]) + WordsOfAll(cs[1..]);
    }
  }

  /** A non-empty squished string starts with a word. */
  lemma SquishedHasWord(s: string)
    requires s != "" && IsSquished(s)
    ensures Words(s) != []
  {
    assert !IsSpace(s[0]);
  }

  /** The transcript handed to the summarizer. */
  datatype Transcript = Transcript(fullText: string, language: string, totalWords: nat)

  /** `getTranscript(videoId)` */
  function GetTranscript(videoId: string, fetch: Fetcher): (r: Result<Transcript, Fault>)
    ensures FetchSegments(videoId, fetch).Failure? ==> r == Failure(FetchSegments(videoId, fetch).error)
    ensures FetchSegments(videoId, fetch).Success? && FetchSegments(videoId, fetch).value.segments == [] ==>
      r == Failure(NoTranscript(videoId))
    ensures r.Success? <==>
      FetchSegments(videoId, fetch).Success?
      && exists i :: 0 <= i < |FetchSegments(videoId, fetch).value.segments|
           && CleanSegment(FetchSegments(videoId, fetch).value.segments[i].text) != ""
    ensures (r.Failure? && FetchSegments(videoId, fetch).Success?
             && FetchSegments(videoId, fetch).value.segments != []) ==>
      r.error == Fault(Some("EMPTY_TRANSCRIPT"), "", Some(videoId))
    ensures r.Success? ==>
      && r.value.language == FetchSegments(videoId, fetch).value.language
      && r.value.fullText != ""
      && IsSquished(r.value.fullText)
      && Words(r.value.fullText) == WordsOfAll(CleanAll(FetchSegments(videoId, fetch).value.segments))
      && r.value.totalWords == CountWords(r.value.fullText)
  {
    match FetchSegments(videoId, fetch)
    case Failure(e) => Failure(e)
    case Success(Fetched(segments, language)) =>
      if |segments| == 0 then Failure(NoTranscript(videoId))
      else
        var fullText := FullText(segments);
        if fullText == "" then Failure(Fault(Some("EMPTY_TRANSCRIPT"), "", Some(videoId)))
        else Success(Transcript(fullText, language, CountWords(fullText)))
  }

  /** A caption track in the first language whose only cue has no text gives
      `EMPTY_TRANSCRIPT`: the track exists, but nothing survives cleaning. */
  lemma EmptyCuesAreEmpty(id: string, fetch: Fetcher)
    requires fetch(Some(ApiLanguages[0])) == Success([Segment(None)])
    ensures GetTranscript(id, fetch) == Failure(Fault(Some("EMPTY_TRANSCRIPT"), "", Some(id)))
  {
    var f := FetchSegments(id, fetch);
    assert f.Success? && f.value.language != "auto";
    var i :| 0 <= i < |ApiLanguages| && ApiLanguages[i] == f.value.language
        && fetch(Some(ApiLanguages[i])) == Success(f.value.segments)
        && forall j :: 0 <= j < i ==> fetch(Some(ApiLanguages[j])).Failure?;
    assert i == 0;
    CleanMissing();
    assert f.value.segments == [Segment(None)];
  }

  // ---------------------------------------------------------------------------
  // clipToWords
  // ---------------------------------------------------------------------------

  /** The clipped text and its word count. */
  datatype Clipped = Clipped(text: string, wordCount: nat)

  /** A sentence-ending mark `clipToWords` cuts after: '.', '!', '؟' or '?'. */
  predicate IsMark(c: char) {
    c == '.' || c == '!' || c == '؟' || c == '?'
  }

  /** `s.lastIndexOf(c)`: the last position holding `c`, or -1. */
  function LastIndexOf(s: string, c: char): (r: int)
    ensures -1 <= r < |s|
    ensures r >= 0 ==> s[r] == c
    ensures forall i :: r < i < |s| ==> s[i] != c
  {
    if |s| == 0 then -1
    else if s[|s| - 1] == c then |s| - 1
    else LastIndexOf(s[..|s| - 1], c)
  }

  function MaxInt(a: int, b: int): int {
    if a >= b then a else b
  }

  /** `Math.max` of the four `lastIndexOf` calls: the last mark of `s`, or -1. */
  function LastMark(s: string): (r: int)
    ensures -1 <= r < |s|
    ensures r >= 0 ==> IsMark(s[r])
    ensures forall i :: r < i < |s| ==> !IsMark(s[i])
  {
    MaxInt(MaxInt(LastIndexOf(s, '.'), LastIndexOf(s, '!')),
           MaxInt(LastIndexOf(s, '؟'), LastIndexOf(s, '?')))
  }

  /** The first `n` words of `text` joined by single spaces. */
  function Window(text: string, n: nat): string
    requires n <= CountWords(text)
  {
    Join(Words(text)[..n])
  }

  /** The sentence-boundary rule of `clipToWords`: the window is cut just after its
      last mark when that mark lies past 60% of the window's length, and kept whole
      otherwise. Stated without `lastIndexOf`: the result is a prefix of `w`, no mark
      is cut off, a cut ends at a mark past 60%, and any mark past 60% forces the
      result to end at a mark. */
  function CutAtMark(w: string): (c: string)
    ensures |c| <= |w| && c == w[..|c|]
    ensures forall i :: |c| <= i < |w| ==> !IsMark(w[i])
    ensures |c| < |w| ==> |c| > 0 && IsMark(w[|c| - 1]) && (|c| - 1) as real > 0.6 * (|w| as real)
    ensures forall i :: 0 <= i < |w| && IsMark(w[i]) && (i as real) > 0.6 * (|w| as real) ==>
              i < |c| && IsMark(c[|c| - 1])
  {
    var p := LastMark(w);
    if (p as real) > 0.6 * (|w| as real) then w[..p + 1] else w
  }

  /** `clipToWords(text, maxWords)`: a text within the budget is returned as is;
      otherwise the window of its first `maxWords` words, cut at a sentence boundary.
      Either way the result is within the budget and its count is its own word count. */
  function ClipToWords(text: string, maxWords: nat): (r: Clipped)
    ensures r.wordCount == CountWords(r.text)
    ensures r.wordCount <= maxWords
    ensures CountWords(text) <= maxWords ==> r.text == text
    ensures CountWords(text) > maxWords ==> r.text == CutAtMark(Window(text, maxWords))
  {
    var words := Words(text);
    if |words| <= maxWords then Clipped(text, |words|)
    else
      var w := Join(words[..maxWords]);
      var clipped := CutAtMark(w);
      WindowWords(words, maxWords);
      WordsOfPrefix(w, |clipped|);
      Clipped(clipped, CountWords(clipped))
  }

  lemma WindowWords(words: seq<string>, n: nat)
    requires AllWords(words) && n <= |words|
    ensures CountWords(Join(words[..n])) == n
  {
    assert AllWords(words[..n]);
    WordsOfJoin(words[..n]);
  }

  /** Clipping twice is clipping once: a clipped text is within the budget. */
  lemma ClipIdempotent(text: string, maxWords: nat)
    ensures ClipToWords(ClipToWords(text, maxWords).text, maxWords) == ClipToWords(text, maxWords)
  {
  }
}

=== FILE: values.dfy ===
/** The JavaScript values a request body can carry in the fields the handlers read. */
module Values {

  /** `undefined` (a missing field), `null`, a string, or any other value, known by
      its truthiness and by `String(v)`. */
  datatype Value = Undefined | Null | Str(s: string) | Other(truthy: bool, text: string) {

    /** `!!v` */
    predicate Truthy() {
      match this
      case Str(s) => s != ""
      case Other(t, _) => t
      case _ => false
    }

    /** `String(v)` */
    function AsString(): string {
      match this
      case Undefined => "undefined"
      case Null => "null"
      case Str(s) => s
      case Other(_, t) => t
    }

    /** `v === null || v === undefined`, the values `??` replaces. */
    predicate Nullish() {
      Undefined? || Null?
    }
  }
}

=== FILE: video_id.dfy ===
/** Video-id resolution of api/summarize.js: `extractVideoId` and `isValidVideoId`.
    Each pattern `/lead([\w-]{11})/` is a hand-written leftmost-match scanner. */
module VideoId {
  import opened Wrappers
  import opened Text
  import opened Values

  /** `[\w-]` */
  predicate IsIdChar(c: char) {
    IsWordChar(c) || c == '-'
  }

  /** A video id is eleven characters long. */
  const IdLen: nat := 11

  /** Eleven `[\w-]` characters start at position `i` of `s`. */
  predicate IdAt(s: string, i: nat) {
    i + IdLen <= |s| && forall k :: i <= k < i + IdLen ==> IsIdChar(s[k])
  }

  /** `/^[\w-]{11}$/.test(s)` */
  predicate IsVideoId(s: string) {
    |s| == IdLen && IdAt(s, 0)
  }

  /** `isValidVideoId(id)`: a string of exactly eleven `[\w-]` characters. */
  predicate IsValidVideoId(v: Value) {
    v.Str? && IsVideoId(v.s)
  }

  /** A video id has no whitespace, so trimming leaves it alone. */
  lemma VideoIdIsWord(s: string)
    requires IsVideoId(s)
    ensures IsWord(s) && Trim(s) == s
  {
    forall i | 0 <= i < |s|
      ensures !IsSpace(s[i])
    {
      PrintableIsNotSpace(s[i]);
    }
  }

  /** The examples of summarize.test.js: an id of eleven characters is valid, one of
      three or fourteen characters or with a '!' in it is not. */
  lemma ValidIdExamples(good: string, short: string, long: string, bad: string)
    requires good == "dQw4w9WgXcQ" && short == "abc" && long == "dQw4w9WgXcQXXX"
    requires bad == "dQw4w9Wg!cQ"
    ensures IsValidVideoId(Str(good))
    ensures !IsValidVideoId(Str(short)) && !IsValidVideoId(Str(long)) && !IsValidVideoId(Str(bad))
    ensures !IsValidVideoId(Other(true, good))
  {
    assert !IsIdChar(bad[8]);
  }

  // ---------------------------------------------------------------------------
  // Unanchored patterns `lead([\w-]{11})`
  // ---------------------------------------------------------------------------

  /** The literal part of a pattern: the character at offset `k` is one of `lead[k]`
      (a character class such as `[?&]`, or a single literal character). */
  type Lead = seq<string>

  /** Every class of the lead is made of printable ASCII characters. */
  predicate IsPrintableLead(lead: Lead) {
    forall k :: 0 <= k < |lead| ==> forall i :: 0 <= i < |lead[k]| ==> '!' <= lead[k][i] <= '~'
  }

  /** `[?&]v=` */
  const WatchLead: Lead := ["?&", "v", "="]
  /** `youtu\.be\/` */
  const ShortLinkLead: Lead := ["y", "o", "u", "t", "u", ".", "b", "e", "/"]
  /** `shorts\/` */
  const ShortsLead: Lead := ["s", "h", "o", "r", "t", "s", "/"]
  /** `embed\/` */
  const EmbedLead: Lead := ["e", "m", "b", "e", "d", "/"]
  /** `live\/` */
  const LiveLead: Lead := ["l", "i", "v", "e", "/"]

  /** The five unanchored patterns of api/summarize.js, in the order they are tried. */
  const ApiLeads: seq<Lead> := [WatchLead, ShortLinkLead, ShortsLead, EmbedLead, LiveLead]

  /** The string `w` occurs at position `p` of `s`. */
  predicate LitAt(s: string, p: nat, w: string) {
    p + |w| <= |s| && s[p..p + |w|] == w
  }

  /** The lead occurs at position `p` of `s`. */
  predicate LeadAt(s: string, p: nat, lead: Lead) {
    p + |lead| <= |s| && forall k :: 0 <= k < |lead| ==> s[p + k] in lead[k]
  }

  /** The pattern `lead([\w-]{11})` matches at position `p` of `s`. */
  predicate MatchAt(s: string, p: nat, lead: Lead) {
    LeadAt(s, p, lead) && IdAt(s, p + |lead|)
  }

  /** The leftmost position at or after `p` where the pattern matches. */
  function FindFrom(s: string, lead: Lead, p: nat): (r: Option<nat>)
    ensures r.Some? ==> p <= r.value && MatchAt(s, r.value, lead)
    ensures forall j: nat :: p <= j && (r.None? || j < r.value) ==> !MatchAt(s, j, lead)
    decreases |s| - p
  {
    if p >= |s| then None
    else if MatchAt(s, p, lead) then Some(p)
    else FindFrom(s, lead, p + 1)
  }

  /** `s.match(/lead([\w-]{11})/)?.[1]`: the eleven characters after the leftmost
      occurrence of the pattern. */
  function Capture(s: string, lead: Lead): (r: Option<string>)
    ensures r.None? <==> forall p: nat :: !MatchAt(s, p, lead)
    ensures r.Some? ==> IsVideoId(r.value)
  {
    match FindFrom(s, lead, 0)
    case None => None
    case Some(p) => Some(s[p + |lead|..p + |lead| + IdLen])
  }

  /** The capture is the id after the leftmost match, wherever that match is. */
  lemma CaptureAt(s: string, lead: Lead, p: nat)
    requires MatchAt(s, p, lead)
    requires forall j: nat :: j < p ==> !MatchAt(s, j, lead)
    ensures Capture(s, lead) == Some(s[p + |lead|..p + |lead| + IdLen])
  {
    var r := FindFrom(s, lead, 0);
    assert r.Some?;
    assert !(r.value < p) && !(p < r.value);
  }

  /** The capture of the first pattern of `leads` that matches anywhere in `s`. */
  function FirstCapture(s: string, leads: seq<Lead>): (r: Option<string>)
    ensures r.None? <==> forall i :: 0 <= i < |leads| ==> Capture(s, leads[i]).None?
    ensures r.Some? ==> IsVideoId(r.value)
    decreases |leads|
  {
    if |leads| == 0 then None
    else
      match Capture(s, leads[0])
      case Some(id) => Some(id)
      case None =>
        var r := FirstCapture(s, leads[1..]);
        assert forall i :: 1 <= i < |leads| ==> leads[1..][i - 1] == leads[i];
        r
  }

  /** Pattern `i` of `leads` is the first one that matches `s`, and it captures `id`. */
  predicate FirstMatchIs(s: string, leads: seq<Lead>, i: int, id: string) {
    && 0 <= i < |leads|
    && Capture(s, leads[i]) == Some(id)
    && forall j :: 0 <= j < i ==> Capture(s, leads[j]).None?
  }

  /** The patterns are tried in order: the result is the capture of a matching
      pattern, and no pattern before it matches. */
  lemma {:induction false} FirstCaptureIsFirst(s: string, leads: seq<Lead>)
    requires FirstCapture(s, leads).Some?
    ensures exists i :: FirstMatchIs(s, leads, i, FirstCapture(s, leads).value)
    decreases |leads|
  {
    var id := FirstCapture(s, leads).value;
    if Capture(s, leads[0]).None? {
      FirstCaptureIsFirst(s, leads[1..]);
      var i :| FirstMatchIs(s, leads[1..], i, id);
      assert forall j :: 1 <= j < i + 1 ==> leads[j] == leads[1..][j - 1];
      assert FirstMatchIs(s, leads, i + 1, id);
    } else {
      assert FirstMatchIs(s, leads, 0, id);
    }
  }

  /** Conversely, when pattern `i` is the first that matches, its capture is the
      result. */
  lemma {:induction false} FirstMatchDecides(s: string, leads: seq<Lead>, i: int, id: string)
    requires FirstMatchIs(s, leads, i, id)
    ensures FirstCapture(s, leads) == Some(id)
    decreases i
  {
    if i > 0 {
      assert Capture(s, leads[0]).None?;
      assert forall j :: 0 <= j < i - 1 ==> leads[1..][j] == leads[j + 1];
      assert FirstMatchIs(s, leads[1..], i - 1, id);
      FirstMatchDecides(s, leads[1..], i - 1, id);
    }
  }

  /** Once one of the first `k` patterns matches, the patterns after them are never
      consulted. */
  lemma {:induction false} FirstCapturePrefix(s: string, leads: seq<Lead>, k: nat)
    requires k <= |leads| && FirstCapture(s, leads[..k]).Some?
    ensures FirstCapture(s, leads) == FirstCapture(s, leads[..k])
    decreases k
  {
    assert k > 0 && leads[..k][0] == leads[0];
    if Capture(s, leads[0]).None? {
      assert leads[..k][1..] == leads[1..][..k - 1];
      FirstCapturePrefix(s, leads[1..], k - 1);
    }
  }

  /** `extractVideoId(url)`: `null` for a missing, empty or non-string input;
      otherwise the capture of the first of the five unanchored patterns that matches
      the trimmed input, or the trimmed input itself when it is a bare id. */
  function ExtractVideoId(url: Value): (r: Option<string>)
    ensures r.Some? ==> IsVideoId(r.value)
    ensures !url.Str? ==> r.None?
    ensures url.Str? ==> var t := Trim(url.s);
      (r.None? <==> (forall i :: 0 <= i < |ApiLeads| ==> Capture(t, ApiLeads[i]).None?) && !IsVideoId(t))
    ensures url.Str? && r.Some? ==> exists p :: LitAt(Trim(url.s), p, r.value)
    ensures url.Str? && r.Some? ==> var t := Trim(url.s);
      || (exists i :: FirstMatchIs(t, ApiLeads, i, r.value))
      || ((forall i :: 0 <= i < |ApiLeads| ==> Capture(t, ApiLeads[i]).None?) && r.value == t)
  {
    if !url.Str? || url.s == "" then None
    else
      var t := Trim(url.s);
      var c := FirstCapture(t, ApiLeads);
      if c.Some? then
        CaptureOccurs(t, ApiLeads, c.value);
        FirstCaptureIsFirst(t, ApiLeads);
        c
      else if IsVideoId(t) then
        assert LitAt(t, 0, t);
        Some(t)
      else None
  }

  /** A captured id is a stretch of the searched string. */
  lemma CaptureOccurs(s: string, leads: seq<Lead>, id: string)
    requires FirstCapture(s, leads) == Some(id)
    ensures exists p :: LitAt(s, p, id)
  {
    FirstCaptureIsFirst(s, leads);
    var i :| FirstMatchIs(s, leads, i, id);
    var lead := leads[i];
    var f := FindFrom(s, lead, 0);
    assert f.Some? && Capture(s, lead) == Some(id);
    var p := f.value;
    assert id == s[p + |lead|..p + |lead| + IdLen];
    assert LitAt(s, p + |lead|, id);
  }

  // ---------------------------------------------------------------------------
  // Inputs whose id is known
  // ---------------------------------------------------------------------------

  /** Every lead is at least three characters long. */
  lemma LeadsAreLong(i: nat)
    requires i < |ApiLeads|
    ensures 3 <= |ApiLeads[i]| <= 9
  {
  }

  /** A pattern cannot match a string too short to hold its lead and an id. */
  lemma NoRoom(s: string, lead: Lead)
    requires |s| < |lead| + IdLen
    ensures Capture(s, lead).None?
  {
  }

  /** A bare id is its own id: no pattern with a lead fits in eleven characters. */
  lemma BareIdExtracts(id: string)
    requires IsVideoId(id)
    ensures ExtractVideoId(Str(id)) == Some(id)
  {
    VideoIdIsWord(id);
    forall i | 0 <= i < |ApiLeads|
      ensures Capture(id, ApiLeads[i]).None?
    {
      LeadsAreLong(i);
      NoRoom(id, ApiLeads[i]);
    }
  }

  /** A trimmed watch URL whose first '?' or '&' starts `?v=<id>` yields that id. */
  lemma WatchUrlExtracts(prefix: string, id: string, rest: string)
    requires '?' !in prefix && '&' !in prefix
    requires IsVideoId(id) && IsTrimmed(prefix + "?v=" + id + rest)
    ensures ExtractVideoId(Str(prefix + "?v=" + id + rest)) == Some(id)
  {
    var s := prefix + "?v=" + id + rest;
    var p := |prefix|;
    assert s[p] == '?' && s[p + 1] == 'v' && s[p + 2] == '=';
    assert LeadAt(s, p, WatchLead);
    assert forall k :: p + 3 <= k < p + 3 + IdLen ==> s[k] == id[k - p - 3];
    assert MatchAt(s, p, WatchLead);
    forall j: nat | j < p
      ensures !MatchAt(s, j, WatchLead)
    {
      assert s[j] == prefix[j] && prefix[j] in prefix;
      assert !(s[j] in WatchLead[0]);
    }
    CaptureAt(s, WatchLead, p);
    assert s[p + 3..p + 3 + IdLen] == id;
    assert ApiLeads[0] == WatchLead;
    assert FirstCapture(s, ApiLeads) == Some(id);
  }

  // ---------------------------------------------------------------------------
  // URLs whose prefix cannot hold an id
  // ---------------------------------------------------------------------------

  /** The characters at the positions `seps` are not `[\w-]`; the first is among the
      first eleven characters, each is at most eleven after the one before, and the
      last is at `n - 1`. No run of eleven id characters then starts before `n`. */
  predicate Fenced(s: string, seps: seq<nat>, n: nat) {
    && |seps| > 0 && seps[0] < IdLen && seps[|seps| - 1] + 1 == n
    && (forall i :: 0 <= i < |seps| ==> seps[i] < |s| && !IsIdChar(s[seps[i]]))
    && (forall i :: 0 < i < |seps| ==> seps[i - 1] < seps[i] <= seps[i - 1] + IdLen)
  }

  /** Eleven id characters never start inside a fenced prefix. */
  lemma IdOnlyAfterFence(s: string, seps: seq<nat>, n: nat, q: nat)
    requires Fenced(s, seps, n)
    ensures IdAt(s, q) ==> n <= q
  {
    if q < n {
      var i := 0;
      while seps[i] < q
        invariant 0 <= i < |seps|
        invariant i > 0 ==> seps[i - 1] < q
        decreases |seps| - i
      {
        i := i + 1;
      }
      assert q <= seps[i] < q + IdLen && !IsIdChar(s[seps[i]]);
    }
  }

  /** After a fenced prefix `pre`, a pattern can only match with its lead ending where
      the id begins: it captures the id if its lead sits there, and nothing otherwise. */
  lemma FencedCapture(pre: string, id: string, seps: seq<nat>, lead: Lead)
    requires IsVideoId(id) && Fenced(pre + id, seps, |pre|) && |lead| <= |pre|
    ensures LeadAt(pre + id, |pre| - |lead|, lead) ==> Capture(pre + id, lead) == Some(id)
    ensures !LeadAt(pre + id, |pre| - |lead|, lead) ==> Capture(pre + id, lead).None?
  {
    var s := pre + id;
    var q := |pre| - |lead|;
    forall p: nat
      ensures MatchAt(s, p, lead) ==> p == q
    {
      IdOnlyAfterFence(s, seps, |pre|, p + |lead|);
    }
    if !LeadAt(s, q, lead) {
      assert forall p: nat :: !MatchAt(s, p, lead);
      assert Capture(s, lead).None?;
    } else {
      assert forall k :: |pre| <= k < |s| ==> s[k] == id[k - |pre|];
      assert MatchAt(s, q, lead);
      CaptureAt(s, lead, q);
      assert q + |lead| == |pre| && |s| == |pre| + IdLen;
      assert s[|pre|..|pre| + IdLen] == id;
    }
  }

  /** A trimmed `pre + id` with a fenced `pre` whose `k`-th pattern's lead ends right
      before the id, and no earlier pattern's lead does, yields that id. */
  lemma FencedExtract(pre: string, id: string, seps: seq<nat>, k: nat)
    requires IsVideoId(id) && Fenced(pre + id, seps, |pre|) && IsTrimmed(pre + id)
    requires k < |ApiLeads| && |pre| > 9
    requires LeadAt(pre + id, |pre| - |ApiLeads[k]|, ApiLeads[k])
    requires forall j :: 0 <= j < k ==> !LeadAt(pre + id, |pre| - |ApiLeads[j]|, ApiLeads[j])
    ensures ExtractVideoId(Str(pre + id)) == Some(id)
  {
    var s := pre + id;
    forall j | 0 <= j <= k
      ensures j < k ==> Capture(s, ApiLeads[j]).None?
      ensures j == k ==> Capture(s, ApiLeads[j]) == Some(id)
    {
      LeadsAreLong(j);
      FencedCapture(pre, id, seps, ApiLeads[j]);
    }
    assert FirstMatchIs(s, ApiLeads, k, id);
    FirstMatchDecides(s, ApiLeads, k, id);
  }

  /** The separators of `https://www.youtube.com/`: ':' at 5, '.' at 11 and 19, '/' at 23. */
  lemma HostFenced(pre: string, host: string)
    requires host == "https://www.youtube.com/" && |pre| >= |host| && pre[..|host|] == host
    ensures pre[5] == ':' && pre[11] == '.' && pre[19] == '.' && pre[23] == '/'
    ensures pre[21] == 'o' && pre[22] == 'm'
  {
    assert forall k :: 0 <= k < |host| ==> pre[k] == host[k];
  }

  /** `https://www.youtube.com/shorts/<id>` yields the id: the watch and short-link
      leads cannot end before the id, and `shorts/` does. */
  lemma ShortsUrlExtracts(host: string, path: string, id: string)
    requires host == "https://www.youtube.com/" && path == "shorts/" && IsVideoId(id)
    ensures ExtractVideoId(Str(host + path + id)) == Some(id)
  {
    var pre := host + path;
    var s := pre + id;
    assert pre[..|host|] == host;
    HostFenced(pre, host);
    assert |host| == 24 && pre[24..] == path;
    assert path[6] == '/';
    assert path[4] == 't';
    assert pre[30] == path[6];
    assert pre[28] == path[4];
    assert forall k :: 0 <= k < 31 ==> s[k] == pre[k];
    var seps: seq<nat> := [5, 11, 19, 23, 30];
    assert Fenced(s, seps, 31);
    TrimmedEnds(s);
    assert LeadAt(s, 24, ShortsLead);
    assert s[28] == 't' && s[28 + 0] !in WatchLead[0];
    assert s[22] == 'm' && s[22 + 0] !in ShortLinkLead[0];
    assert ApiLeads[0] == WatchLead && ApiLeads[1] == ShortLinkLead && ApiLeads[2] == ShortsLead;
    FencedExtract(pre, id, seps, 2);
  }

  /** `https://www.youtube.com/embed/<id>` yields the id: the watch, short-link and
      shorts leads cannot end before the id, and `embed/` does. */
  lemma EmbedUrlExtracts(host: string, path: string, id: string)
    requires host == "https://www.youtube.com/" && path == "embed/" && IsVideoId(id)
    ensures ExtractVideoId(Str(host + path + id)) == Some(id)
  {
    var pre := host + path;
    var s := pre + id;
    assert pre[..|host|] == host;
    HostFenced(pre, host);
    assert |host| == 24 && pre[24..] == path;
    assert path[5] == '/';
    assert path[3] == 'e';
    assert pre[29] == path[5];
    assert pre[27] == path[3];
    assert forall k :: 0 <= k < 30 ==> s[k] == pre[k];
    var seps: seq<nat> := [5, 11, 19, 23, 29];
    assert Fenced(s, seps, 30);
    TrimmedEnds(s);
    assert LeadAt(s, 24, EmbedLead);
    assert s[27] == 'e' && s[27 + 0] !in WatchLead[0];
    assert s[21] == 'o' && s[21 + 0] !in ShortLinkLead[0];
    assert s[23] == '/' && s[23 + 0] !in ShortsLead[0];
    assert ApiLeads[0] == WatchLead && ApiLeads[1] == ShortLinkLead;
    assert ApiLeads[2] == ShortsLead && ApiLeads[3] == EmbedLead;
    FencedExtract(pre, id, seps, 3);
  }

  /** A URL starting with 'h' and ending in an id character is trimmed. */
  lemma TrimmedEnds(s: string)
    requires |s| > 0 && s[0] == 'h' && IsIdChar(s[|s| - 1])
    ensures IsTrimmed(s)
  {
    PrintableIsNotSpace(s[0]);
    PrintableIsNotSpace(s[|s| - 1]);
  }
}

=== FILE: wrappers.dfy ===
/** Option and Result datatypes used for the source's `null` returns and thrown errors. */
module Wrappers {

  /** A value that may be absent: the source's `null`/`undefined`. */
  datatype Option<+T> = None | Some(value: T) {

    /** The value, or `default` when absent (the source's `x ?? default`). */
    function GetOr(default: T): T {
      match this
      case Some(v) => v
      case None => default
    }
  }

  /** A computation that either produces a value or throws an error value. */
  datatype Result<+R, +E> = Success(value: R) | Failure(error: E)
}
